=== FILE: README.md ===
# ZeroChat backend core, modelled in Dafny

ZeroChat is a chat server for AI "roles". Each role has a persona and a per-role memory: a core-memory text, a short-term log and a summary counter. Roles answer user messages, send proactive messages on a schedule, run reminder tasks, and post and comment in a shared "moments" feed. This project models the server's core as pure functions over immutable data:

- `Memory`: the memory store of `services/memory_service.py`. This covers the 50-entry log, the block-aligned context windows, the 20/30 summary gate and the summary pass.
- `Scheduler`: the decisions of `services/scheduler_service.py`.
  - The proactive fire time, drawn from a random interval and deferred by quiet hours.
  - The job table, keyed by job id and replaced on reschedule.
  - Skipping past-due tasks, the task event, and the periodic moment check.
- `Dispatcher` and `Events`: the AI-event entry point of `routers/ai_behavior.py`.
  - Routing by event type and the uniform response shape.
  - What each handler appends to memory.
  - Assembling the extra context, the probability gates, and the emotion tag.
- `AiService`: message and prompt assembly and the uniform call result of `services/ai_service.py`.
- `Search`: the search gate and the result formatter of `services/search_service.py`.
- `Roles`, `RoleChats`, `Moments`, `Tasks`, `Settings` and `Chat`: the list and record operations of the routers `roles.py`, `moments.py`, `tasks.py`, `settings.py` and `chat.py`, and of `services/settings_service.py`.
- `Profile`, `Common`, `Seqs` and `Text`: the stored role profile, plus Python's slicing, sorting, filtering and string operations that the code relies on.

Everything outside the process is an input rather than an effect:

- the clock (`Common.Clock`, one reading per operation);
- random draws (numbers passed in);
- generated ids (strings passed in);
- the language model (`AiService.Transport`: a reply text or a failure);
- the files (maps and sequences: `Memory.Store`, `Roles.RoleStore`, `Chat.ChatFiles`, `Settings.SettingsFile`, and the feed, task and transcript sequences).

Five helpers are injected in the same way, because `handle_chat`, `handle_proactive` and the emotion detector import them from modules that do not define them: `server/services/memory_service.py` defines none of the four memory helpers below, and `server/services/ai_service.py` has no `call_ai_direct`:

- `_get_memory_length`, `_if_in_menstruation`, `_get_menstruation_cycle_info` and `sequential_memory_generation`: `Dispatcher.MemoryExtras`, either missing (the import raises) or the values they returned;
- `call_ai_direct`: `Dispatcher.DirectCall`.

Where the code and its documentation disagree, the model follows the code:

- `trigger_memory_summary` answers `None` both when the gate is closed and when the call fails. It never answers "noneed".
- The summary pass of `handle_chat` runs on the fixed worker id "1000000000000", not on the role.
- `handle_memory_summarization` answers a bare string or null, not an `AIResponse`.
- The scheduler applies the quiet-hours test exactly as written (see Findings).

## Model

| member | source | states |
|---|---|---|
| Memory.LoadDefault | server/services/memory_service.py:18-29 | A role with no memory file loads with an empty core, an empty log, no summary time and a zero counter, so its summary gate is closed |
| Memory.CapLog | server/services/memory_service.py:55-56 | The cut keeps the newest entries: exactly min(length, 50) of them, as a suffix of the log |
| Memory.CapLogAppend | server/services/memory_service.py:56 | Cutting to 50 before appending more and cutting again equals cutting once at the end, so repeated appends behave like one batch |
| Memory.AppendRecord | server/services/memory_service.py:49-57 | After one append the entry is the newest one, the earlier entries keep their order, the length is min(old+1, 50), the counter grows by exactly one, and the core and summary time are unchanged |
| Memory.AppendShortTerm | server/services/memory_service.py:38-59 | `append_short_term` rewrites only the role's record, with the appended record stamped by the save; every other role's record is unchanged |
| Memory.AppendAllStore | server/services/memory_service.py:38-59 | A run of appends changes only the role's own record |
| Memory.AppendAllEffect | server/services/memory_service.py:49-57 | After a batch of appends, the log is the newest 50 of old log plus batch, the counter grew by the batch size, and core and summary time are untouched |
| Memory.BlockStart | server/services/memory_service.py:78 | `((total-1)//limit)*limit` is a multiple of `limit`, is at most total-1, and lies less than `limit` before it |
| Memory.ContextMessages | server/services/memory_service.py:61-83 | `[]` for a non-positive limit or an empty log. Otherwise 1..limit entries: the aligned block from `block_start` to the end of the log, projected to role and content, in order, ending with the newest entry |
| Memory.ContextIsNewestBlock | server/services/memory_service.py:78-82 | An entry is served iff its index falls in the same `limit`-sized block as the newest entry's index |
| Memory.BlockAdvance | server/services/memory_service.py:78-79 | The window moves only when the log length passes a multiple of the limit, and the new window then starts at the old length |
| Memory.UpdateCoreMemory | server/services/memory_service.py:90-96 | Sets the core, stamps the summary time and resets the counter to 0; the log and every other role are unchanged |
| Memory.ShouldSummarize | server/services/memory_service.py:98-112 | Before any summary the gate opens at 20 messages since the last summary; after one, at 30 |
| Memory.SummaryGateBoundaries | server/services/memory_service.py:106-112 | Before any summary 19 is closed and 20 open; after one, 29 is closed and 30 open |
| Memory.AppendOpensGateAtThreshold | server/services/memory_service.py:98-112 | An append never closes an open gate, and opens a closed one only on the message that reaches the threshold |
| Memory.SummaryClosesGate | server/services/memory_service.py:90-112 | Right after a summary the gate is closed; a later batch of appends opens it iff it has at least 30 messages |
| Memory.SummaryLines | server/services/memory_service.py:132-135 | One prompt line per log entry, in order |
| Memory.SummaryPromptQuotes | server/services/memory_service.py:132-145 | The prompt holds the core memory or "（暂无）", then the whole log if it has at most 30 entries and else its newest 30, one line each |
| Memory.SummaryPromptUsesNewest | server/services/memory_service.py:132-145 | Only the newest 30 entries reach the summary prompt: older entries, however many, do not change it |
| Memory.TriggerMemorySummary | server/services/memory_service.py:114-154 | Closed gate: no call, `None`, nothing changed. Open gate: one call with the summary prompt. A successful non-empty reply is stripped, stored as the core by `update_core_memory` and returned; any other outcome changes nothing |
| Memory.SummaryKeepsLogs | server/services/memory_service.py:147-154 | A summary pass never changes any role's log, nor any other role's record |
| Memory.ClearShortTerm | server/services/memory_service.py:156-160 | The log is emptied; core, counter and summary time stay; other roles are unchanged |
| Memory.MemoryContextString | server/services/memory_service.py:162-169 | Empty iff the core is empty; otherwise the fixed prefix followed by the core, which can be read back from it |
| Scheduler.JobIdsDistinct | server/services/scheduler_service.py:70-74 | Proactive, task and moment-check job ids never collide, and each proactive or task id determines its role or task |
| Scheduler.RandInt | server/services/scheduler_service.py:91 | The drawn interval lies in [min, max], both ends included |
| Scheduler.RandIntCovers | server/services/scheduler_service.py:89-91 | Every interval in [min, max] is some draw's outcome |
| Scheduler.QuietDeferral | server/services/scheduler_service.py:102-104 | The deferred time is at the quiet-end hour, today or tomorrow, not before now and less than a day ahead. An end hour outside 0..23 makes `replace` raise |
| Scheduler.PlanFor | server/services/scheduler_service.py:88-104 | An enabled config raises iff min > max or the deferral raises; outside quiet hours the time is now plus an interval in [min, max] minutes; inside them it is the deferral |
| Scheduler.ProactivePlanAsWritten | server/services/scheduler_service.py:84-104 | The plan with the code's quiet test `quiet_start <= hour or hour < quiet_end`: no job iff the profile is missing or disabled; otherwise the interval bounds or the deferral, with the same raising cases |
| Scheduler.ProactivePlan | server/services/scheduler_service.py:84-104 | The corrected plan: inside the half-open quiet window the message is due strictly later, within a day, at the end hour, and outside the window |
| Scheduler.QuietWindowExact | server/services/scheduler_service.py:96-100 | The corrected window holds exactly the hours from the start hour, going round the clock, before the end hour |
| Scheduler.QuietTestsAgreeWhenWrapping | server/services/scheduler_service.py:100 | The code's test and the corrected one agree on every window that wraps past midnight, the default 23-7 among them |
| Scheduler.PlansAgreeWhenWrapping | server/services/scheduler_service.py:96-104 | For a wrapping window, as-written and corrected plans are equal |
| Scheduler.AsWrittenQuietAllDay | server/services/scheduler_service.py:100 | As written, a window whose start is not after its end counts every hour as quiet |
| Scheduler.AsWrittenDefersEveryHour | server/services/scheduler_service.py:99-104 | As written, a non-wrapping window defers every message, at any hour, to the end hour |
| Scheduler.QuietHoursCounterexample | server/services/scheduler_service.py:100 | Quiet 1-6 at noon: the code schedules 06:00 the next day; the corrected plan schedules noon plus 30 minutes |
| Scheduler.IntervalOutsideQuietHours | server/services/scheduler_service.py:89-93 | Outside quiet hours the message is due exactly the drawn number of minutes from now, and every interval in range is reachable |
| Scheduler.ScheduleProactive | server/services/scheduler_service.py:67-112 | The role's old job always goes. A job is then added iff the plan fires, at the plan's time, for this role. The call raises iff the plan raises. Every other job is unchanged |
| Scheduler.FireProactive | server/services/scheduler_service.py:116-129 | Emits the proactive event iff a callback is registered. If the callback raises, the fired job is gone and nothing is rescheduled. Otherwise the role is scheduled afresh. Only the role's own job can change |
| Scheduler.InitProactiveJobs | server/services/scheduler_service.py:58-65 | Only jobs of listed roles appear or disappear; the loop raises iff some role's plan raises |
| Scheduler.InitProactiveJobsComplete | server/services/scheduler_service.py:58-65 | When nothing raises, each listed role ends with a job iff its plan fires, at the plan's time |
| Scheduler.InitProactiveJobsKeeps | server/services/scheduler_service.py:58-65 | A job id that names no listed role passes through the loop unchanged |
| Scheduler.TaskRunTime | server/services/scheduler_service.py:156-163 | A task runs only if its trigger time is set, non-empty, parses, and is not before now |
| Scheduler.ScheduleTask | server/services/scheduler_service.py:146-175 | The task's old job always goes; a new job at the run time is added iff there is one; every other job is unchanged |
| Scheduler.ScheduleAll | server/services/scheduler_service.py:140-144 | The task loop adds or replaces only task jobs, each at a time not in the past; every other job is as before |
| Scheduler.InitScheduledTasks | server/services/scheduler_service.py:133-144 | No task file leaves the table as it was. Otherwise every job that names no enabled task is kept, every new or changed job is a task job not in the past, and with distinct ids each enabled task ends with a job iff it has a run time, at that time |
| Scheduler.ScheduleAllKeeps | server/services/scheduler_service.py:133-144 | A job id that names no enabled task passes through the task loop unchanged |
| Scheduler.ScheduleAllComplete | server/services/scheduler_service.py:133-144 | With distinct ids, each enabled task ends with a job iff it has a run time, and at that time |
| Scheduler.ScheduledTasksAreFuture | server/services/scheduler_service.py:142-163 | After the loop every job was already there unchanged, or is a task job not in the past |
| Scheduler.TaskEvent | server/services/scheduler_service.py:177-187 | With a callback, a task event for the task's role carrying `task_id`. The content is the stored `ai_prompt` whenever the key exists, even null or "", and the message otherwise |
| Scheduler.MomentTick | server/services/scheduler_service.py:205-232 | A "moment" event with empty content fires iff there is a callback, at least one profile, and a draw below 0.3 |
| Scheduler.MomentTickCovers | server/services/scheduler_service.py:223-231 | Every role with a profile can be the one that posts |
| Scheduler.StartScheduler | server/services/scheduler_service.py:37-47 | A running scheduler is left alone. Otherwise it starts and schedules the roles, the tasks and the moment check, in that order. An exception in the role loop escapes with the role jobs made so far and skips the rest. Without one, the final table is the role table run through the task loop, plus the moment check |
| Scheduler.CleanStartSchedulesAll | server/services/scheduler_service.py:37-47 | After a clean start, each listed role has its proactive job iff its plan fires, at the plan's time; each enabled task (ids distinct) has its job iff it has a run time; the moment check is there |
| Scheduler.RoleSurvivesTasks | server/services/scheduler_service.py:133-144 | The task loop never touches a role's proactive job |
| Scheduler.StopScheduler | server/services/scheduler_service.py:49-54 | Stopping leaves the scheduler not running with its jobs kept |
| Scheduler.GetSchedulerStatus | server/services/scheduler_service.py:236-251 | Reports the running flag, the job count and exactly the job ids in the table |
| Scheduler.FreshStartHasMomentCheck | server/services/scheduler_service.py:191-201 | A clean start with no roles and no task file leaves exactly the `moment_check` job |
| Events.ParseEventType | server/routers/ai_behavior.py:23-29 | A parsed event type is the one whose wire string was sent |
| Events.WireRoundTrip | server/routers/ai_behavior.py:23-29 | Every event type parses back from its wire string |
| Events.WireInjective | server/routers/ai_behavior.py:23-29 | No two event types share a wire string |
| Dispatcher.LoadRole | server/routers/ai_behavior.py:46-50 | The stored profile of the role when there is one, otherwise nothing |
| Dispatcher.Suffix | server/routers/ai_behavior.py:107 | `Path.suffix`: empty unless the name has a last dot that neither opens nor ends it; otherwise the name's tail from that dot |
| Dispatcher.DetectEmotion | server/routers/ai_behavior.py:53-114 | Raises iff the draw passes and `call_ai_direct` is missing. Gives a label iff all of these hold: the draw passes; the worker has model, URL and key; the call succeeds; the stripped lower-cased answer is one of the eight labels; that label's folder holds an image file |
| Dispatcher.NoneSelectsNothing | server/routers/ai_behavior.py:95-98 | An answer reading "none", in any case or padding, selects no emoji |
| Dispatcher.CycleSentence | server/routers/ai_behavior.py:188 | A cycle sentence opens with the fixed header and ends with a newline |
| Dispatcher.CycleNoteOf | server/routers/ai_behavior.py:184-196 | Indexing the missing cycle info raises iff menstruating with a day and no info; otherwise a sentence is added iff both values are present |
| Dispatcher.ChatExtraParts | server/routers/ai_behavior.py:179-200 | The extra parts are, in order: the memory text, the cycle sentence and the tagged attached record, each kept only when non-empty |
| Dispatcher.ExtraContext | server/routers/ai_behavior.py:202 | No parts give `None`. One part is itself. More parts are the first part, a blank line ("\n\n"), then the join of the rest |
| Dispatcher.ThreePartContext | server/routers/ai_behavior.py:202 | Three parts are joined in order with a blank line between neighbours |
| Dispatcher.AllPartsContext | server/routers/ai_behavior.py:179-202 | With memory, a cycle sentence and an attached record, the extra context is the memory, the sentence, then "[外挂记录]\n" and the record, blank-line separated |
| Dispatcher.MemoryOnlyContext | server/routers/ai_behavior.py:179-202 | With no cycle sentence and no attached record, the extra context is the memory text, or `None` when it is empty |
| Dispatcher.HistoryOf | server/routers/ai_behavior.py:160 | One history item per served message, in order, with the same role and content (the messages actually sent are stated by `Dispatcher.ChatCall`) |
| Dispatcher.TwoAppends | server/routers/ai_behavior.py:218-219 | A chat's two appends add the user turn and then the reply, raise the counter by two, and change no other role |
| Dispatcher.ChatRecorded | server/routers/ai_behavior.py:218-222 | Recording a reply adds both turns to the role's log; only the role and the summary worker can change |
| Dispatcher.SummaryFrame | server/routers/ai_behavior.py:222 | The summary pass on the worker id changes only the worker's record and never any log |
| Dispatcher.Tagged | server/routers/ai_behavior.py:230-233 | The reply is kept as a prefix, with " [label]" appended exactly when an emoji was found |
| Dispatcher.ChatAnswered | server/routers/ai_behavior.py:229-242 | After recording, the answer raises iff emotion detection raises; otherwise it is a successful reply with the tagged text and the role name and emoji as metadata |
| Dispatcher.ChatCall | server/routers/ai_behavior.py:157-210 | The generation raises iff the role has neither persona nor system prompt. The request sent is: a system message carrying the memory, cycle and attached-record context; then each served history message in order; then the user message with the time suffix. On success the reply text is the content; on failure there is an error |
| Dispatcher.ChatStore | server/routers/ai_behavior.py:171 | After `sequential_memory_generation(role_id, "1000000000003", message)`, the role's and the worker's records are as the step left them, and every other record is unchanged. With nothing written, the store is unchanged |
| Dispatcher.ReplyFollowsSequentialWrite | server/routers/ai_behavior.py:160-232 | When the sequential step rewrote the role's memory, a replied chat puts its two turns after the log the step left |
| Dispatcher.ChatAfterSequence | server/routers/ai_behavior.py:179-242 | After the sequential step: a failed call answers "ignore" and records nothing. A reply appends the user turn and the reply to the role's log, and the answer starts with the reply. Only the role and the summary worker can change |
| Dispatcher.HandleChat | server/routers/ai_behavior.py:147-242 | Missing helpers raise with no effect. A failed call answers "ignore" and records nothing beyond what the sequential step wrote. A reply appends the time-stamped user turn and the reply to the role's log as the sequential step left it, and the answer starts with the reply text. Only the role and the two worker ids can change |
| Dispatcher.ProactivePrompt | server/routers/ai_behavior.py:252 | The prompt is the event's content when non-empty, else the non-empty default |
| Dispatcher.HandleProactive | server/routers/ai_behavior.py:246-278 | Raises iff the helpers are missing or the role has neither persona nor system prompt; missing helpers have no effect. Otherwise exactly one call is made: the role generation with the proactive prompt, the served context block as history and the memory context string as extra context. A failed call answers "ignore" and records nothing. A reply appends exactly one assistant turn, raises the counter by one, keeps the core and other roles, and answers "reply" with type "proactive" |
| Dispatcher.HandleTask | server/routers/ai_behavior.py:286-314 | Raises iff the role has neither persona nor system prompt. Exactly one call is made. Its request is the system message with the memory context as extra context, then the time-stamped task prompt, with no history. A failed call records nothing. A reply appends one assistant turn and answers "reply" with type "task" and the context's task id |
| Dispatcher.HandleMomentPost | server/routers/ai_behavior.py:318-334 | One call with the post prompt and the context's mood; memory untouched; "post" with the content on success, "ignore" with the error otherwise |
| Dispatcher.HandleMomentComment | server/routers/ai_behavior.py:338-366 | A draw above 0.5 answers "ignore" with no call. Otherwise one call with the context's post, author (default "用户") and `reply_to`, answering "comment" or the error. Memory is untouched |
| Dispatcher.HandleMemorySummarization | server/routers/ai_behavior.py:280-281 | Returns the new core iff the worker's gate is open and the call returns non-empty text; only the worker's record can change |
| Dispatcher.HandleAiEvent | server/routers/ai_behavior.py:119-143 | An unknown role is a 404 with no effect or call. A failed response has the "ignore" shape and changes no memory beyond the sequential step. Only chat, proactive, task and summarization can change memory, and only for the role and the worker ids |
| Dispatcher.ReplyDispatch | server/routers/ai_behavior.py:130-135 | A proactive or task event of a known role goes to its own handler |
| Dispatcher.MissingHelpersRaise | server/routers/ai_behavior.py:149-155 | With the helpers missing, chat and proactive events always raise and change nothing |
| Dispatcher.GetAiStatus | server/routers/ai_behavior.py:370-389 | 404 iff the role is unknown; otherwise the name, proactive flag, counter, whether the core is non-empty, and the log length |
| Dispatcher.StatusAfterAppend | server/routers/ai_behavior.py:385-388 | One append with the core kept raises the reported counter by one, the log count by one up to 50, and keeps `has_core_memory` |
| Dispatcher.ReplyCountsInStatus | server/routers/ai_behavior.py:379-389 | A successful proactive or task reply shows in the status: counter +1, log count +1 up to 50, `has_core_memory` unchanged |
| AiService.NormalizeUrl | server/services/ai_service.py:38-41 | A DeepSeek URL not ending in "chat/completions/" becomes the fixed endpoint; every other URL is used as is |
| AiService.EndpointIsDeepSeek | server/services/ai_service.py:41 | The fixed endpoint is itself a DeepSeek completions URL |
| AiService.NormalizeUrlStable | server/services/ai_service.py:38-41 | Normalising twice is normalising once, and only "" normalises to "" |
| AiService.CallAi | server/services/ai_service.py:19-73 | No request iff URL or key is empty, answered "AI API 未配置". Otherwise it posts to the normalised URL with the configured model. Success iff the model replied and there are messages; a success carries the last message sent as `user_content` |
| AiService.ExtraContextIsSuffix | server/services/ai_service.py:96-103 | A non-empty extra context is appended after everything else with its prefix; an empty one adds nothing |
| AiService.RoleMessages | server/services/ai_service.py:90-121 | Raises iff persona and system prompt are both empty. Otherwise: the system message, then the history in order with defaults "user" and "", then the user message with the time suffix |
| AiService.GenerateWithRole | server/services/ai_service.py:75-122 | Raises in the same case. Otherwise the call sends exactly the messages `AiService.RoleMessages` builds; a success echoes the time-stamped user message |
| AiService.MomentPostPrompt | server/services/ai_service.py:159-171 | The post prompt opens with the introduction and rules and ends with the closing instruction |
| AiService.MoodLineInsertion | server/services/ai_service.py:169 | A non-empty mood inserts exactly one line before the closing instruction; an empty mood equals none |
| AiService.GenerateMomentPost | server/services/ai_service.py:152-174 | Sends a single user message holding the post prompt |
| AiService.MomentCommentPrompt | server/services/ai_service.py:185-198 | The instruction replies to `reply_to` when it is non-empty, else comments on the post; the rest is identical |
| AiService.GenerateMomentComment | server/services/ai_service.py:176-201 | Sends a single user message holding the comment prompt |
| Search.ShouldSearch | server/services/search_service.py:11-55 | With the service's keyword lists: a trigger in the lower-cased message means yes; failing that, yes iff the message is a question that contains an entity hint |
| Search.SearchDecision | server/services/search_service.py:11-55 | A trigger in the lower-cased message decides yes, whatever surrounds it. Failing that, yes iff the stripped message ends with a question mark and contains an entity hint |
| Search.TriggerDecides | server/services/search_service.py:40-44 | Any trigger keyword found in the lower-cased message asks for a search |
| Search.TriggerSurvivesContext | server/services/search_service.py:40-44 | A message with a trigger still asks for a search inside any longer text |
| Search.UpperCaseTrigger | server/services/search_service.py:19-42 | "GOOGLE" asks for a search, because the keyword test runs on the lower-cased message |
| Search.TriggersNonEmpty | server/services/search_service.py:17-38 | No trigger keyword is empty |
| Search.EmptyNeverSearches | server/services/search_service.py:40-55 | With non-empty keywords the empty message never asks for a search |
| Search.EmptyMessageNoSearch | server/services/search_service.py:40-55 | `should_search("")` is false |
| Search.HintedQuestionSearches | server/services/search_service.py:47-52 | A question containing an entity hint asks for a search |
| Search.QuestionWithHint | server/services/search_service.py:47-52 | "你是谁？" asks for a search |
| Search.HitsLinesAt | server/services/search_service.py:98-103 | Result k has its numbered title line after k titles and the earlier bodies, and its body line right after it when the body is non-empty |
| Search.HitsLinesLength | server/services/search_service.py:98-103 | Each result gives one title line, plus one line for a non-empty body |
| Search.ResultLines | server/services/search_service.py:97-106 | The lines are: the header, then titles numbered 1..n in order with their non-empty bodies, then a blank line and the instruction |
| Search.FormatSearchResults | server/services/search_service.py:90-108 | "" iff there are no results; otherwise the result lines joined by newlines |
| Roles.CreateRole | server/routers/roles.py:140-190 | For a known id, every supplied field overwrites and all others, the id included, stay. For a new id the fixed defaults apply: personality 50s, proactive off, gender "men", cycle 30/6. The returned profile is the stored one, and no other role changes |
| Roles.UpsertAgain | server/routers/roles.py:148-150 | Upserting a request into a profile that already holds its fields changes nothing |
| Roles.CreateRoleIdempotent | server/routers/roles.py:143-153 | Posting the same body twice at one moment stores what posting it once does |
| Roles.MinimalCreateResetsPersona | server/routers/roles.py:34-57 | A body with only id and name still carries the declared "" and [] defaults, which blank an existing role's persona, system prompt and core memory |
| Roles.UpdateRole | server/routers/roles.py:192-203 | 404 iff the role is unknown; otherwise exactly the supplied fields are written; every other field stays, including the attached record and the per-role model, URL and key, and `updated_at` is refreshed |
| Roles.UpdateRoleIdempotent | server/routers/roles.py:199-202 | Applying an update twice equals applying it once; an empty update only refreshes `updated_at` |
| Roles.OrElse | server/routers/roles.py:221-222 | `x or default`: a missing or empty value falls back |
| Roles.NormalizeItem | server/routers/roles.py:218-227 | A normalised entry always has a role. A dict keeps its role, content and timestamp: an empty or missing role becomes "assistant", missing content "", and an empty or missing timestamp now. A non-dict item becomes an assistant entry stamped now |
| Roles.NormalizeShortTerm | server/routers/roles.py:216-228 | One entry per item, in order |
| Roles.NormalizeFixesNormal | server/routers/roles.py:216-228 | A log that is already normal is returned unchanged, whatever the clock |
| Roles.NormalizeIdempotent | server/routers/roles.py:216-228 | Normalising twice is normalising once, given a non-empty clock text |
| Roles.UpdateMemory | server/routers/roles.py:241-257 | Replaces core and log only when supplied, the log as assistant entries stamped now; counter, summary time and other roles stay |
| RoleChats.SaveMessage | server/routers/roles.py:533-555 | Appends the message iff its id is new; the id set gains exactly its id |
| RoleChats.SaveIdempotent | server/routers/roles.py:547-549 | Re-posting a message changes nothing |
| RoleChats.Unseen | server/routers/roles.py:571-577 | The appended messages are batch messages whose ids are not stored, no id twice; they carry exactly the new ids |
| RoleChats.UnseenAppend | server/routers/roles.py:571-577 | One batch message further, the message is appended iff its id is neither stored nor earlier in the batch; so the result is the first message of each new id, in batch order |
| RoleChats.Sync | server/routers/roles.py:557-586 | The result is the stable timestamp sort of the old transcript followed by the unseen messages: sorted, a permutation of them. `added` is the growth and the number of new ids. The id set is the union |
| RoleChats.SyncKeepsOrderPerTimestamp | server/routers/roles.py:571-580 | Messages with equal timestamps keep their order: the stored ones as stored, then the new ones in batch order |
| RoleChats.IdsOfPermutation | server/routers/roles.py:580 | Sorting keeps the set of ids |
| RoleChats.SyncAgainAddsNothing | server/routers/roles.py:571-577 | Syncing the same batch again adds nothing |
| RoleChats.SaveIsSingleSync | server/routers/roles.py:547-549 | Saving one message appends what a one-message sync appends |
| RoleChats.DeleteMessage | server/routers/roles.py:588-607 | Removes every message with the id, the rest in order; `removed` is the count of matches and the drop in length |
| RoleChats.KeepsAllWithoutId | server/routers/roles.py:601 | Deleting an absent id keeps the transcript |
| RoleChats.DeleteIdempotent | server/routers/roles.py:600-602 | Deleting twice is deleting once, and the second removes nothing |
| RoleChats.GetChatMessages | server/routers/roles.py:515-531 | `total` is the full length; the page is the slice [offset, offset+limit) clamped to the transcript |
| RoleChats.PagesTile | server/routers/roles.py:516-529 | Consecutive default pages join into one contiguous stretch of the transcript |
| Moments.CreateMoment | server/routers/moments.py:49-67 | The new post goes in front with the given author, name, content and images, no likes or comments, stamped now; the old feed follows unchanged |
| Moments.CreateThenLike | server/routers/moments.py:86-99 | A created post is what its id finds, and liking it at once records exactly that like |
| Moments.LikeMoment | server/routers/moments.py:86-99 | Error iff no post has the id. Otherwise the first such post gains the like unless the user already likes it; all else stays |
| Moments.LikeIdempotent | server/routers/moments.py:92-96 | Liking twice is liking once |
| Moments.UnlikeMoment | server/routers/moments.py:101-110 | Error iff no post has the id; otherwise exactly that user's likes go, the others in order |
| Moments.UnlikeUndoesLike | server/routers/moments.py:92-107 | An unlike undoes a fresh like: the feed is restored |
| Moments.DeleteMoment | server/routers/moments.py:78-84 | Every post with the id goes and the rest keep their order |
| Moments.DeleteIsFinal | server/routers/moments.py:79-130 | After a delete, liking, unliking or deleting the same id finds nothing to act on |
| Moments.CommentThenDelete | server/routers/moments.py:79-130 | Deleting a post drops the comments added to it: comment then delete equals delete |
| Moments.CommentsAccumulate | server/routers/moments.py:113-130 | A commented post stays the first with its id, so two comments land on it in the order they were added |
| Moments.AddComment | server/routers/moments.py:112-130 | Error iff no post has the id, with nothing saved. Otherwise the comment goes last on the first such post, and nothing else changes |
| Moments.ListMoments | server/routers/moments.py:41-47 | The first `limit` posts of the newest-first sort, with Python's slice length for a negative `limit`. A sub-multiset of the feed, ordered by `created_at` descending |
| Moments.ListShowsNewest | server/routers/moments.py:46-47 | No listed post is older than one left out |
| Seqs.FirstIndex | server/routers/tasks.py:74-75 | The first match of a loop that stops at it: none iff nothing matches, otherwise a match with no earlier one |
| Seqs.FirstIndexIsFirst | server/routers/moments.py:90-91 | A match preceded by none is the one found |
| Seqs.Sort | server/routers/moments.py:46 | `list.sort` by key: sorted, and a permutation of the input |
| Seqs.SortStable | server/routers/moments.py:46 | The sort is stable: the items sharing a key come out in their input order |
| Tasks.RoleTasks | server/routers/tasks.py:42-47 | Only the role's tasks, every one of them, as many as there are |
| Tasks.RoleTasksAppend | server/routers/tasks.py:46 | A task added at the end shows at the end of its own role's list only, which pins the stored order |
| Tasks.CreateTask | server/routers/tasks.py:49-68 | Exactly one task is appended, enabled (`enabled` is true), with the request's fields, the new id and the time; the others are untouched |
| Tasks.CreateThenList | server/routers/tasks.py:46-66 | A created task is last in its role's list and absent from every other role's list |
| Tasks.ToggleTask | server/routers/tasks.py:70-79 | Error iff no task has the id, with nothing saved. Otherwise the first such task flips, with missing counted as enabled, and nothing else changes |
| Tasks.ToggleTwice | server/routers/tasks.py:74-78 | Toggling twice restores the state; only a missing flag becomes an explicit true |
| Tasks.DeleteTask | server/routers/tasks.py:81-87 | Every task with the id goes, the rest keep their order |
| Tasks.DeleteIsFinal | server/routers/tasks.py:71-87 | After a delete, toggling the id finds nothing and deleting it again changes nothing |
| Tasks.ToggleThenDelete | server/routers/tasks.py:71-87 | Deleting a task forgets a toggle of it: toggle then delete equals delete |
| Tasks.SchedulerStatus | server/routers/tasks.py:89-98 | The total count, and the count of tasks enabled or missing the flag, which is never above the total |
| Tasks.CreateCounts | server/routers/tasks.py:62-96 | Creating a task raises both counts by one |
| Settings.LoadSettings | server/services/settings_service.py:26-39 | Every default key is present and a saved key wins over its default; an unreadable file gives the defaults |
| Settings.SaveSettings | server/services/settings_service.py:41-60 | Succeeds iff writable. The file then reads back as the updates over the current settings, stamped with `updated_at`. A failure keeps the file |
| Settings.SaveTwice | server/services/settings_service.py:47-55 | Saving the same updates twice equals saving once, up to the time stamp |
| Settings.GetAiConfig | server/services/settings_service.py:62-69 | The three settings under their API names, with the model defaulting to "gpt-3.5-turbo" |
| Settings.SavedAiConfig | server/services/settings_service.py:47-69 | After a save the AI configuration reads back the updated values and keeps the others |
| Settings.AiUpdates | server/services/settings_service.py:75-81 | Exactly the given arguments become updates; none given means no updates |
| Settings.UpdateAiConfig | server/services/settings_service.py:71-85 | With no arguments it answers true and writes nothing; otherwise only the given values change |
| Settings.MaskKey | server/routers/settings.py:28 | A key over 12 characters shows its first 8 and last 4 around "..."; otherwise "***" |
| Settings.MaskHidesMiddle | server/routers/settings.py:28 | Keys differing only in the middle mask alike |
| Settings.GetSettings | server/routers/settings.py:21-30 | A non-empty string key is replaced by its mask and every other setting is shown as loaded. An empty key is shown as is. A non-empty key that is not a string makes the masking raise |
| Settings.SettingsViewHidesKey | server/routers/settings.py:26-29 | The view never holds a non-empty raw key |
| Settings.GetAiSettings | server/routers/settings.py:57-66 | The URL and model as configured. A non-empty key is shown only as its mask and an empty one as is. A non-empty non-string key makes the masking raise |
| Settings.UpdateFields | server/routers/settings.py:35-46 | Exactly the non-null fields become updates, with their values |
| Settings.UpdateSettings | server/routers/settings.py:32-55 | "No changes" with nothing written iff all fields are null; otherwise the non-null fields are saved |
| Settings.NoChangesIffAllNull | server/routers/settings.py:35-55 | The update set is empty iff every field is null |
| Settings.ModelsUrl | server/routers/settings.py:84-86 | Trailing slashes dropped, then "/models" appended unless already there; the result always ends with "/models" |
| Settings.ModelsUrlStable | server/routers/settings.py:84-86 | Building the URL from its own result changes nothing |
| Settings.PresentIds | server/routers/settings.py:97 | Every result is a non-empty id present in the answer, and every present non-empty id is kept |
| Settings.PresentIdsConcat | server/routers/settings.py:97 | Filtering keeps the answer's order: it distributes over concatenation |
| Settings.PresentIdsAppend | server/routers/settings.py:97 | A further entry adds its id at the end exactly when it is present and non-empty |
| Settings.ChooseModels | server/routers/settings.py:99-100 | The chat-family ids in order when any exist; otherwise the first 20 ids |
| Settings.ChatModelsExactly | server/routers/settings.py:99-100 | Every chat model listed is returned, and nothing else is |
| Settings.GetAvailableModels | server/routers/settings.py:68-104 | No URL or key answers "API 未配置" with no request. A non-string URL fails on `rstrip` with no request. Otherwise the request goes to the models URL; a 200 answer succeeds with the chosen models of its non-empty ids; another status fails with "HTTP <status>"; a failed request fails with its message. Every failure returns no models |
| Settings.ModelsSucceedIffAnswered | server/routers/settings.py:68-104 | Success iff URL and key are set, the URL is a string and the answer is 200; every listed model is an id of that answer |
| Chat.GetChatHistory | server/routers/chat.py:61-68 | [] for an unknown chat; otherwise the newest `limit` messages, the whole list for limit 0 or a limit above the length |
| Common.LastItems | server/routers/chat.py:68 | `s[-k:]` keeps the newest k items; k = 0 keeps all |
| Common.PageBounds | server/routers/roles.py:529 | `s[offset:offset+limit]` is at most `limit` items from `offset` on, empty past the end |
| Chat.ChatMessages | server/routers/chat.py:82-93 | The system prompt when non-empty, then the history in order, then the user's message |
| Chat.ChatOnce | server/routers/chat.py:70-122 | No URL or key is a 500 before any request. Otherwise the request carries the messages. Only a reply saves, appending the user's message and then the reply; a failure saves nothing |
| Chat.ReplyInHistory | server/routers/chat.py:113-115 | After a successful exchange the newest two history lines are the message and the reply; other chats are unchanged |
| Chat.ClearChat | server/routers/chat.py:130-136 | The chat's file is gone, its history empty; other chats stay |

## Left out

- File and directory I/O: every JSON file is a map or sequence in memory, and loads and saves are assumed to succeed. Read and write errors are not modelled, except the unreadable settings file and `save_settings`'s failure flag.
- Chat.ChatOnce: assumes the chat file can be written. Nothing in `main.py` (lines 28-30) creates `data/chats`, so on a fresh install `save_chat_message` raises inside the `try`, and `chat` then answers success=false with nothing saved. The model answers success with the two lines saved.
- JSON null and a missing key are both `None` in the `Option` fields of stored records. Only `Tasks.Task.aiPrompt` keeps them apart, because `_trigger_task` reads it with `get`. Values of the wrong JSON type are not modelled.
- Settings.LoadSettings: `Settings.Value` holds only null, strings and integers; booleans, floats, lists and objects in the settings file are not modelled.
- Roles.NormalizeItem: the `str()` of non-string content is not modelled; dict content is a string or missing. An explicit `null` content is conflated with a missing one, so the model gives "" where the code stores "None".
- A single clock reading per operation, where the code calls `datetime.now()` several times, for example for each entry in `append_short_term` and again in `save_memory`. Microseconds and the exact ISO text are not modelled.
- Dispatcher.HandleChat: `_get_memory_length`, `_if_in_menstruation`, `_get_menstruation_cycle_info` and `sequential_memory_generation` are not defined by `services/memory_service.py`. The `Extras` branch takes their results as inputs.
- Dispatcher.ChatStore: what `sequential_memory_generation` writes (for example a bridging user/assistant pair in the role's log) is an opaque input, `MemoryExtras.sequentialWrites`. The model assumes it writes only the memories of the two ids it is given, the role's and "1000000000003", and that it does not raise. Its returned text is only logged by `handle_chat`, so it is not modelled.
- Dispatcher.DetectEmotion: `call_ai_direct` is not defined by `services/ai_service.py`, so its result is an input. Which image `random.choice` picks is not modelled, because only the label is returned.
- The web search inside `handle_chat` is commented out, so the search part of the extra context is always empty. `web_search` itself is network I/O. The `/search` test endpoint (`routers/chat.py:139-158`) is not modelled.
- `handle_chat` awaits the synchronous `get_context_messages` (`routers/ai_behavior.py:160`). The model takes the list it returns, and treats the missing helpers as the first failure.
- The `else` branch of `handle_ai_event` ("未知事件类型") cannot be reached, because request validation admits only the six event types.
- The request and temperature of `call_ai_direct`, every `temperature` and `max_tokens`, and the HTTP headers and body are not modelled. HTTP errors are one failure case with some error text.
- `append_memory` passes `window_size=50`, which `append_short_term` does not accept, so the endpoint always raises. It is not modelled.
- `get_role_dir` bootstraps `memory.json` with `"core_memory": []`, a list, where `load_memory` expects a string. That bootstrap is not modelled: a role without a memory file loads the defaults.
- APScheduler internals: `next_run_time`, misfires and the event loop are not modelled. Jobs are a map from id to trigger and action. `create_task` and `toggle_task` do not schedule anything until the next start, and the model agrees.
- `generate_proactive_message` is never called by the core and is not modelled.
- Not modelled: role, asset, avatar and emoji file serving and uploads, `list_roles`, `get_role`, `delete_role`, `get_memory`, `list_tasks`, `get_moment`, `chat_with_vision`, and `main.py`'s startup, CORS and logging.

## Findings

| source | as written | input that shows it | evidently intended | confidence | as-written member | corrected member |
|---|---|---|---|---|---|---|
| server/services/scheduler_service.py:100 | `quiet_start <= current_hour or current_hour < quiet_end` counts every hour as quiet whenever the start is not after the end | quiet hours 1 to 6, current hour 12, defaults 30/120 minutes: the message is deferred to 06:00 the next day | the half-open window from start to end, wrapping past midnight only when start > end; noon is not quiet, so the message is due within 30-120 minutes | not executed | Scheduler.QuietHoursCounterexample | Scheduler.ProactivePlan |

The defect is invisible with the default window 23-7, because the two tests agree on every window that wraps past midnight (`Scheduler.QuietTestsAgreeWhenWrapping`, `Scheduler.PlansAgreeWhenWrapping`). `Scheduler.AsWrittenDefersEveryHour` shows the general effect of the code as written. `Scheduler.QuietWindowExact` characterises the corrected window. The scheduler's operational members (`ScheduleProactive`, `FireProactive`, `InitProactiveJobs`, `StartScheduler`) follow the code as written, through `Scheduler.ProactivePlanAsWritten`. The corrected `Scheduler.ProactivePlan` states the intended behaviour next to them.

=== FILE: ai_service.dfy ===
/** The AI gateway (`services/ai_service.py`): the chat-completion call with
    its configuration check and uniform result shape, and the prompt assembly
    for role replies, social posts and comments. The HTTP exchange itself is
    an oracle: the caller supplies what the endpoint answered. */
module AiService {
  import opened Common
  import opened Text
  import opened Profile

  /** One chat-completion message. */
  datatype Message = Message(role: string, content: string)

  /** `{"success", "content", "user_content", "error"}` as `call_ai` returns it. */
  datatype AiResult = AiResult(
    success: bool,
    content: Option<string>,
    userContent: Option<Message>,
    error: Option<string>)

  /** What the HTTP exchange produced: a reply text, an `httpx.HTTPError`
      (status or transport failure), or any other exception (a malformed
      body, say) with its message. */
  datatype Transport =
    | Replied(text: string)
    | HttpFailure(detail: string)
    | Crashed(detail: string)

  /** The raw `config/settings.json` keys `call_ai` reads (absent when the
      file or the key is missing). */
  datatype ApiConfig = ApiConfig(url: Option<string>, key: Option<string>, model: Option<string>)

  /** The request `call_ai` posts. */
  datatype Request = Request(url: string, key: string, model: string, messages: seq<Message>)

  /** One invocation of `call_ai`: the request it sent, if any, and its result. */
  datatype Call = Call(sent: Option<Request>, result: AiResult)

  const NotConfigured: string := "AI API 未配置"
  const DeepSeekEndpoint: string := "https://api.deepseek.com/chat/completions/"
  const DefaultModel: string := "gpt-3.5-turbo"
  /** What `str(IndexError)` says when `messages[-1]` meets an empty list. */
  const EmptyListIndex: string := "list index out of range"

  /** A DeepSeek URL that does not already end with the completions path is
      replaced by the fixed DeepSeek endpoint; any other URL is used as is. */
  function NormalizeUrl(url: string): (r: string)
    ensures Contains(url, "deepseek") && !EndsWith(url, "chat/completions/") ==> r == DeepSeekEndpoint
    ensures !(Contains(url, "deepseek") && !EndsWith(url, "chat/completions/")) ==> r == url
  {
    if Contains(url, "deepseek") && !EndsWith(url, "chat/completions/") then DeepSeekEndpoint else url
  }

  lemma EndpointIsDeepSeek()
    ensures Contains(DeepSeekEndpoint, "deepseek")
    ensures EndsWith(DeepSeekEndpoint, "chat/completions/")
  {
    var a, b, c := "https://api.", "deepseek", ".com/chat/completions/";
    assert DeepSeekEndpoint == a + b + c;
    assert (a + b + c)[|a|..|a| + |b|] == b;
    assert OccursAt(DeepSeekEndpoint, "deepseek", 12);
  }

  /** Normalising twice is normalising once, and only the empty URL
      normalises to the empty URL. */
  lemma NormalizeUrlStable(url: string)
    ensures NormalizeUrl(NormalizeUrl(url)) == NormalizeUrl(url)
    ensures NormalizeUrl(url) == "" <==> url == ""
  {
    EndpointIsDeepSeek();
    if url == "" {
      assert !OccursAt(url, "deepseek", 0);
    }
  }

  /** `call_ai`: refuses without a request when the URL or the key is empty;
      otherwise posts the messages to the normalised URL with the configured
      model and maps the exchange to the uniform result. A success carries the
      last message sent as `user_content`. */
  function CallAi(cfg: ApiConfig, messages: seq<Message>, transport: Transport): (c: Call)
    ensures c.sent.None? <==> cfg.url.GetOr("") == "" || cfg.key.GetOr("") == ""
    ensures c.sent.None? ==> c.result == AiResult(false, None, None, Some(NotConfigured))
    ensures c.sent.Some? ==>
      c.sent.value == Request(NormalizeUrl(cfg.url.GetOr("")), cfg.key.GetOr(""),
                              cfg.model.GetOr(DefaultModel), messages)
    ensures c.result.success <==> c.sent.Some? && transport.Replied? && |messages| > 0
    ensures c.result.success ==>
      c.result.content == Some(transport.text)
      && c.result.userContent == Some(messages[|messages| - 1])
      && c.result.error.None?
    ensures !c.result.success ==> c.result.content.None? && c.result.error.Some?
  {
    var url := NormalizeUrl(cfg.url.GetOr(""));
    var key := cfg.key.GetOr("");
    NormalizeUrlStable(cfg.url.GetOr(""));
    if url == "" || key == "" then
      Call(None, AiResult(false, None, None, Some(NotConfigured)))
    else
      var req := Request(url, key, cfg.model.GetOr(DefaultModel), messages);
      match transport
      case HttpFailure(detail) => Call(Some(req), AiResult(false, None, None, Some("HTTP Error: " + detail)))
      case Crashed(detail) => Call(Some(req), AiResult(false, None, None, Some(detail)))
      case Replied(text) =>
        if |messages| == 0 then Call(Some(req), AiResult(false, None, None, Some(EmptyListIndex)))
        else Call(Some(req), AiResult(true, Some(text), Some(messages[|messages| - 1]), None))
  }

  /** A history item as handed in: either key may be missing. */
  datatype HistoryItem = HistoryItem(role: Option<string>, content: Option<string>)

  const WeekdayNames: seq<string> := ["星期一", "星期二", "星期三", "星期四", "星期五", "星期六", "星期日"]

  /** The suffix stamped on every user turn: date, time and weekday. */
  function TimeSuffix(now: Clock): string {
    "\n\n（当前时间：" + now.display + " " + WeekdayNames[now.weekday] + "）"
  }

  const PersonaPrefix: string := "你的人设："
  const ExtraContextPrefix: string := "\n\n额外上下文："

  /** The system message text: persona block, system prompt and extra
      context, each present only when non-empty. */
  function SystemContent(persona: string, systemPrompt: string, extra: Option<string>): string {
    (if persona != "" then PersonaPrefix + persona + "\n\n" else "")
    + systemPrompt
    + (if extra.Some? && extra.value != "" then ExtraContextPrefix + extra.value else "")
  }

  /** Extra context is appended after everything else. */
  lemma ExtraContextIsSuffix(persona: string, systemPrompt: string, e: string)
    requires e != ""
    ensures SystemContent(persona, systemPrompt, Some(e))
            == SystemContent(persona, systemPrompt, None) + ExtraContextPrefix + e
    ensures SystemContent(persona, systemPrompt, Some("")) == SystemContent(persona, systemPrompt, None)
  {
  }

  /** The message list `generate_with_role` sends: an optional system
      message, the history in order, and the time-stamped user turn. `None`
      models the `UnboundLocalError` raised when persona and system prompt are
      both empty, because the clock is read only inside that branch. */
  function RoleMessages(p: RoleProfile, userMessage: string, history: seq<HistoryItem>,
                        extra: Option<string>, now: Clock): (r: Option<seq<Message>>)
    ensures r.None? <==> p.persona.GetOr("") == "" && p.systemPrompt.GetOr("") == ""
    ensures r.Some? ==>
      && |r.value| == |history| + 2
      && r.value[0] == Message("system", SystemContent(p.persona.GetOr(""), p.systemPrompt.GetOr(""), extra))
      && (forall i :: 0 <= i < |history| ==>
            r.value[i + 1] == Message(history[i].role.GetOr("user"), history[i].content.GetOr("")))
      && r.value[|r.value| - 1] == Message("user", userMessage + TimeSuffix(now))
  {
    var persona := p.persona.GetOr("");
    var systemPrompt := p.systemPrompt.GetOr("");
    if persona == "" && systemPrompt == "" then None
    else
      var copied := seq(|history|, i requires 0 <= i < |history| =>
                          Message(history[i].role.GetOr("user"), history[i].content.GetOr("")));
      Some([Message("system", SystemContent(persona, systemPrompt, extra))]
           + copied
           + [Message("user", userMessage + TimeSuffix(now))])
  }

  /** `generate_with_role`: the call made with `RoleMessages`, or `None`
      when assembling them raises. A success echoes the time-stamped user
      turn as `user_content`. */
  function GenerateWithRole(cfg: ApiConfig, p: RoleProfile, userMessage: string, history: seq<HistoryItem>,
                            extra: Option<string>, now: Clock, transport: Transport): (c: Option<Call>)
    ensures c.None? <==> p.persona.GetOr("") == "" && p.systemPrompt.GetOr("") == ""
    ensures c.Some? ==>
      RoleMessages(p, userMessage, history, extra, now).Some?
      && c.value == CallAi(cfg, RoleMessages(p, userMessage, history, extra, now).value, transport)
    ensures c.Some? && c.value.result.success ==>
      c.value.result.userContent == Some(Message("user", userMessage + TimeSuffix(now)))
  {
    match RoleMessages(p, userMessage, history, extra, now)
    case None => None
    case Some(messages) => Some(CallAi(cfg, messages, transport))
  }

  /** `role_data.get("name", "AI")` */
  function NameOf(p: RoleProfile): string {
    p.name.GetOr("AI")
  }

  const PostRules: string :=
    "\n\n现在你想发一条朋友圈动态。要求：\n- 内容简短自然（20-100字）\n- 符合你的性格和人设\n- 可以是生活感悟、心情分享、日常记录\n- 不要提及\"AI\"\"系统\"\"人设\"等词\n"
  const PostClosing: string := "\n\n直接输出朋友圈内容，不要任何解释。"
  const MoodPrefix: string := "- 当前心情偏向："

  /** The self-introduction both social prompts open with. */
  function Introduction(p: RoleProfile): string {
    "你是" + NameOf(p) + "，你的人设：" + p.persona.GetOr("")
  }

  /** The prompt of `generate_moment_post`; the mood line is there only
      for a non-empty mood. */
  function MomentPostPrompt(p: RoleProfile, mood: Option<string>): (r: string)
    ensures StartsWith(r, Introduction(p) + PostRules)
    ensures EndsWith(r, PostClosing)
  {
    var moodLine := if mood.Some? && mood.value != "" then MoodPrefix + mood.value else "";
    var r := Introduction(p) + PostRules + moodLine + PostClosing;
    assert r[..|Introduction(p) + PostRules|] == Introduction(p) + PostRules;
    r
  }

  /** A mood inserts exactly one line between the rules and the closing
      instruction; an empty mood is the same as none. */
  lemma MoodLineInsertion(p: RoleProfile, mood: string)
    ensures mood != "" ==>
      var plain := MomentPostPrompt(p, None);
      var k := |plain| - |PostClosing|;
      0 <= k && MomentPostPrompt(p, Some(mood)) == plain[..k] + MoodPrefix + mood + plain[k..]
    ensures mood == "" ==> MomentPostPrompt(p, Some(mood)) == MomentPostPrompt(p, None)
  {
    var head := Introduction(p) + PostRules;
    var plain := MomentPostPrompt(p, None);
    assert plain == head + PostClosing;
    assert plain[..|head|] == head;
    assert plain[|head|..] == PostClosing;
  }

  /** `generate_moment_post`: one user message holding the post prompt. */
  function GenerateMomentPost(cfg: ApiConfig, p: RoleProfile, mood: Option<string>, transport: Transport): (c: Call)
    ensures c.sent.Some? ==> c.sent.value.messages == [Message("user", MomentPostPrompt(p, mood))]
  {
    CallAi(cfg, [Message("user", MomentPostPrompt(p, mood))], transport)
  }

  const CommentRules: string :=
    "。要求：\n- 简短自然（5-30字）\n- 像朋友间的互动\n- 可以用表情或语气词\n- 不要太正式\n\n直接输出评论内容。"
  const CommentOnPost: string := "你想评论这条朋友圈"

  /** The part of the comment prompt that names the post. */
  function CommentHead(p: RoleProfile, postContent: string, postAuthor: string): string {
    Introduction(p) + "\n\n" + postAuthor + "发了一条朋友圈：「" + postContent + "」\n\n"
  }

  /** The prompt of `generate_moment_comment`: the instruction is to reply
      to `reply_to`'s comment when that is non-empty, otherwise to comment on
      the post; everything around the instruction is the same. */
  function MomentCommentPrompt(p: RoleProfile, postContent: string, postAuthor: string,
                               replyTo: Option<string>): (r: string)
    ensures replyTo.Some? && replyTo.value != "" ==>
      r == CommentHead(p, postContent, postAuthor) + "你要回复" + replyTo.value + "的评论" + CommentRules
    ensures !(replyTo.Some? && replyTo.value != "") ==>
      r == CommentHead(p, postContent, postAuthor) + CommentOnPost + CommentRules
  {
    var instruction := if replyTo.Some? && replyTo.value != "" then "你要回复" + replyTo.value + "的评论"
                       else CommentOnPost;
    CommentHead(p, postContent, postAuthor) + instruction + CommentRules
  }

  /** `generate_moment_comment`: one user message holding the comment prompt. */
  function GenerateMomentComment(cfg: ApiConfig, p: RoleProfile, postContent: string, postAuthor: string,
                                 replyTo: Option<string>, transport: Transport): (c: Call)
    ensures c.sent.Some? ==>
      c.sent.value.messages == [Message("user", MomentCommentPrompt(p, postContent, postAuthor, replyTo))]
  {
    CallAi(cfg, [Message("user", MomentCommentPrompt(p, postContent, postAuthor, replyTo))], transport)
  }
}

=== FILE: chat.dfy ===
/** The plain chat endpoint (`routers/chat.py`): per-chat transcripts in
    `chats/<chat_id>.json`, history reads, and one completion request whose
    exchange is an oracle. It reads the raw settings file and sends the URL
    unchanged. */
module Chat {
  import opened Common
  import opened AiService

  /** One stored chat line. */
  datatype StoredMessage = StoredMessage(id: string, role: string, content: string, timestamp: string)

  /** The chat files, by chat id. */
  type ChatFiles = map<string, seq<StoredMessage>>

  /** The body of `POST /chat`. */
  datatype ChatRequest = ChatRequest(
    chatId: string,
    roleId: string,
    message: string,
    systemPrompt: Option<string>,
    history: Option<seq<Message>>)

  /** What `chat` answers. */
  datatype ChatResponse = ChatResponse(success: bool, content: Option<string>, error: Option<string>)

  /** `get_chat_history`: nothing for an unknown chat, otherwise the
      transcript cut with `[-limit:]`. */
  function GetChatHistory(files: ChatFiles, chatId: string, limit: int): (r: seq<StoredMessage>)
    ensures chatId !in files ==> r == []
    ensures chatId in files ==>
      var log := files[chatId];
      && (0 < limit <= |log| ==> r == log[|log| - limit..])
      && (limit == 0 || limit > |log| ==> r == log)
  {
    if chatId !in files then []
    else
      LastItems(files[chatId], limit);
      PySlice(files[chatId], -limit, |files[chatId]|)
  }

  /** The messages `chat` sends: the system prompt when it is non-empty,
      then the history in order, then the user's message. */
  function ChatMessages(req: ChatRequest): (r: seq<Message>)
    ensures var sys := if req.systemPrompt.GetOr("") != "" then 1 else 0;
      var history := req.history.GetOr([]);
      && |r| == sys + |history| + 1
      && (sys == 1 ==> r[0] == Message("system", req.systemPrompt.value))
      && (forall i :: 0 <= i < |history| ==> r[sys + i] == history[i])
      && r[|r| - 1] == Message("user", req.message)
  {
    var sys := if req.systemPrompt.GetOr("") != "" then [Message("system", req.systemPrompt.value)] else [];
    sys + req.history.GetOr([]) + [Message("user", req.message)]
  }

  /** What one call of `chat` does: refuse with HTTP 500, or answer and
      leave the chat files as they are afterwards. */
  datatype ChatOutcome =
    | NotConfigured500
    | Answered(sent: Request, response: ChatResponse, files: ChatFiles)

  /** `chat`: without a URL or a key it refuses before any request.
      Otherwise it posts the messages; only a parsed answer saves anything,
      and then the user's message and the reply are appended in that order.
      The two line ids are generated values. */
  function ChatOnce(cfg: ApiConfig, req: ChatRequest, files: ChatFiles, transport: Transport,
                    userId: string, replyId: string, now: Clock): (r: ChatOutcome)
    ensures r.NotConfigured500? <==> cfg.url.GetOr("") == "" || cfg.key.GetOr("") == ""
    ensures r.Answered? ==>
      r.sent == Request(cfg.url.value, cfg.key.value, cfg.model.GetOr(DefaultModel), ChatMessages(req))
    ensures r.Answered? ==> (r.response.success <==> transport.Replied?)
    ensures r.Answered? && r.response.success ==>
      && r.response.content == Some(transport.text)
      && r.files == files[req.chatId := GetChatHistory(files, req.chatId, 0)
                          + [StoredMessage(userId, "user", req.message, now.iso),
                             StoredMessage(replyId, "assistant", transport.text, now.iso)]]
    ensures r.Answered? && !r.response.success ==> r.files == files && r.response.error.Some? && r.response.content.None?
  {
    var url := cfg.url.GetOr("");
    var key := cfg.key.GetOr("");
    if url == "" || key == "" then NotConfigured500
    else
      var sent := Request(url, key, cfg.model.GetOr(DefaultModel), ChatMessages(req));
      match transport
      case HttpFailure(detail) => Answered(sent, ChatResponse(false, None, Some(detail)), files)
      case Crashed(detail) => Answered(sent, ChatResponse(false, None, Some(detail)), files)
      case Replied(text) =>
        var before := if req.chatId in files then files[req.chatId] else [];
        var saved := before + [StoredMessage(userId, "user", req.message, now.iso),
                               StoredMessage(replyId, "assistant", text, now.iso)];
        Answered(sent, ChatResponse(true, Some(text), None), files[req.chatId := saved])
  }

  /** A successful exchange shows up in the history: the newest two lines
      are the user's message and the reply, and no other chat changes. */
  lemma ReplyInHistory(cfg: ApiConfig, req: ChatRequest, files: ChatFiles, transport: Transport,
                       userId: string, replyId: string, now: Clock, other: string)
    requires cfg.url.GetOr("") != "" && cfg.key.GetOr("") != "" && transport.Replied?
    ensures var r := ChatOnce(cfg, req, files, transport, userId, replyId, now);
      && GetChatHistory(r.files, req.chatId, 2)
         == [StoredMessage(userId, "user", req.message, now.iso),
             StoredMessage(replyId, "assistant", transport.text, now.iso)]
      && (other != req.chatId ==> GetChatHistory(r.files, other, 0) == GetChatHistory(files, other, 0))
  {
    var r := ChatOnce(cfg, req, files, transport, userId, replyId, now);
    var log := r.files[req.chatId];
    assert log[|log| - 2..] == [StoredMessage(userId, "user", req.message, now.iso),
                               StoredMessage(replyId, "assistant", transport.text, now.iso)];
  }

  /** `clear_chat`: the chat's file is gone; the others stay. */
  function ClearChat(files: ChatFiles, chatId: string): (r: ChatFiles)
    ensures chatId !in r && r.Keys == files.Keys - {chatId}
    ensures forall c :: c in r ==> r[c] == files[c]
    ensures GetChatHistory(r, chatId, 0) == []
  {
    files - {chatId}
  }
}

=== FILE: common.dfy ===
/** Values shared by every component: optional values, the injected clock and
    Python's sequence slicing. */
module Common {

  /** A dictionary key that may be missing (or hold null). */
  datatype Option<+T> = None | Some(value: T) {

    /** `d.get(key, default)`: the stored value, or the default when absent. */
    function GetOr(default: T): T {
      match this
      case Some(v) => v
      case None => default
    }
  }

  /** `datetime.weekday()`: Monday is 0, Sunday is 6. */
  type Weekday = w: int | 0 <= w < 7

  const SecondsPerHour: int := 3600
  const SecondsPerDay: int := 86400

  /** One reading of the wall clock. `seconds` counts local seconds from a
      local midnight, so the hour of day and "today at hh:00:00" are plain
      arithmetic on it; `iso` is what `isoformat()` prints and `display` what
      `strftime('%Y-%m-%d %H:%M:%S')` prints for the same instant. */
  datatype Clock = Clock(seconds: int, iso: string, display: string, weekday: Weekday)

  /** The hour of day (0..23) of a local instant. */
  function HourOf(t: int): (h: int)
    ensures 0 <= h < 24
    ensures StartOfDay(t) + h * SecondsPerHour <= t < StartOfDay(t) + (h + 1) * SecondsPerHour
  {
    (t % SecondsPerDay) / SecondsPerHour
  }

  /** Local midnight on the day of instant `t`. */
  function StartOfDay(t: int): (d: int)
    ensures d <= t < d + SecondsPerDay
    ensures d % SecondsPerDay == 0
  {
    t - t % SecondsPerDay
  }

  /** Euclidean division of a non-negative number by a positive one. */
  lemma DivMod(a: int, d: int)
    requires 0 <= a && d > 0
    ensures a == (a / d) * d + a % d && 0 <= a % d < d && a / d >= 0
  {
  }

  lemma MulAtLeast(k: int, d: int)
    requires k >= 1 && d > 0
    ensures k * d >= d
  {
  }

  /** Quotient and remainder by a positive divisor are unique. */
  lemma DivModUnique(q1: int, r1: int, q2: int, r2: int, d: int)
    requires d > 0 && 0 <= r1 < d && 0 <= r2 < d && q1 * d + r1 == q2 * d + r2
    ensures q1 == q2 && r1 == r2
  {
    if q1 > q2 {
      assert q1 * d - q2 * d == (q1 - q2) * d;
      MulAtLeast(q1 - q2, d);
    } else if q2 > q1 {
      assert q2 * d - q1 * d == (q2 - q1) * d;
      MulAtLeast(q2 - q1, d);
    }
  }

  /** Reads off quotient and remainder from a decomposition `a == q*d + r`. */
  lemma DivModOf(a: int, q: int, r: int, d: int)
    requires d > 0 && 0 <= r < d && q >= 0 && a == q * d + r
    ensures a / d == q && a % d == r
  {
    DivMod(a, d);
    DivModUnique(a / d, a % d, q, r, d);
  }

  lemma DivMonotone(a: int, b: int, d: int)
    requires 0 <= a <= b && d > 0
    ensures a / d <= b / d
  {
    DivMod(a, d);
    DivMod(b, d);
    if a / d > b / d {
      assert (a / d) * d - (b / d) * d == (a / d - b / d) * d;
      MulAtLeast(a / d - b / d, d);
    }
  }

  /** Python's normalisation of one slice bound against a length `n`:
      negative bounds count from the end, and every bound is clamped. */
  function PyBound(i: int, n: nat): (b: nat)
    ensures b <= n
    ensures 0 <= i <= n ==> b == i
    ensures i > n ==> b == n
    ensures i < 0 && -i <= n ==> b == n + i
    ensures i < 0 && -i > n ==> b == 0
  {
    if i < 0 then (if i + n < 0 then 0 else i + n)
    else if i > n then n
    else i
  }

  /** Python's `s[start:stop]` for integer bounds (step 1). */
  function PySlice<T>(s: seq<T>, start: int, stop: int): (r: seq<T>)
    ensures PyBound(start, |s|) <= PyBound(stop, |s|) ==> r == s[PyBound(start, |s|)..PyBound(stop, |s|)]
    ensures PyBound(start, |s|) > PyBound(stop, |s|) ==> r == []
  {
    var lo := PyBound(start, |s|);
    var hi := PyBound(stop, |s|);
    if lo < hi then s[lo..hi] else []
  }

  /** `s[-k:]` keeps the newest `k` items; `k == 0` keeps everything
      because `-0` is `0`, and a negative `k` drops the first `-k` items. */
  lemma LastItems<T>(s: seq<T>, k: int)
    ensures 0 < k <= |s| ==> PySlice(s, -k, |s|) == s[|s| - k..]
    ensures k > |s| ==> PySlice(s, -k, |s|) == s
    ensures k == 0 ==> PySlice(s, -k, |s|) == s
    ensures k < 0 ==> PySlice(s, -k, |s|) == s[if -k <= |s| then -k else |s|..]
    ensures 0 <= k ==> |PySlice(s, -k, |s|)| == if k == 0 || k > |s| then |s| else k
  {
  }

  /** A page `s[offset:offset+limit]` with non-negative bounds. */
  lemma PageBounds<T>(s: seq<T>, offset: int, limit: int)
    requires 0 <= offset && 0 <= limit
    ensures |PySlice(s, offset, offset + limit)| <= limit
    ensures offset < |s| ==> PySlice(s, offset, offset + limit)
                             == s[offset..if offset + limit <= |s| then offset + limit else |s|]
    ensures offset >= |s| ==> PySlice(s, offset, offset + limit) == []
  {
  }
}

=== FILE: dispatcher.dfy ===
/** The AI behaviour entry point (`routers/ai_behavior.py`): one event per
    request, routed by its type to a handler that asks the model for a text,
    answers with an `AIResponse` and, for conversational events, records the
    text in the role's short-term memory.

    Everything the handlers take from outside is a parameter: the stored
    profiles, the memory store, the raw API settings, the clock, the outcome
    of each HTTP exchange, the random draws, the emoji folders, and the
    memory-service helpers `handle_chat` and `handle_proactive` import but
    that `services/memory_service.py` does not define. */
module Dispatcher {
  import opened Common
  import opened Text
  import opened Seqs
  import opened Profile
  import opened AiService
  import opened Memory
  import opened Events

  /** The worker role whose memory record every chat reply summarises into. */
  const SummaryWorkerId: string := "1000000000000"
  /** The id `handle_chat` hands to `sequential_memory_generation`. */
  const SequentialWorkerId: string := "1000000000003"
  /** The worker role whose profile holds the emotion classifier's API. */
  const EmotionWorkerId: string := "1000000000001"

  const DefaultProactivePrompt: string :=
    "请生成一条主动消息与用户互动，内容可以是问候、关心、建议等，要求符合角色设定，并符合上下文。"
  const DefaultPostAuthor: string := "用户"
  const AttachedPrefix: string := "[外挂记录]\n"
  const PartSeparator: string := "\n\n"

  /** `random.random() > 1 - 0.75` skips emotion detection. */
  const EmotionChance: real := 0.25
  /** `random.random() > 0.5` skips a comment. */
  const CommentChance: real := 0.5

  /** The response model; `metadata` maps to strings or null. */
  datatype AIResponse = AIResponse(
    success: bool,
    action: Option<string>,
    content: Option<string>,
    error: Option<string>,
    metadata: map<string, Option<string>>)

  /** What the endpoint produces: a validated response, the 404 for an
      unknown role, the bare value `handle_memory_summarization` returns
      (a string or null, which is not an `AIResponse`), or an exception
      escaping the handler (an HTTP 500). */
  datatype Reply =
    | Respond(response: AIResponse)
    | RoleNotFound
    | BareSummary(value: Option<string>)
    | Raised

  /** One handled request: the reply, the memory store afterwards, and the
      model calls made, in order. */
  datatype Handled = Handled(reply: Reply, store: Store, calls: seq<Call>)

  /** The failure shape every handler uses. */
  function Ignored(error: Option<string>): AIResponse {
    AIResponse(false, Some("ignore"), None, error, map[])
  }

  /** `load_role`: the stored profile, if any. */
  function LoadRole(roles: map<string, RoleProfile>, roleId: string): (r: Option<RoleProfile>)
    ensures r.Some? <==> roleId in roles
    ensures r.Some? ==> r.value == roles[roleId]
  {
    if roleId in roles then Some(roles[roleId]) else None
  }

  // ---------------------------------------------------------------- inputs

  /** `_get_menstruation_cycle_info`'s dict, as far as it is read. */
  datatype CycleInfo = CycleInfo(periodLength: int, cycleLength: int)

  /** The memory-service helpers the chat and proactive handlers import:
      `ExtrasMissing` is the memory service of this model, which has none of
      them, so the import raises; `Extras` stands for one that has them
      (and whose `get_context_messages` can be awaited), giving their
      results. `inMenstruation` is `Some(b)` only when the helper returned
      a boolean. `sequentialWrites` is what `sequential_memory_generation`
      (called with the role's id and the worker id) leaves behind: the new
      record of each memory it rewrote. Its content is opaque here; only
      the role's and the worker's records are taken from it. */
  datatype MemoryExtras =
    | ExtrasMissing
    | Extras(memoryLength: int, inMenstruation: Option<bool>, menstruationDay: Option<int>,
             cycleInfo: Option<CycleInfo>, sequentialWrites: map<string, MemoryRecord>)

  /** `call_ai_direct`, which `services/ai_service.py` does not define:
      missing (the import raises), or the result it returned. */
  datatype DirectCall =
    | DirectMissing
    | DirectReply(success: bool, content: Option<string>)

  /** What emotion detection depends on: the draw, the classifier's answer,
      and the file names in the role's `emojis/<label>` folders. */
  datatype EmotionEnv = EmotionEnv(draw: real, direct: DirectCall, folders: map<string, seq<string>>)

  /** Everything else a request depends on. */
  datatype Env = Env(
    cfg: ApiConfig,
    now: Clock,
    reply: Transport,
    summary: Transport,
    extras: MemoryExtras,
    emotion: EmotionEnv,
    commentDraw: real)

  // ------------------------------------------------------------- emotions

  /** The labels that select an emoji folder ("none" is accepted from the
      classifier but selects nothing). */
  const EmotionLabels: seq<string> := ["happy", "sad", "angry", "surprised", "love", "confused", "excited", "tired"]
  const AcceptedLabels: seq<string> := EmotionLabels + ["none"]
  const ImageExtensions: seq<string> := [".png", ".jpg", ".jpeg", ".gif", ".webp"]

  /** The index of the last '.' in `s`. */
  function LastDot(s: string): (k: Option<nat>)
    ensures k.None? <==> forall i :: 0 <= i < |s| ==> s[i] != '.'
    ensures k.Some? ==> k.value < |s| && s[k.value] == '.'
                        && forall i :: k.value < i < |s| ==> s[i] != '.'
  {
    if |s| == 0 then None
    else if s[|s| - 1] == '.' then Some(|s| - 1)
    else LastDot(s[..|s| - 1])
  }

  /** `Path(name).suffix`: from the last dot on, unless that dot opens the
      name or ends it. */
  function Suffix(name: string): (r: string)
    ensures r != "" <==> LastDot(name).Some? && 0 < LastDot(name).value < |name| - 1
    ensures r != "" ==>
      && 2 <= |r| < |name| && r == name[|name| - |r|..] && r[0] == '.'
      && forall i :: 1 <= i < |r| ==> r[i] != '.'
  {
    var k := LastDot(name);
    if k.Some? && 0 < k.value < |name| - 1 then name[k.value..] else ""
  }

  /** An emoji folder entry counts when its suffix, lower-cased, is one of
      the image extensions. */
  predicate IsImage(name: string) {
    Lower(Suffix(name)) in ImageExtensions
  }

  /** A profile that names a model, an API URL and a key. */
  predicate HasOwnApi(p: RoleProfile) {
    p.aiModel.GetOr("") != "" && p.aiApiUrl.GetOr("") != "" && p.aiApiKey.GetOr("") != ""
  }

  datatype Emotion = NoEmoji | Emoji(tag: string) | EmotionRaises

  /** `detect_emotion_and_get_emoji`: three draws in four skip; otherwise
      the import of `call_ai_direct` comes first, then the worker's own API
      settings, the classifier's answer, and the role's folder for the label,
      which must hold an image. */
  function DetectEmotion(worker: Option<RoleProfile>, env: EmotionEnv): (r: Emotion)
    ensures r.EmotionRaises? <==> env.draw <= EmotionChance && env.direct.DirectMissing?
    ensures r.Emoji? <==>
      && env.draw <= EmotionChance
      && worker.Some? && HasOwnApi(worker.value)
      && env.direct.DirectReply? && env.direct.success
      && Lower(Strip(env.direct.content.GetOr(""))) in EmotionLabels
      && Lower(Strip(env.direct.content.GetOr(""))) in env.folders
      && (exists f :: f in env.folders[Lower(Strip(env.direct.content.GetOr("")))] && IsImage(f))
    ensures r.Emoji? ==> r.tag == Lower(Strip(env.direct.content.GetOr("")))
  {
    if env.draw > EmotionChance then NoEmoji
    else if env.direct.DirectMissing? then EmotionRaises
    else
      var p := worker.GetOr(BareProfile(EmotionWorkerId));
      if !HasOwnApi(p) then NoEmoji
      else if !env.direct.success then NoEmoji
      else
        var tag := Lower(Strip(env.direct.content.GetOr("")));
        if tag !in AcceptedLabels || tag == "none" then NoEmoji
        else if tag !in env.folders then NoEmoji
        else
          var images := Filter(env.folders[tag], IsImage);
          if |images| == 0 then
            assert forall f :: f in env.folders[tag] ==> !IsImage(f) by {
              forall f | f in env.folders[tag] ensures !IsImage(f) {
                var i :| 0 <= i < |env.folders[tag]| && env.folders[tag][i] == f;
                assert env.folders[tag][i] !in images;
              }
            }
            NoEmoji
          else
            assert images[0] in env.folders[tag] && IsImage(images[0]);
            Emoji(tag)
  }

  /** The classifier cannot pick a folder by answering "none" or anything
      outside the labels, and whatever surrounding whitespace and letter case
      it uses is ignored. */
  lemma NoneSelectsNothing(worker: Option<RoleProfile>, env: EmotionEnv)
    requires env.direct.DirectReply? && Lower(Strip(env.direct.content.GetOr(""))) == "none"
    ensures !DetectEmotion(worker, env).Emoji?
  {
  }

  // ------------------------------------------------------- chat context

  /** The cycle sentence `handle_chat` adds, or the `TypeError` it raises
      when the role is in its period but no cycle info exists. */
  datatype CycleNote = NoNote | Note(text: string) | NoteRaises

  const CycleHeader: string := "\n生理期数据：你当前"

  /** One cycle sentence: the header, the body, a closing newline. */
  function CycleSentence(body: string): (r: string)
    ensures StartsWith(r, CycleHeader) && EndsWith(r, "\n")
  {
    var r := CycleHeader + body + "\n";
    assert r[..|CycleHeader|] == CycleHeader;
    assert r[|r| - 1..] == "\n";
    r
  }

  function CycleNoteOf(inMenstruation: Option<bool>, day: Option<int>, info: Option<CycleInfo>): (r: CycleNote)
    ensures r.NoteRaises? <==> inMenstruation == Some(true) && day.Some? && info.None?
    ensures r.Note? <==> inMenstruation.Some? && day.Some? && !r.NoteRaises?
    ensures r.Note? ==> StartsWith(r.text, CycleHeader) && EndsWith(r.text, "\n")
  {
    if inMenstruation.None? || day.None? then NoNote
    else if inMenstruation.value then
      if info.None? then NoteRaises
      else Note(CycleSentence("处于生理期第" + IntToString(day.value) + "天，预计持续时间"
                              + IntToString(info.value.periodLength) + "天，请考虑这一点对你的情绪和状态的影响。"))
    else if info.Some? then
      Note(CycleSentence("不处于生理期，距离上次生理期结束已第" + IntToString(day.value)
                         + "天，平均月经周期天数为 " + IntToString(info.value.cycleLength) + " 天"))
    else
      Note(CycleSentence("不处于生理期，距离上次生理期结束已第" + IntToString(day.value) + "天。"))
  }

  predicate NonEmpty(s: string) {
    s != ""
  }

  /** `f"[外挂记录]\n{attached}"` when there is a record, else nothing. */
  function AttachedBlock(attached: string): string {
    if attached != "" then AttachedPrefix + attached else ""
  }

  function NoteText(n: CycleNote): string {
    if n.Note? then n.text else ""
  }

  /** A one-item list keeps its item exactly when the test holds. */
  lemma FilterOne(x: string, p: string -> bool)
    ensures Filter([x], p) == if p(x) then [x] else []
  {
    assert [x][1..] == [];
  }

  /** `extra_parts` of `handle_chat`: the memory context, the cycle
      sentence and the attached record, each only when present, in that
      order (the web-search part is disabled, so it is always empty). The
      note is one `CycleNoteOf` made, so its sentence is never empty. */
  function ChatExtraParts(memory: string, note: CycleNote, attached: string): (r: seq<string>)
    requires note.Note? ==> StartsWith(note.text, CycleHeader)
    ensures r == Filter([memory, NoteText(note), AttachedBlock(attached)], NonEmpty)
  {
    assert note.Note? ==> note.text[0] == CycleHeader[0];
    FilterThree(memory, NoteText(note), AttachedBlock(attached));
    (if memory != "" then [memory] else [])
    + (if note.Note? then [note.text] else [])
    + (if attached != "" then [AttachedPrefix + attached] else [])
  }

  /** Keeping the non-empty items of a three-item list, one at a time. */
  lemma FilterThree(a: string, b: string, c: string)
    ensures Filter([a, b, c], NonEmpty)
            == (if a != "" then [a] else []) + (if b != "" then [b] else []) + (if c != "" then [c] else [])
  {
    assert [a, b, c] == [a] + [b] + [c];
    assert [a] + [b] == [a, b];
    FilterOne(a, NonEmpty);
    FilterOne(b, NonEmpty);
    FilterOne(c, NonEmpty);
    FilterConcat([a], [b], NonEmpty);
    FilterConcat([a, b], [c], NonEmpty);
  }

  /** `"\n\n".join(extra_parts) if extra_parts else None` */
  function ExtraContext(parts: seq<string>): (r: Option<string>)
    ensures r.None? <==> parts == []
    ensures r.Some? ==> StartsWith(r.value, parts[0])
    ensures |parts| == 1 ==> r == Some(parts[0])
    ensures |parts| >= 2 ==> r == Some(parts[0] + PartSeparator + ExtraContext(parts[1..]).value)
    decreases |parts|
  {
    if parts == [] then None else Some(Join(parts, PartSeparator))
  }

  /** Three parts are joined with a blank line between neighbours. */
  lemma ThreePartContext(a: string, b: string, c: string)
    ensures ExtraContext([a, b, c]) == Some(a + PartSeparator + b + PartSeparator + c)
  {
    var parts := [a, b, c];
    assert parts[1..] == [b, c] && parts[1..][1..] == [c];
    assert ExtraContext([b, c]) == Some(b + PartSeparator + c);
    assert a + PartSeparator + (b + PartSeparator + c) == a + PartSeparator + b + PartSeparator + c;
  }

  /** With a memory context, a cycle sentence and an attached record all
      present, the extra context is the three of them in that order,
      separated by blank lines. */
  lemma AllPartsContext(memory: string, sentence: string, attached: string)
    requires memory != "" && attached != "" && StartsWith(sentence, CycleHeader)
    ensures ExtraContext(ChatExtraParts(memory, Note(sentence), attached))
            == Some(memory + PartSeparator + sentence + PartSeparator + AttachedPrefix + attached)
  {
    assert sentence[0] == CycleHeader[0];
    assert ChatExtraParts(memory, Note(sentence), attached) == [memory, sentence, AttachedPrefix + attached];
    ThreePartContext(memory, sentence, AttachedPrefix + attached);
    assert memory + PartSeparator + sentence + PartSeparator + (AttachedPrefix + attached)
        == memory + PartSeparator + sentence + PartSeparator + AttachedPrefix + attached;
  }

  /** Without a cycle sentence or an attached record, the extra context is
      the memory context itself, or nothing when that is empty. */
  lemma MemoryOnlyContext(memory: string)
    ensures ExtraContext(ChatExtraParts(memory, NoNote, "")) == (if memory == "" then None else Some(memory))
  {
  }

  /** `get_context_messages`' result as the history `generate_with_role`
      receives it. */
  function HistoryOf(msgs: seq<ContextMessage>): (r: seq<HistoryItem>)
    ensures |r| == |msgs|
    ensures forall i :: 0 <= i < |r| ==> r[i] == HistoryItem(Some(msgs[i].role), Some(msgs[i].content))
  {
    seq(|msgs|, i requires 0 <= i < |msgs| => HistoryItem(Some(msgs[i].role), Some(msgs[i].content)))
  }

  // ------------------------------------------------------------- handlers

  /** The entry an append at `now` adds. */
  function Turn(role: string, content: string, now: Clock): Entry {
    Entry(role, content, now.iso)
  }

  /** The model calls a summary pass made: none or one. */
  function SummaryCalls(run: SummaryRun): seq<Call> {
    if run.call.Some? then [run.call.value] else []
  }

  /** Every role outside `ids` loads the same record from both stores. */
  ghost predicate SameOutside(a: Store, b: Store, ids: set<string>) {
    forall other {:trigger Load(a, other)} {:trigger Load(b, other)} :: other !in ids ==> Load(a, other) == Load(b, other)
  }

  /** A store written only under `roleId` keeps every other record. */
  lemma FrameOutside(a: Store, b: Store, roleId: string)
    requires a - {roleId} == b - {roleId}
    ensures SameOutside(a, b, {roleId})
  {
    forall other | other != roleId ensures Load(a, other) == Load(b, other) {
      assert other in a - {roleId} <==> other in b - {roleId};
      if other in a {
        assert a[other] == (a - {roleId})[other] == (b - {roleId})[other] == b[other];
      }
    }
  }

  /** Records kept by two successive writes are kept by both together,
      outside any set of ids that covers both writes. */
  lemma SameOutsideTrans(a: Store, b: Store, c: Store, ids1: set<string>, ids2: set<string>, ids: set<string>)
    requires SameOutside(a, b, ids1) && SameOutside(b, c, ids2)
    requires ids1 <= ids && ids2 <= ids
    ensures SameOutside(a, c, ids)
  {
    forall other | other !in ids ensures Load(a, other) == Load(c, other) {
      assert Load(a, other) == Load(b, other);
    }
  }

  /** One append adds its turn to the role's log and one to its counter. */
  lemma OneAppend(store: Store, roleId: string, role: string, content: string, now: Clock)
    ensures var s := AppendShortTerm(store, roleId, role, content, now);
      && Load(s, roleId).shortTerm == CapLog(Load(store, roleId).shortTerm + [Turn(role, content, now)])
      && CountOf(Load(s, roleId)) == CountOf(Load(store, roleId)) + 1
  {
    StepLog(Load(store, roleId), Entry(role, content, now.iso), now);
  }

  /** The two appends of a successful chat: both turns are added to the
      role's log, oldest first, the counter grows by two, and every other
      record is kept. */
  lemma TwoAppends(store: Store, roleId: string, user: string, reply: string, now: Clock)
    ensures var s := AppendShortTerm(AppendShortTerm(store, roleId, "user", user, now), roleId, "assistant", reply, now);
      && SameOutside(store, s, {roleId})
      && Load(s, roleId).shortTerm == CapLog(Load(store, roleId).shortTerm + [Turn("user", user, now), Turn("assistant", reply, now)])
      && CountOf(Load(s, roleId)) == CountOf(Load(store, roleId)) + 2
  {
    TwoAppendsLog(store, roleId, user, reply, now);
    TwoAppendsFrame(store, roleId, user, reply, now);
  }

  /** The frame part of `TwoAppends`. */
  lemma TwoAppendsFrame(store: Store, roleId: string, user: string, reply: string, now: Clock)
    ensures SameOutside(store, AppendShortTerm(AppendShortTerm(store, roleId, "user", user, now), roleId, "assistant", reply, now), {roleId})
  {
    var s1 := AppendShortTerm(store, roleId, "user", user, now);
    var s2 := AppendShortTerm(s1, roleId, "assistant", reply, now);
    FrameOutside(store, s1, roleId);
    FrameOutside(s1, s2, roleId);
    SameOutsideTrans(store, s1, s2, {roleId}, {roleId}, {roleId});
  }

  /** The log and counter part of `TwoAppends`. */
  lemma TwoAppendsLog(store: Store, roleId: string, user: string, reply: string, now: Clock)
    ensures var s := AppendShortTerm(AppendShortTerm(store, roleId, "user", user, now), roleId, "assistant", reply, now);
      && Load(s, roleId).shortTerm == CapLog(Load(store, roleId).shortTerm + [Turn("user", user, now), Turn("assistant", reply, now)])
      && CountOf(Load(s, roleId)) == CountOf(Load(store, roleId)) + 2
  {
    var s1 := AppendShortTerm(store, roleId, "user", user, now);
    OneAppend(store, roleId, "user", user, now);
    OneAppend(s1, roleId, "assistant", reply, now);
    CapLogTwice(Load(store, roleId).shortTerm, Turn("user", user, now), Turn("assistant", reply, now));
  }

  /** Capping after each of two appends is capping once after both. */
  lemma CapLogTwice(log: seq<Entry>, u: Entry, a: Entry)
    ensures CapLog(CapLog(log + [u]) + [a]) == CapLog(log + [u, a])
  {
    CapLogAppend(log + [u], [a]);
    assert log + [u] + [a] == log + [u, a];
  }

  /** A summary pass on the summary worker keeps every other record and
      every log. */
  lemma SummaryFrame(store: Store, cfg: ApiConfig, transport: Transport, now: Clock, roleId: string)
    ensures var s := TriggerMemorySummary(store, SummaryWorkerId, cfg, transport, now).store;
      && SameOutside(store, s, {SummaryWorkerId})
      && Load(s, roleId).shortTerm == Load(store, roleId).shortTerm
  {
    var s := TriggerMemorySummary(store, SummaryWorkerId, cfg, transport, now).store;
    SummaryKeepsLogs(store, SummaryWorkerId, cfg, transport, now, roleId);
    forall other | other != SummaryWorkerId ensures Load(store, other) == Load(s, other) {
      SummaryKeepsLogs(store, SummaryWorkerId, cfg, transport, now, other);
    }
  }

  /** The memory effect of a replied chat: the user's turn and the reply
      are recorded, then the summary pass runs on the summary worker. */
  function ChatRecorded(store: Store, roleId: string, env: Env, userTurn: string, text: string): (r: SummaryRun)
    ensures Load(r.store, roleId).shortTerm
            == CapLog(Load(store, roleId).shortTerm + [Turn("user", userTurn, env.now), Turn("assistant", text, env.now)])
    ensures SameOutside(store, r.store, {roleId, SummaryWorkerId})
  {
    var s2 := AppendShortTerm(AppendShortTerm(store, roleId, "user", userTurn, env.now), roleId, "assistant", text, env.now);
    var run := TriggerMemorySummary(s2, SummaryWorkerId, env.cfg, env.summary, env.now);
    RecordedLog(store, roleId, env, userTurn, text);
    RecordedFrame(store, roleId, env, userTurn, text);
    run
  }

  /** Two appends followed by the summary pass: the log gains both turns. */
  lemma RecordedLog(store: Store, roleId: string, env: Env, userTurn: string, text: string)
    ensures var s2 := AppendShortTerm(AppendShortTerm(store, roleId, "user", userTurn, env.now), roleId, "assistant", text, env.now);
      Load(TriggerMemorySummary(s2, SummaryWorkerId, env.cfg, env.summary, env.now).store, roleId).shortTerm
      == CapLog(Load(store, roleId).shortTerm + [Turn("user", userTurn, env.now), Turn("assistant", text, env.now)])
  {
    var s2 := AppendShortTerm(AppendShortTerm(store, roleId, "user", userTurn, env.now), roleId, "assistant", text, env.now);
    TwoAppendsLog(store, roleId, userTurn, text, env.now);
    SummaryKeepsLogs(s2, SummaryWorkerId, env.cfg, env.summary, env.now, roleId);
  }

  /** Two appends followed by the summary pass change only the role's and
      the summary worker's records. */
  lemma RecordedFrame(store: Store, roleId: string, env: Env, userTurn: string, text: string)
    ensures var s2 := AppendShortTerm(AppendShortTerm(store, roleId, "user", userTurn, env.now), roleId, "assistant", text, env.now);
      SameOutside(store, TriggerMemorySummary(s2, SummaryWorkerId, env.cfg, env.summary, env.now).store, {roleId, SummaryWorkerId})
  {
    var s2 := AppendShortTerm(AppendShortTerm(store, roleId, "user", userTurn, env.now), roleId, "assistant", text, env.now);
    var s := TriggerMemorySummary(s2, SummaryWorkerId, env.cfg, env.summary, env.now).store;
    TwoAppends(store, roleId, userTurn, text, env.now);
    SummaryFrame(s2, env.cfg, env.summary, env.now, roleId);
    SameOutsideTrans(store, s2, s, {roleId}, {SummaryWorkerId}, {roleId, SummaryWorkerId});
  }

  /** The reply as answered: " [<label>]" is appended when an emoji was
      found. */
  function Tagged(text: string, em: Emotion): (r: string)
    ensures StartsWith(r, text)
    ensures em.Emoji? ==> r[|text|..] == " [" + em.tag + "]"
    ensures !em.Emoji? ==> r == text
  {
    if em.Emoji? then
      var r := text + " [" + em.tag + "]";
      assert r[..|text|] == text && r[|text|..] == " [" + em.tag + "]";
      r
    else text
  }

  /** The `emoji` metadata: the label, or null. */
  function EmojiOf(em: Emotion): Option<string> {
    if em.Emoji? then Some(em.tag) else None
  }

  /** What `handle_chat` answers once the model has replied and the
      exchange has been recorded by `run`: the reply tagged by the detected
      emotion, unless detection raised. */
  function ChatAnswered(p: RoleProfile, run: SummaryRun, call: Call, text: string, em: Emotion): (r: Handled)
    ensures r.store == run.store
    ensures r.calls == [call] + SummaryCalls(run)
    ensures r.reply.Raised? <==> em.EmotionRaises?
    ensures !r.reply.Raised? ==>
      && r.reply.Respond? && r.reply.response.success
      && r.reply.response.content == Some(Tagged(text, em))
      && r.reply.response.metadata == map["role_name" := p.name, "emoji" := EmojiOf(em)]
  {
    if em.EmotionRaises? then Handled(Raised, run.store, [call] + SummaryCalls(run))
    else
      Handled(Respond(AIResponse(true, Some("reply"), Some(Tagged(text, em)), None,
                                 map["role_name" := p.name, "emoji" := EmojiOf(em)])),
              run.store, [call] + SummaryCalls(run))
  }

  /** The request `handle_chat` makes, when it gets that far: the history
      is the served context block, the extra context joins the memory
      context, the cycle sentence and the attached record. */
  function ChatCall(p: RoleProfile, e: AIEvent, store: Store, env: Env): (c: Option<Call>)
    requires env.extras.Extras?
    requires !CycleNoteOf(env.extras.inMenstruation, env.extras.menstruationDay, env.extras.cycleInfo).NoteRaises?
    ensures c.None? <==> p.persona.GetOr("") == "" && p.systemPrompt.GetOr("") == ""
    ensures c.Some? && c.value.result.success ==>
      && env.reply.Replied? && c.value.result.content == Some(env.reply.text)
      && c.value.result.userContent == Some(Message("user", ContentOrEmpty(e) + TimeSuffix(env.now)))
    ensures c.Some? && !c.value.result.success ==> c.value.result.error.Some?
    ensures c.Some? && c.value.sent.Some? ==>
      var served := ContextMessages(Load(store, e.roleId), env.extras.memoryLength);
      var msgs := c.value.sent.value.messages;
      && |msgs| == |served| + 2
      && msgs[0] == Message("system", SystemContent(p.persona.GetOr(""), p.systemPrompt.GetOr(""),
           ExtraContext(ChatExtraParts(MemoryContextString(store, e.roleId),
                                       CycleNoteOf(env.extras.inMenstruation, env.extras.menstruationDay, env.extras.cycleInfo),
                                       p.attachedJsonContent.GetOr("")))))
      && (forall i :: 0 <= i < |served| ==> msgs[i + 1] == Message(served[i].role, served[i].content))
      && msgs[|msgs| - 1] == Message("user", ContentOrEmpty(e) + TimeSuffix(env.now))
  {
    var note := CycleNoteOf(env.extras.inMenstruation, env.extras.menstruationDay, env.extras.cycleInfo);
    var history := HistoryOf(ContextMessages(Load(store, e.roleId), env.extras.memoryLength));
    var extra := ExtraContext(ChatExtraParts(MemoryContextString(store, e.roleId), note,
                                             p.attachedJsonContent.GetOr("")));
    GenerateWithRole(env.cfg, p, ContentOrEmpty(e), history, extra, env.now, env.reply)
  }

  /** `handle_chat`. It raises before any effect when the helpers are
      missing, when the cycle info it indexes is missing, or when the role
      has neither persona nor system prompt; a failed call leaves memory
      alone; a reply is recorded as the user's time-stamped turn and the
      reply, after which the summary pass and emotion detection run. */
  function HandleChat(p: RoleProfile, e: AIEvent, roles: map<string, RoleProfile>, store: Store, env: Env): (r: Handled)
    ensures env.extras.ExtrasMissing? ==> r == Handled(Raised, store, [])
    ensures r.reply.Respond? && !r.reply.response.success ==>
      r.reply.response == Ignored(r.reply.response.error) && r.reply.response.error.Some?
      && r.store == ChatStore(store, env, e.roleId)
    ensures r.reply.Respond? && r.reply.response.success ==>
      && env.reply.Replied?
      && Load(r.store, e.roleId).shortTerm
         == CapLog(Load(ChatStore(store, env, e.roleId), e.roleId).shortTerm
                   + [Turn("user", ContentOrEmpty(e) + TimeSuffix(env.now), env.now),
                      Turn("assistant", env.reply.text, env.now)])
      && r.reply.response.content.Some? && StartsWith(r.reply.response.content.value, env.reply.text)
    ensures r.reply.Raised? && !DetectEmotion(LoadRole(roles, EmotionWorkerId), env.emotion).EmotionRaises? ==>
      r.store == ChatStore(store, env, e.roleId)
    ensures SameOutside(store, r.store, {e.roleId, SummaryWorkerId, SequentialWorkerId})
    ensures r.reply.Respond? || r.reply.Raised?
  {
    match env.extras
    case ExtrasMissing => Handled(Raised, store, [])
    case Extras(_, inMenstruation, day, info, _) =>
      var s1 := ChatStore(store, env, e.roleId);
      var r := ChatAfterSequence(p, e, roles, store, s1, env);
      SameOutsideTrans(store, s1, r.store, {e.roleId, SequentialWorkerId}, {e.roleId, SummaryWorkerId},
                       {e.roleId, SummaryWorkerId, SequentialWorkerId});
      r
  }

  /** The store `handle_chat` works on after `sequential_memory_generation`
      ran (the history and memory context were read before it): the role's
      and the worker's records as the helper left them, every other record
      unchanged. */
  function ChatStore(store: Store, env: Env, roleId: string): (r: Store)
    ensures SameOutside(store, r, {roleId, SequentialWorkerId})
    ensures Load(r, roleId) == SequentialLoad(store, env, roleId)
    ensures roleId != SequentialWorkerId ==> Load(r, SequentialWorkerId) == SequentialLoad(store, env, SequentialWorkerId)
    ensures env.extras.ExtrasMissing? || env.extras.sequentialWrites == map[] ==> r == store
  {
    var writes := if env.extras.Extras? then env.extras.sequentialWrites else map[];
    var s1 := if SequentialWorkerId in writes then store[SequentialWorkerId := writes[SequentialWorkerId]] else store;
    var r := if roleId in writes then s1[roleId := writes[roleId]] else s1;
    assert s1 - {SequentialWorkerId} == store - {SequentialWorkerId};
    assert r - {roleId} == s1 - {roleId};
    FrameOutside(store, s1, SequentialWorkerId);
    FrameOutside(s1, r, roleId);
    SameOutsideTrans(store, s1, r, {SequentialWorkerId}, {roleId}, {roleId, SequentialWorkerId});
    r
  }

  /** When the sequential step rewrote the role's memory (say with a
      bridging exchange), a replied chat records its two turns after the log
      the step left, not after the one read before it. */
  lemma ReplyFollowsSequentialWrite(p: RoleProfile, e: AIEvent, roles: map<string, RoleProfile>, store: Store, env: Env)
    requires env.extras.Extras? && e.roleId in env.extras.sequentialWrites
    requires HandleChat(p, e, roles, store, env).reply.Respond?
    requires HandleChat(p, e, roles, store, env).reply.response.success
    ensures env.reply.Replied?
    ensures Load(HandleChat(p, e, roles, store, env).store, e.roleId).shortTerm
            == CapLog(env.extras.sequentialWrites[e.roleId].shortTerm
                      + [Turn("user", ContentOrEmpty(e) + TimeSuffix(env.now), env.now),
                         Turn("assistant", env.reply.text, env.now)])
  {
  }

  /** A record as `sequential_memory_generation` leaves it: rewritten, or
      as stored. */
  function SequentialLoad(store: Store, env: Env, id: string): MemoryRecord {
    if env.extras.Extras? && id in env.extras.sequentialWrites then env.extras.sequentialWrites[id] else Load(store, id)
  }

  /** The rest of `handle_chat` once the helpers exist: the cycle note, the
      model call built from the store as read before, and the recording of
      a reply into `s1`. */
  function ChatAfterSequence(p: RoleProfile, e: AIEvent, roles: map<string, RoleProfile>, store: Store, s1: Store,
                             env: Env): (r: Handled)
    requires env.extras.Extras?
    ensures r.reply.Respond? && !r.reply.response.success ==>
      r.reply.response == Ignored(r.reply.response.error) && r.reply.response.error.Some? && r.store == s1
    ensures r.reply.Respond? && r.reply.response.success ==>
      && env.reply.Replied?
      && Load(r.store, e.roleId).shortTerm
         == CapLog(Load(s1, e.roleId).shortTerm
                   + [Turn("user", ContentOrEmpty(e) + TimeSuffix(env.now), env.now),
                      Turn("assistant", env.reply.text, env.now)])
      && r.reply.response.content.Some? && StartsWith(r.reply.response.content.value, env.reply.text)
    ensures r.reply.Raised? && !DetectEmotion(LoadRole(roles, EmotionWorkerId), env.emotion).EmotionRaises? ==>
      r.store == s1
    ensures SameOutside(s1, r.store, {e.roleId, SummaryWorkerId})
    ensures r.reply.Respond? || r.reply.Raised?
  {
    if CycleNoteOf(env.extras.inMenstruation, env.extras.menstruationDay, env.extras.cycleInfo).NoteRaises? then
      Handled(Raised, s1, [])
    else
      ChatAfterNote(p, e, roles, store, s1, env)
  }

  /** `ChatAfterSequence` once the cycle note was built without raising:
      the model call, then the recording of a reply. */
  function ChatAfterNote(p: RoleProfile, e: AIEvent, roles: map<string, RoleProfile>, store: Store, s1: Store,
                         env: Env): (r: Handled)
    requires env.extras.Extras?
    requires !CycleNoteOf(env.extras.inMenstruation, env.extras.menstruationDay, env.extras.cycleInfo).NoteRaises?
    ensures r.reply.Respond? && !r.reply.response.success ==>
      r.reply.response == Ignored(r.reply.response.error) && r.reply.response.error.Some? && r.store == s1
    ensures r.reply.Respond? && r.reply.response.success ==>
      && env.reply.Replied?
      && Load(r.store, e.roleId).shortTerm
         == CapLog(Load(s1, e.roleId).shortTerm
                   + [Turn("user", ContentOrEmpty(e) + TimeSuffix(env.now), env.now),
                      Turn("assistant", env.reply.text, env.now)])
      && r.reply.response.content.Some? && StartsWith(r.reply.response.content.value, env.reply.text)
    ensures r.reply.Raised? && !DetectEmotion(LoadRole(roles, EmotionWorkerId), env.emotion).EmotionRaises? ==>
      r.store == s1
    ensures SameOutside(s1, r.store, {e.roleId, SummaryWorkerId})
    ensures r.reply.Respond? || r.reply.Raised?
  {
    var c := ChatCall(p, e, store, env);
    if c.None? then Handled(Raised, s1, [])
    else if !c.value.result.success then Handled(Respond(Ignored(c.value.result.error)), s1, [c.value])
    else ChatReplied(p, e, s1, env, c.value, DetectEmotion(LoadRole(roles, EmotionWorkerId), env.emotion))
  }

  /** A reply recorded into `s1` and answered, tagged by the emotion the
      worker detects. */
  function ChatReplied(p: RoleProfile, e: AIEvent, s1: Store, env: Env, call: Call, em: Emotion): (r: Handled)
    requires env.reply.Replied? && call.result.content == Some(env.reply.text)
    ensures r.reply.Respond? ==>
      && r.reply.response.success
      && r.reply.response.content.Some? && StartsWith(r.reply.response.content.value, env.reply.text)
    ensures Load(r.store, e.roleId).shortTerm
         == CapLog(Load(s1, e.roleId).shortTerm
                   + [Turn("user", ContentOrEmpty(e) + TimeSuffix(env.now), env.now),
                      Turn("assistant", env.reply.text, env.now)])
    ensures r.reply.Raised? <==> em.EmotionRaises?
    ensures SameOutside(s1, r.store, {e.roleId, SummaryWorkerId})
    ensures r.reply.Respond? || r.reply.Raised?
  {
    var text := env.reply.text;
    var run := ChatRecorded(s1, e.roleId, env, ContentOrEmpty(e) + TimeSuffix(env.now), text);
    var r := ChatAnswered(p, run, call, text, em);
    assert r.store == run.store;
    assert r.reply.Raised? <==> em.EmotionRaises?;
    assert r.reply.Respond? ==> r.reply.response.content == Some(Tagged(text, em));
    r
  }

  /** `event.content or <default>` */
  function ProactivePrompt(e: AIEvent): (r: string)
    ensures r != ""
    ensures ContentOrEmpty(e) != "" ==> r == ContentOrEmpty(e)
  {
    if ContentOrEmpty(e) != "" then ContentOrEmpty(e) else DefaultProactivePrompt
  }

  /** `handle_proactive`: the prompt is the event's content or the default
      greeting request; a reply is recorded as one assistant turn. */
  function HandleProactive(p: RoleProfile, e: AIEvent, store: Store, env: Env): (r: Handled)
    ensures env.extras.ExtrasMissing? ==> r == Handled(Raised, store, [])
    ensures r.reply.Raised? <==>
      env.extras.ExtrasMissing? || (p.persona.GetOr("") == "" && p.systemPrompt.GetOr("") == "")
    ensures !r.reply.Raised? ==>
      && env.extras.Extras?
      && |r.calls| == 1
      && r.calls[0]
         == GenerateWithRole(env.cfg, p, ProactivePrompt(e),
                             HistoryOf(ContextMessages(Load(store, e.roleId), env.extras.memoryLength)),
                             Some(MemoryContextString(store, e.roleId)), env.now, env.reply).value
    ensures r.reply.Respond? && !r.reply.response.success ==>
      r.reply.response == Ignored(r.reply.response.error) && r.reply.response.error.Some? && r.store == store
    ensures r.reply.Respond? && r.reply.response.success ==>
      && env.reply.Replied?
      && r.reply.response == AIResponse(true, Some("reply"), Some(env.reply.text), None,
                                        map["type" := Some("proactive"), "role_name" := p.name])
      && |r.calls| == 1
      && r.calls[0].result.userContent == Some(Message("user", ProactivePrompt(e) + TimeSuffix(env.now)))
      && r.store - {e.roleId} == store - {e.roleId}
      && Load(r.store, e.roleId).shortTerm
         == CapLog(Load(store, e.roleId).shortTerm + [Turn("assistant", env.reply.text, env.now)])
      && CountOf(Load(r.store, e.roleId)) == CountOf(Load(store, e.roleId)) + 1
      && Load(r.store, e.roleId).coreMemory == Load(store, e.roleId).coreMemory
    ensures !(r.reply.Respond? && r.reply.response.success) ==> r.store == store
    ensures r.reply.Respond? || r.reply.Raised?
  {
    match env.extras
    case ExtrasMissing => Handled(Raised, store, [])
    case Extras(memoryLength, _, _, _, _) =>
      var history := HistoryOf(ContextMessages(Load(store, e.roleId), memoryLength));
      match GenerateWithRole(env.cfg, p, ProactivePrompt(e), history, Some(MemoryContextString(store, e.roleId)),
                             env.now, env.reply)
      case None => Handled(Raised, store, [])
      case Some(call) =>
        if !call.result.success then Handled(Respond(Ignored(call.result.error)), store, [call])
        else
          var text := call.result.content.value;
          var s := AppendShortTerm(store, e.roleId, "assistant", text, env.now);
          Handled(Respond(AIResponse(true, Some("reply"), Some(text), None,
                                     map["type" := Some("proactive"), "role_name" := p.name])), s, [call])
  }

  /** `handle_task`: the event's content is the prompt, there is no
      history, the memory context is the extra context; a reply is recorded
      as one assistant turn and answered with the task's id. */
  function HandleTask(p: RoleProfile, e: AIEvent, store: Store, env: Env): (r: Handled)
    ensures r.reply.Raised? <==> p.persona.GetOr("") == "" && p.systemPrompt.GetOr("") == ""
    ensures r.reply.Respond? && !r.reply.response.success ==>
      r.reply.response == Ignored(r.reply.response.error) && r.reply.response.error.Some?
    ensures r.reply.Respond? && r.reply.response.success ==>
      && env.reply.Replied?
      && r.reply.response == AIResponse(true, Some("reply"), Some(env.reply.text), None,
                                        map["type" := Some("task"), "task_id" := ContextValue(e, "task_id")])
      && |r.calls| == 1
      && r.calls[0].result.userContent == Some(Message("user", ContentOrEmpty(e) + TimeSuffix(env.now)))
      && r.store - {e.roleId} == store - {e.roleId}
      && Load(r.store, e.roleId).shortTerm
         == CapLog(Load(store, e.roleId).shortTerm + [Turn("assistant", env.reply.text, env.now)])
      && CountOf(Load(r.store, e.roleId)) == CountOf(Load(store, e.roleId)) + 1
      && Load(r.store, e.roleId).coreMemory == Load(store, e.roleId).coreMemory
    ensures !(r.reply.Respond? && r.reply.response.success) ==> r.store == store
    ensures !r.reply.Raised? ==>
      && |r.calls| == 1
      && (r.calls[0].sent.Some? ==>
            r.calls[0].sent.value.messages
            == [Message("system", SystemContent(p.persona.GetOr(""), p.systemPrompt.GetOr(""),
                                                Some(MemoryContextString(store, e.roleId)))),
                Message("user", ContentOrEmpty(e) + TimeSuffix(env.now))])
  {
    match GenerateWithRole(env.cfg, p, ContentOrEmpty(e), [], Some(MemoryContextString(store, e.roleId)),
                           env.now, env.reply)
    case None => Handled(Raised, store, [])
    case Some(call) =>
      if !call.result.success then Handled(Respond(Ignored(call.result.error)), store, [call])
      else
        var text := call.result.content.value;
        var s := AppendShortTerm(store, e.roleId, "assistant", text, env.now);
        Handled(Respond(AIResponse(true, Some("reply"), Some(text), None,
                                   map["type" := Some("task"), "task_id" := ContextValue(e, "task_id")])), s, [call])
  }

  /** `handle_moment_post`: one call with the post prompt, coloured by the
      context's mood when there is one; memory is not touched. */
  function HandleMomentPost(p: RoleProfile, e: AIEvent, store: Store, env: Env): (r: Handled)
    ensures r.store == store && r.reply.Respond? && |r.calls| == 1
    ensures r.calls[0] == GenerateMomentPost(env.cfg, p, ContextValue(e, "mood"), env.reply)
    ensures r.reply.response.success <==> r.calls[0].result.success
    ensures r.reply.response.success ==>
      r.reply.response == AIResponse(true, Some("post"), r.calls[0].result.content, None, map["role_name" := p.name])
    ensures !r.reply.response.success ==> r.reply.response == Ignored(r.calls[0].result.error)
  {
    var call := GenerateMomentPost(env.cfg, p, ContextValue(e, "mood"), env.reply);
    if !call.result.success then Handled(Respond(Ignored(call.result.error)), store, [call])
    else Handled(Respond(AIResponse(true, Some("post"), call.result.content, None, map["role_name" := p.name])),
                 store, [call])
  }

  /** `handle_moment_comment`: half of the draws decline without calling
      the model; otherwise one call with the comment prompt, the post and
      its author taken from the context (author "用户" by default). */
  function HandleMomentComment(p: RoleProfile, e: AIEvent, store: Store, env: Env): (r: Handled)
    ensures r.store == store && r.reply.Respond?
    ensures env.commentDraw > CommentChance <==> r.calls == []
    ensures r.calls == [] ==> r.reply.response == AIResponse(true, Some("ignore"), None, None, map[])
    ensures r.calls != [] ==>
      && |r.calls| == 1
      && r.calls[0] == GenerateMomentComment(env.cfg, p, ContextValue(e, "post_content").GetOr(""),
                                              ContextValue(e, "post_author").GetOr(DefaultPostAuthor),
                                              ContextValue(e, "reply_to"), env.reply)
      && (r.reply.response.success <==> r.calls[0].result.success)
      && (r.reply.response.success ==>
            r.reply.response == AIResponse(true, Some("comment"), r.calls[0].result.content, None,
                                           map["role_name" := p.name]))
      && (!r.reply.response.success ==> r.reply.response == Ignored(r.calls[0].result.error))
  {
    if env.commentDraw > CommentChance then
      Handled(Respond(AIResponse(true, Some("ignore"), None, None, map[])), store, [])
    else
      var call := GenerateMomentComment(env.cfg, p, ContextValue(e, "post_content").GetOr(""),
                                        ContextValue(e, "post_author").GetOr(DefaultPostAuthor),
                                        ContextValue(e, "reply_to"), env.reply);
      if !call.result.success then Handled(Respond(Ignored(call.result.error)), store, [call])
      else Handled(Respond(AIResponse(true, Some("comment"), call.result.content, None, map["role_name" := p.name])),
                   store, [call])
  }

  /** `handle_memory_summarization`: the summary pass on the summary
      worker, whose new core memory (or null) is returned as it is. */
  function HandleMemorySummarization(store: Store, env: Env): (r: Handled)
    ensures r.reply.BareSummary?
    ensures r.reply.value.Some? <==> ShouldSummarize(Load(store, SummaryWorkerId)) && |r.calls| == 1
                                     && r.calls[0].result.success
                                     && env.summary.Replied? && env.summary.text != ""
    ensures r.reply.value.None? ==> r.store == store
    ensures r.reply.value.Some? ==> CoreMemory(r.store, SummaryWorkerId) == r.reply.value.value
    ensures SameOutside(store, r.store, {SummaryWorkerId})
  {
    var run := TriggerMemorySummary(store, SummaryWorkerId, env.cfg, env.summary, env.now);
    SummaryFrame(store, env.cfg, env.summary, env.now, SummaryWorkerId);
    Handled(BareSummary(run.newCore), run.store, SummaryCalls(run))
  }

  /** `handle_ai_event`: an unknown role is a 404 before anything else;
      otherwise the event goes to the handler of its type. Whatever the
      event, a failed response has the "ignore" shape and changes no memory,
      and only the event's role and the summary worker can have their
      memory changed. */
  function HandleAiEvent(e: AIEvent, roles: map<string, RoleProfile>, store: Store, env: Env): (r: Handled)
    ensures r.reply.RoleNotFound? <==> e.roleId !in roles
    ensures r.reply.RoleNotFound? ==> r.store == store && r.calls == []
    ensures r.reply.Respond? && !r.reply.response.success ==>
      && r.reply.response == Ignored(r.reply.response.error) && r.reply.response.error.Some?
      && r.store == (if e.eventType.Chat? then ChatStore(store, env, e.roleId) else store)
    ensures r.reply.BareSummary? <==> e.roleId in roles && e.eventType.MemorySummarization?
    ensures r.store != store ==>
      e.eventType in {EventType.Chat, EventType.Proactive, EventType.Task, EventType.MemorySummarization}
    ensures SameOutside(store, r.store, {e.roleId, SummaryWorkerId, SequentialWorkerId})
  {
    match LoadRole(roles, e.roleId)
    case None => Handled(RoleNotFound, store, [])
    case Some(p) =>
      if e.eventType.Chat? || e.eventType.Proactive? || e.eventType.Task? then HandleWriting(p, e, roles, store, env)
      else
        match e.eventType
        case MomentPost => HandleMomentPost(p, e, store, env)
        case MomentComment => HandleMomentComment(p, e, store, env)
        case MemorySummarization => HandleMemorySummarization(store, env)
  }

  /** The three event types whose handlers record into the role's memory. */
  function HandleWriting(p: RoleProfile, e: AIEvent, roles: map<string, RoleProfile>, store: Store, env: Env): (r: Handled)
    requires e.eventType.Chat? || e.eventType.Proactive? || e.eventType.Task?
    ensures !r.reply.RoleNotFound? && !r.reply.BareSummary?
    ensures r.reply.Respond? && !r.reply.response.success ==>
      && r.reply.response == Ignored(r.reply.response.error) && r.reply.response.error.Some?
      && r.store == (if e.eventType.Chat? then ChatStore(store, env, e.roleId) else store)
    ensures SameOutside(store, r.store, {e.roleId, SummaryWorkerId, SequentialWorkerId})
  {
    if e.eventType.Chat? then HandleChat(p, e, roles, store, env)
    else
      var r := if e.eventType.Proactive? then HandleProactive(p, e, store, env) else HandleTask(p, e, store, env);
      FrameOutside(store, r.store, e.roleId);
      r
  }

  /** With the memory service of this model, chat and proactive events
      always end in an exception and change nothing. */
  lemma MissingHelpersRaise(e: AIEvent, roles: map<string, RoleProfile>, store: Store, env: Env)
    requires e.roleId in roles && env.extras.ExtrasMissing?
    requires e.eventType.Chat? || e.eventType.Proactive?
    ensures HandleAiEvent(e, roles, store, env) == Handled(Raised, store, [])
  {
  }

  // --------------------------------------------------------------- status

  /** What `get_ai_status` answers for a known role. */
  datatype AiStatus = AiStatus(
    roleId: string,
    roleName: Option<string>,
    proactiveEnabled: bool,
    memorySummaryCount: int,
    hasCoreMemory: bool,
    shortTermCount: nat)

  /** `get_ai_status`: `None` is the 404 for an unknown role. */
  function GetAiStatus(roles: map<string, RoleProfile>, store: Store, roleId: string): (r: Option<AiStatus>)
    ensures r.None? <==> roleId !in roles
    ensures r.Some? ==>
      && r.value.roleId == roleId && r.value.roleName == roles[roleId].name
      && r.value.proactiveEnabled == ProactiveEnabled(roles[roleId])
      && (r.value.hasCoreMemory <==> MemoryContextString(store, roleId) != "")
      && r.value.memorySummaryCount == CountOf(Load(store, roleId))
      && r.value.shortTermCount == |Load(store, roleId).shortTerm|
  {
    if roleId !in roles then None
    else
      var rec := Load(store, roleId);
      Some(AiStatus(roleId, roles[roleId].name, ProactiveEnabled(roles[roleId]), CountOf(rec),
                    rec.coreMemory != "", |rec.shortTerm|))
  }

  /** A successful proactive or task reply shows up in the role's status:
      one more message since the last summary, one more short-term entry
      until the log is full, and the same core memory. */
  lemma ReplyCountsInStatus(e: AIEvent, roles: map<string, RoleProfile>, store: Store, env: Env)
    requires e.eventType.Proactive? || e.eventType.Task?
    ensures var r := HandleAiEvent(e, roles, store, env);
      r.reply.Respond? && r.reply.response.success ==>
        var before := GetAiStatus(roles, store, e.roleId).value;
        var after := GetAiStatus(roles, r.store, e.roleId).value;
        && after.memorySummaryCount == before.memorySummaryCount + 1
        && after.shortTermCount == (if before.shortTermCount < ShortTermCap then before.shortTermCount + 1 else ShortTermCap)
        && after.hasCoreMemory == before.hasCoreMemory
  {
    var r := HandleAiEvent(e, roles, store, env);
    if r.reply.Respond? && r.reply.response.success {
      assert e.roleId in roles;
      ReplyDispatch(e, roles, store, env);
      var h := if e.eventType.Proactive? then HandleProactive(roles[e.roleId], e, store, env)
               else HandleTask(roles[e.roleId], e, store, env);
      assert r == h;
      assert env.reply.Replied?
             && Load(h.store, e.roleId).shortTerm
                == CapLog(Load(store, e.roleId).shortTerm + [Turn("assistant", env.reply.text, env.now)])
             && CountOf(Load(h.store, e.roleId)) == CountOf(Load(store, e.roleId)) + 1
             && Load(h.store, e.roleId).coreMemory == Load(store, e.roleId).coreMemory;
      StatusAfterAppend(roles, store, h.store, e.roleId, Turn("assistant", env.reply.text, env.now));
    }
  }

  /** A proactive or task event of a known role is handled by its own
      handler. */
  lemma ReplyDispatch(e: AIEvent, roles: map<string, RoleProfile>, store: Store, env: Env)
    requires e.roleId in roles
    ensures e.eventType.Proactive? ==> HandleAiEvent(e, roles, store, env) == HandleProactive(roles[e.roleId], e, store, env)
    ensures e.eventType.Task? ==> HandleAiEvent(e, roles, store, env) == HandleTask(roles[e.roleId], e, store, env)
  {
    if e.eventType.Proactive? || e.eventType.Task? {
      assert LoadRole(roles, e.roleId) == Some(roles[e.roleId]);
      assert HandleAiEvent(e, roles, store, env) == HandleWriting(roles[e.roleId], e, roles, store, env);
    }
  }

  /** Appending one entry and bumping the counter, with the core memory
      kept, moves the status counts by one and keeps `has_core_memory`. */
  lemma StatusAfterAppend(roles: map<string, RoleProfile>, store: Store, store2: Store, roleId: string, t: Entry)
    requires roleId in roles
    requires Load(store2, roleId).shortTerm == CapLog(Load(store, roleId).shortTerm + [t])
    requires CountOf(Load(store2, roleId)) == CountOf(Load(store, roleId)) + 1
    requires Load(store2, roleId).coreMemory == Load(store, roleId).coreMemory
    ensures var before := GetAiStatus(roles, store, roleId).value;
      var after := GetAiStatus(roles, store2, roleId).value;
      && after.memorySummaryCount == before.memorySummaryCount + 1
      && after.shortTermCount == (if before.shortTermCount < ShortTermCap then before.shortTermCount + 1 else ShortTermCap)
      && after.hasCoreMemory == before.hasCoreMemory
  {
  }
}

=== FILE: events.dfy ===
/** The event vocabulary shared by the scheduler and the AI behaviour entry
    point (`routers/ai_behavior.py`, `AIEventType` and `AIEvent`). */
module Events {
  import opened Common

  datatype EventType = Chat | Task | Proactive | MomentPost | MomentComment | MemorySummarization

  /** The string each event type travels as. */
  function Wire(t: EventType): string {
    match t
    case Chat => "chat"
    case Task => "task"
    case Proactive => "proactive"
    case MomentPost => "moment"
    case MomentComment => "comment"
    case MemorySummarization => "memory_summarization"
  }

  /** Request validation of `event_type`: one of the six wire strings, or a
      rejected request. */
  function ParseEventType(s: string): (r: Option<EventType>)
    ensures r.Some? ==> Wire(r.value) == s
  {
    if s == "chat" then Some(Chat)
    else if s == "task" then Some(Task)
    else if s == "proactive" then Some(Proactive)
    else if s == "moment" then Some(MomentPost)
    else if s == "comment" then Some(MomentComment)
    else if s == "memory_summarization" then Some(MemorySummarization)
    else None
  }

  /** Every event type reads back from its wire string, so no two share one
      and the parser accepts exactly the six strings. */
  lemma WireRoundTrip(t: EventType)
    ensures ParseEventType(Wire(t)) == Some(t)
  {
  }

  lemma WireInjective(a: EventType, b: EventType)
    ensures Wire(a) == Wire(b) ==> a == b
  {
    WireRoundTrip(a);
    WireRoundTrip(b);
  }

  /** One event. `content` defaults to "" and may be null; `context`
      defaults to the empty dict and may be null. */
  datatype AIEvent = AIEvent(
    roleId: string,
    eventType: EventType,
    content: Option<string>,
    context: Option<map<string, string>>)

  /** `event.content or ""` */
  function ContentOrEmpty(e: AIEvent): string {
    e.content.GetOr("")
  }

  /** `event.context or {}` followed by `.get(key)` */
  function ContextValue(e: AIEvent, key: string): Option<string> {
    var ctx := e.context.GetOr(map[]);
    if key in ctx then Some(ctx[key]) else None
  }
}

=== FILE: memory.dfy ===
/** The per-role memory store (`services/memory_service.py`): a core-memory
    string, a short-term log capped at its newest 50 entries, a counter of
    messages since the last summary and the summary timestamp; the
    block-aligned context window served from the log; and the summarization
    gate and pass. The store of all `memory.json` files is a map from role id
    to record; a role without a file loads as the empty record. */
module Memory {
  import opened Common
  import opened Text
  import opened AiService

  /** The log keeps only this many newest entries. */
  const ShortTermCap: int := 50
  /** Messages needed before the very first summary. */
  const FirstSummaryThreshold: int := 20
  /** Messages needed before every later summary. */
  const LaterSummaryThreshold: int := 30
  /** How many newest log entries a summary prompt quotes. */
  const SummaryWindow: int := 30
  /** The default window size of `get_context_messages`. */
  const DefaultContextLimit: int := 20
  /** What `get_memory_context_string` puts before the core memory. */
  const CorePrefix: string := "你对这个用户的了解："

  /** One short-term log entry. */
  datatype Entry = Entry(role: string, content: string, timestamp: string)

  /** A log entry as served to the model: role and content only. */
  datatype ContextMessage = ContextMessage(role: string, content: string)

  /** The content of one `memory.json`. A missing counter key reads as 0. */
  datatype MemoryRecord = MemoryRecord(
    coreMemory: string,
    shortTerm: seq<Entry>,
    lastSummarizedAt: Option<string>,
    messageCount: Option<int>,
    updatedAt: Option<string>)

  type Store = map<string, MemoryRecord>

  /** What `load_memory` returns for a role without a memory file. */
  const EmptyRecord: MemoryRecord := MemoryRecord("", [], None, Some(0), None)

  /** `load_memory` */
  function Load(store: Store, roleId: string): MemoryRecord {
    if roleId in store then store[roleId] else EmptyRecord
  }

  /** `save_memory`: replaces the role's record, stamping `updated_at`. */
  function Save(store: Store, roleId: string, rec: MemoryRecord, now: Clock): Store {
    store[roleId := rec.(updatedAt := Some(now.iso))]
  }

  /** `memory.get("message_count_since_summary", 0)` */
  function CountOf(rec: MemoryRecord): int {
    rec.messageCount.GetOr(0)
  }

  /** A role that has no memory file yet loads with an empty core, an empty
      log, no summary time and a zero counter. */
  lemma LoadDefault(store: Store, roleId: string)
    requires roleId !in store
    ensures Load(store, roleId).coreMemory == ""
    ensures Load(store, roleId).shortTerm == []
    ensures Load(store, roleId).lastSummarizedAt.None?
    ensures CountOf(Load(store, roleId)) == 0
    ensures !ShouldSummarize(Load(store, roleId))
  {
  }

  /** `short_term[-50:]` after the append: the newest entries, at most 50. */
  function CapLog(log: seq<Entry>): (r: seq<Entry>)
    ensures |r| == if |log| <= ShortTermCap then |log| else ShortTermCap
    ensures r == log[|log| - |r|..]
  {
    LastItems(log, ShortTermCap);
    PySlice(log, -ShortTermCap, |log|)
  }

  /** The record after one append, before `save_memory` stamps it: the
      entry becomes the newest one, earlier entries keep their order, the log
      is cut back to its newest 50 entries and the counter grows by one. */
  function AppendRecord(rec: MemoryRecord, e: Entry): (r: MemoryRecord)
    ensures |r.shortTerm| == if |rec.shortTerm| + 1 <= ShortTermCap then |rec.shortTerm| + 1 else ShortTermCap
    ensures r.shortTerm[|r.shortTerm| - 1] == e
    ensures r.shortTerm[..|r.shortTerm| - 1] == rec.shortTerm[|rec.shortTerm| + 1 - |r.shortTerm|..]
    ensures CountOf(r) == CountOf(rec) + 1
    ensures r.coreMemory == rec.coreMemory && r.lastSummarizedAt == rec.lastSummarizedAt
  {
    var log := rec.shortTerm + [e];
    var capped := CapLog(log);
    assert capped == log[|log| - |capped|..];
    assert capped[..|capped| - 1] == rec.shortTerm[|rec.shortTerm| + 1 - |capped|..];
    rec.(shortTerm := capped, messageCount := Some(CountOf(rec) + 1))
  }

  /** `append_short_term`: the role's record becomes the appended record,
      stamped with the time of the append; no other role's record changes. */
  function AppendShortTerm(store: Store, roleId: string, role: string, content: string, now: Clock): (r: Store)
    ensures roleId in r
    ensures r - {roleId} == store - {roleId}
    ensures r[roleId] == AppendRecord(Load(store, roleId), Entry(role, content, now.iso)).(updatedAt := Some(now.iso))
  {
    Save(store, roleId, AppendRecord(Load(store, roleId), Entry(role, content, now.iso)), now)
  }

  /** Appends a whole batch, oldest first. */
  function AppendAll(store: Store, roleId: string, batch: seq<ContextMessage>, now: Clock): Store
    decreases |batch|
  {
    if |batch| == 0 then store
    else AppendAll(AppendShortTerm(store, roleId, batch[0].role, batch[0].content, now), roleId, batch[1..], now)
  }

  /** The same batch, applied to one record. */
  function AppendAllRecord(rec: MemoryRecord, batch: seq<ContextMessage>, now: Clock): MemoryRecord
    decreases |batch|
  {
    if |batch| == 0 then rec
    else AppendAllRecord(AppendRecord(rec, Entry(batch[0].role, batch[0].content, now.iso)).(updatedAt := Some(now.iso)),
                         batch[1..], now)
  }

  /** A batch of appends changes only the role's own record, and changes it
      as the record-level batch does. */
  lemma {:induction false} AppendAllStore(store: Store, roleId: string, batch: seq<ContextMessage>, now: Clock)
    ensures AppendAll(store, roleId, batch, now) - {roleId} == store - {roleId}
    ensures Load(AppendAll(store, roleId, batch, now), roleId) == AppendAllRecord(Load(store, roleId), batch, now)
    decreases |batch|
  {
    if |batch| > 0 {
      var next := AppendShortTerm(store, roleId, batch[0].role, batch[0].content, now);
      AppendAllStore(next, roleId, batch[1..], now);
    }
  }

  /** After a batch, the log is the newest entries (at most 50) of the old
      log followed by the batch, the counter has grown by the batch size, and
      the core memory and summary time are untouched. */
  lemma AppendAllEffect(rec: MemoryRecord, batch: seq<ContextMessage>, now: Clock)
    ensures |batch| > 0 ==> AppendAllRecord(rec, batch, now).shortTerm == CapLog(rec.shortTerm + Stamp(batch, now))
    ensures CountOf(AppendAllRecord(rec, batch, now)) == CountOf(rec) + |batch|
    ensures AppendAllRecord(rec, batch, now).coreMemory == rec.coreMemory
    ensures AppendAllRecord(rec, batch, now).lastSummarizedAt == rec.lastSummarizedAt
  {
    if |batch| > 0 {
      AppendAllLog(rec, batch, now);
    }
    AppendAllCounts(rec, batch, now);
  }

  /** The log part of `AppendAllEffect`. */
  lemma {:induction false} AppendAllLog(rec: MemoryRecord, batch: seq<ContextMessage>, now: Clock)
    requires |batch| > 0
    ensures AppendAllRecord(rec, batch, now).shortTerm == CapLog(rec.shortTerm + Stamp(batch, now))
    decreases |batch|
  {
    var e := Entry(batch[0].role, batch[0].content, now.iso);
    var mid := AppendRecord(rec, e).(updatedAt := Some(now.iso));
    var rest := batch[1..];
    StepLog(rec, e, now);
    var a := rec.shortTerm + [e];
    var tail := Stamp(rest, now);
    assert Stamp(batch, now) == [e] + tail;
    assert a + tail == rec.shortTerm + Stamp(batch, now);
    if |rest| == 0 {
      assert tail == [];
      assert a == rec.shortTerm + Stamp(batch, now);
    } else {
      AppendAllLog(mid, rest, now);
      CapLogAppend(a, tail);
    }
  }

  /** One step of the batch leaves the capped, appended log. */
  lemma StepLog(rec: MemoryRecord, e: Entry, now: Clock)
    ensures AppendRecord(rec, e).(updatedAt := Some(now.iso)).shortTerm == CapLog(rec.shortTerm + [e])
  {
  }

  /** The counter, core and summary-time part of `AppendAllEffect`. */
  lemma {:induction false} AppendAllCounts(rec: MemoryRecord, batch: seq<ContextMessage>, now: Clock)
    ensures CountOf(AppendAllRecord(rec, batch, now)) == CountOf(rec) + |batch|
    ensures AppendAllRecord(rec, batch, now).coreMemory == rec.coreMemory
    ensures AppendAllRecord(rec, batch, now).lastSummarizedAt == rec.lastSummarizedAt
    decreases |batch|
  {
    if |batch| > 0 {
      var e := Entry(batch[0].role, batch[0].content, now.iso);
      var mid := AppendRecord(rec, e).(updatedAt := Some(now.iso));
      AppendAllCounts(mid, batch[1..], now);
    }
  }

  /** The entries a batch becomes when appended at `now`. */
  function Stamp(batch: seq<ContextMessage>, now: Clock): (r: seq<Entry>)
    ensures |r| == |batch|
  {
    if |batch| == 0 then [] else [Entry(batch[0].role, batch[0].content, now.iso)] + Stamp(batch[1..], now)
  }

  /** A log already within the cap is kept whole. The cap never yields
      a log longer than 50. */
  lemma CapLogShort(log: seq<Entry>)
    ensures |log| <= ShortTermCap ==> CapLog(log) == log
    ensures |CapLog(log)| <= ShortTermCap
  {
  }

  /** Capping before appending more and capping again is capping once. */
  lemma CapLogAppend(a: seq<Entry>, b: seq<Entry>)
    ensures CapLog(CapLog(a) + b) == CapLog(a + b)
  {
    var ca := CapLog(a);
    var n := |CapLog(a + b)|;
    var m := |CapLog(ca + b)|;
    assert ca == a[|a| - |ca|..];
    assert ca + b == (a + b)[|a| - |ca|..];
    assert n == m || |ca| == |a|;
  }

  /** The first index of the context block holding the newest of `total`
      entries: the largest multiple of `limit` not above `total - 1`. */
  function BlockStart(total: int, limit: int): (b: int)
    requires limit > 0 && total > 0
    ensures 0 <= b <= total - 1 < b + limit
    ensures b % limit == 0 && b / limit == (total - 1) / limit
  {
    var q := (total - 1) / limit;
    DivMod(total - 1, limit);
    DivModOf(q * limit, q, 0, limit);
    q * limit
  }

  /** `get_context_messages`: empty for a non-positive limit or an empty
      log; otherwise the block of `limit`-aligned entries that holds the
      newest entry, projected to role and content, in order. */
  function ContextMessages(rec: MemoryRecord, limit: int): (r: seq<ContextMessage>)
    ensures limit <= 0 || |rec.shortTerm| == 0 ==> r == []
    ensures limit > 0 && |rec.shortTerm| > 0 ==>
      var total := |rec.shortTerm|;
      var start := BlockStart(total, limit);
      && 1 <= |r| <= limit
      && |r| == total - start
      && (forall i :: 0 <= i < |r| ==>
            r[i] == ContextMessage(rec.shortTerm[start + i].role, rec.shortTerm[start + i].content))
      && r[|r| - 1] == ContextMessage(rec.shortTerm[total - 1].role, rec.shortTerm[total - 1].content)
  {
    var log := rec.shortTerm;
    if limit <= 0 then []
    else if |log| == 0 then []
    else
      var start := BlockStart(|log|, limit);
      var stop := if start + limit < |log| then start + limit else |log|;
      seq(stop - start, i requires 0 <= i < stop - start =>
            ContextMessage(log[start + i].role, log[start + i].content))
  }

  /** The served block holds exactly the entries whose index falls in the
      same `limit`-sized block as the newest entry's index. */
  lemma ContextIsNewestBlock(rec: MemoryRecord, limit: int, j: int)
    requires limit > 0 && 0 <= j < |rec.shortTerm|
    ensures BlockStart(|rec.shortTerm|, limit) <= j <==> j / limit == (|rec.shortTerm| - 1) / limit
  {
    var total := |rec.shortTerm|;
    var start := BlockStart(total, limit);
    var q := (total - 1) / limit;
    DivMod(j, limit);
    if j / limit == q {
      assert start == q * limit by { DivModOf(start, start / limit, 0, limit); }
    } else if start <= j {
      DivMonotone(start, j, limit);
      DivMonotone(j, total - 1, limit);
    }
  }

  /** The window moves only when the log length crosses a multiple of the
      limit: one more entry keeps the block start unless the old length was
      a multiple of `limit`, in which case the new block starts right there. */
  lemma BlockAdvance(total: int, limit: int)
    requires limit > 0 && total > 0
    ensures total % limit != 0 ==> BlockStart(total + 1, limit) == BlockStart(total, limit)
    ensures total % limit == 0 ==> BlockStart(total + 1, limit) == total
  {
    var q := (total - 1) / limit;
    var r := (total - 1) % limit;
    DivMod(total - 1, limit);
    if r + 1 < limit {
      DivModOf(total, q, r + 1, limit);
    } else {
      assert total == (q + 1) * limit;
      DivModOf(total, q + 1, 0, limit);
    }
  }

  /** `get_core_memory` */
  function CoreMemory(store: Store, roleId: string): string {
    Load(store, roleId).coreMemory
  }

  /** `update_core_memory`: overwrites the core memory, stamps the summary
      time and resets the counter; the log is unchanged. */
  function UpdateCoreMemory(store: Store, roleId: string, text: string, now: Clock): (r: Store)
    ensures roleId in r
    ensures r - {roleId} == store - {roleId}
    ensures r[roleId].coreMemory == text
    ensures r[roleId].lastSummarizedAt == Some(now.iso)
    ensures CountOf(r[roleId]) == 0
    ensures r[roleId].shortTerm == Load(store, roleId).shortTerm
  {
    var rec := Load(store, roleId);
    Save(store, roleId, rec.(coreMemory := text, lastSummarizedAt := Some(now.iso), messageCount := Some(0)), now)
  }

  /** The summary threshold in force: 20 before the first summary, 30 after. */
  function SummaryThreshold(rec: MemoryRecord): (t: int)
    ensures t == FirstSummaryThreshold || t == LaterSummaryThreshold
  {
    if rec.lastSummarizedAt.None? then FirstSummaryThreshold else LaterSummaryThreshold
  }

  /** `should_summarize`: 20 messages before the first summary, 30 after. */
  function ShouldSummarize(rec: MemoryRecord): (r: bool)
    ensures rec.lastSummarizedAt.None? ==> (r <==> CountOf(rec) >= FirstSummaryThreshold)
    ensures rec.lastSummarizedAt.Some? ==> (r <==> CountOf(rec) >= LaterSummaryThreshold)
  {
    CountOf(rec) >= SummaryThreshold(rec)
  }

  /** The gate's boundaries: 19 closed and 20 open before any summary;
      29 closed and 30 open afterwards. */
  lemma SummaryGateBoundaries(rec: MemoryRecord)
    ensures rec.lastSummarizedAt.None? && CountOf(rec) == 19 ==> !ShouldSummarize(rec)
    ensures rec.lastSummarizedAt.None? && CountOf(rec) == 20 ==> ShouldSummarize(rec)
    ensures rec.lastSummarizedAt.Some? && CountOf(rec) == 29 ==> !ShouldSummarize(rec)
    ensures rec.lastSummarizedAt.Some? && CountOf(rec) == 30 ==> ShouldSummarize(rec)
  {
  }

  /** An append opens a closed gate only on the message that reaches the
      threshold, and never closes an open one. */
  lemma AppendOpensGateAtThreshold(store: Store, roleId: string, role: string, content: string, now: Clock)
    ensures
      var before := Load(store, roleId);
      var after := Load(AppendShortTerm(store, roleId, role, content, now), roleId);
      && (ShouldSummarize(before) ==> ShouldSummarize(after))
      && (!ShouldSummarize(before) && ShouldSummarize(after) ==> CountOf(after) == SummaryThreshold(before))
  {
  }

  /** Right after a summary the gate is closed, and it takes exactly 30
      more appends to open it again. */
  lemma SummaryClosesGate(store: Store, roleId: string, text: string, now: Clock, batch: seq<ContextMessage>)
    ensures !ShouldSummarize(Load(UpdateCoreMemory(store, roleId, text, now), roleId))
    ensures
      var after := Load(AppendAll(UpdateCoreMemory(store, roleId, text, now), roleId, batch, now), roleId);
      ShouldSummarize(after) <==> |batch| >= LaterSummaryThreshold
  {
    var summarized := UpdateCoreMemory(store, roleId, text, now);
    var rec := Load(summarized, roleId);
    assert rec == summarized[roleId];
    assert CountOf(rec) == 0 && rec.lastSummarizedAt.Some?;
    AppendAllStore(summarized, roleId, batch, now);
    AppendAllCounts(rec, batch, now);
    var after := AppendAllRecord(rec, batch, now);
    assert CountOf(after) == |batch| && SummaryThreshold(after) == LaterSummaryThreshold;
  }

  /** One line of the conversation quoted in a summary prompt. */
  function SummaryLine(e: Entry): string {
    (if e.role == "user" then "用户" else "你") + "：" + e.content
  }

  function SummaryLines(log: seq<Entry>): (r: seq<string>)
    ensures |r| == |log|
    ensures forall i :: 0 <= i < |log| ==> r[i] == SummaryLine(log[i])
  {
    seq(|log|, i requires 0 <= i < |log| => SummaryLine(log[i]))
  }

  /** The summary prompt: the current core memory (or a placeholder) and the
      newest 30 log entries, one line each. */
  function SummaryPrompt(core: string, log: seq<Entry>): string {
    var recent := PySlice(log, -SummaryWindow, |log|);
    "基于以下对话，总结用户的关键信息（如喜好、习惯、重要事件）。\n\n当前已有的核心记忆：\n"
    + (if core != "" then core else "（暂无）")
    + "\n\n最近对话：\n"
    + Join(SummaryLines(recent), "\n")
    + "\n\n请输出更新后的核心记忆（100字以内），格式为要点列表。只输出记忆内容，不要解释。"
  }

  const SummaryOpening: string := "基于以下对话，总结用户的关键信息（如喜好、习惯、重要事件）。\n\n当前已有的核心记忆：\n"
  const NoCoreYet: string := "（暂无）"
  const RecentHeading: string := "\n\n最近对话：\n"
  const SummaryRules: string := "\n\n请输出更新后的核心记忆（100字以内），格式为要点列表。只输出记忆内容，不要解释。"

  /** The prompt quotes the whole log when it holds at most 30 entries and
      the newest 30 otherwise, one line each, after the core memory or the
      placeholder for none. */
  lemma SummaryPromptQuotes(core: string, log: seq<Entry>)
    ensures var quoted := if |log| <= SummaryWindow then log else log[|log| - SummaryWindow..];
      SummaryPrompt(core, log)
      == SummaryOpening + (if core != "" then core else NoCoreYet) + RecentHeading
         + Join(SummaryLines(quoted), "\n") + SummaryRules
  {
    LastItems(log, SummaryWindow);
  }

  /** Only the newest 30 entries reach the prompt: entries before them, however
      many, do not change it. */
  lemma SummaryPromptUsesNewest(core: string, older: seq<Entry>, recent: seq<Entry>)
    requires |recent| >= SummaryWindow
    ensures SummaryPrompt(core, older + recent) == SummaryPrompt(core, recent)
  {
    LastItems(older + recent, SummaryWindow);
    LastItems(recent, SummaryWindow);
    assert (older + recent)[|older + recent| - SummaryWindow..] == recent[|recent| - SummaryWindow..];
  }

  /** The outcome of `trigger_memory_summary`: the model call made (if any),
      the new core memory returned (if any) and the store afterwards. */
  datatype SummaryRun = SummaryRun(call: Option<Call>, newCore: Option<string>, store: Store)

  /** `trigger_memory_summary`: nothing when the gate is closed; otherwise
      one call with the summary prompt, and on a non-empty reply the stripped
      reply becomes the core memory and is returned. */
  function TriggerMemorySummary(store: Store, roleId: string, cfg: ApiConfig, transport: Transport, now: Clock): (out: SummaryRun)
    ensures !ShouldSummarize(Load(store, roleId)) ==> out == SummaryRun(None, None, store)
    ensures ShouldSummarize(Load(store, roleId)) ==>
      out.call.Some?
      && out.call.value == CallAi(cfg, [Message("user", SummaryPrompt(Load(store, roleId).coreMemory,
                                                                       Load(store, roleId).shortTerm))], transport)
    ensures out.newCore.None? ==> out.store == store
    ensures out.newCore.Some? <==>
      ShouldSummarize(Load(store, roleId)) && out.call.value.result.success && transport.text != ""
    ensures out.newCore.Some? ==>
      out.newCore.value == Strip(transport.text)
      && out.store == UpdateCoreMemory(store, roleId, Strip(transport.text), now)
  {
    var rec := Load(store, roleId);
    if !ShouldSummarize(rec) then SummaryRun(None, None, store)
    else
      var call := CallAi(cfg, [Message("user", SummaryPrompt(rec.coreMemory, rec.shortTerm))], transport);
      if call.result.success && call.result.content.value != "" then
        var text := Strip(call.result.content.value);
        SummaryRun(Some(call), Some(text), UpdateCoreMemory(store, roleId, text, now))
      else
        SummaryRun(Some(call), None, store)
  }

  /** A summary pass never touches any role's short-term log, nor any other
      role's record. */
  lemma SummaryKeepsLogs(store: Store, roleId: string, cfg: ApiConfig, transport: Transport, now: Clock, other: string)
    ensures Load(TriggerMemorySummary(store, roleId, cfg, transport, now).store, other).shortTerm
            == Load(store, other).shortTerm
    ensures other != roleId ==>
      Load(TriggerMemorySummary(store, roleId, cfg, transport, now).store, other) == Load(store, other)
  {
    var out := TriggerMemorySummary(store, roleId, cfg, transport, now);
    if other != roleId && out.newCore.Some? {
      assert other in out.store <==> other in store by {
        assert other in out.store - {roleId} <==> other in store - {roleId};
      }
      if other in store {
        assert out.store[other] == (out.store - {roleId})[other];
      }
    }
  }

  /** `clear_short_term`: the log is emptied; core memory, counter and
      summary time stay. */
  function ClearShortTerm(store: Store, roleId: string, now: Clock): (r: Store)
    ensures roleId in r
    ensures r - {roleId} == store - {roleId}
    ensures r[roleId].shortTerm == []
    ensures r[roleId].coreMemory == Load(store, roleId).coreMemory
    ensures r[roleId].messageCount == Load(store, roleId).messageCount
    ensures r[roleId].lastSummarizedAt == Load(store, roleId).lastSummarizedAt
  {
    Save(store, roleId, Load(store, roleId).(shortTerm := []), now)
  }

  /** `get_memory_context_string`: empty exactly when the core memory is,
      otherwise the fixed prefix followed by the core memory, which can be
      read back from it. */
  function MemoryContextString(store: Store, roleId: string): (r: string)
    ensures r == "" <==> CoreMemory(store, roleId) == ""
    ensures r != "" ==> StartsWith(r, CorePrefix) && r[|CorePrefix|..] == CoreMemory(store, roleId)
  {
    var core := CoreMemory(store, roleId);
    if core != "" then CorePrefix + core else ""
  }
}

=== FILE: moments.dfy ===
/** The shared moments feed (`routers/moments.py`): posts with likes and
    comments, newest first as created. Generated ids and the clock are
    parameters. */
module Moments {
  import opened Common
  import opened Seqs

  datatype Like = Like(id: string, name: string)

  datatype Comment = Comment(
    id: string,
    authorId: string,
    authorName: string,
    content: string,
    replyToId: Option<string>,
    replyToName: Option<string>,
    createdAt: string)

  datatype Post = Post(
    id: string,
    authorId: string,
    authorName: string,
    content: string,
    imageUrls: Option<seq<string>>,
    likedBy: seq<Like>,
    comments: seq<Comment>,
    createdAt: string)

  type Feed = seq<Post>

  /** The answer of the endpoints that look a post up: the error object for
      an unknown id, otherwise the feed to save and the value returned. */
  datatype Lookup<T> = NotFound | Found(feed: Feed, value: T)

  /** The index of the first post with `postId`, which the endpoints' loops
      stop at. */
  function FirstPost(feed: Feed, postId: string): Option<nat> {
    FirstIndex(feed, (p: Post) => p.id == postId)
  }

  /** `create_moment`: the new post goes in front, with no likes and no
      comments; the old feed follows unchanged. */
  function CreateMoment(feed: Feed, newId: string, authorId: string, authorName: string,
                        content: string, imageUrls: Option<seq<string>>, now: Clock): (r: Feed)
    ensures |r| == |feed| + 1 && r[1..] == feed
    ensures r[0].id == newId && r[0].content == content && r[0].authorId == authorId
    ensures r[0].authorName == authorName && r[0].imageUrls == imageUrls
    ensures r[0].likedBy == [] && r[0].comments == [] && r[0].createdAt == now.iso
  {
    [Post(newId, authorId, authorName, content, imageUrls, [], [], now.iso)] + feed
  }

  /** A created post is the one its id finds, so liking it right away finds
      it and records the single like. */
  lemma CreateThenLike(feed: Feed, newId: string, authorId: string, authorName: string,
                       content: string, imageUrls: Option<seq<string>>, now: Clock,
                       userId: string, userName: string)
    ensures var f := CreateMoment(feed, newId, authorId, authorName, content, imageUrls, now);
      && FirstPost(f, newId) == Some(0)
      && LikeMoment(f, newId, userId, userName).Found?
      && LikeMoment(f, newId, userId, userName).value.likedBy == [Like(userId, userName)]
  {
    var f := CreateMoment(feed, newId, authorId, authorName, content, imageUrls, now);
    FirstPostIsFirst(f, newId, 0);
    assert LikerIds(f[0].likedBy) == {};
  }

  /** The ids of those who liked a post. */
  function LikerIds(likes: seq<Like>): set<string> {
    set i | 0 <= i < |likes| :: likes[i].id
  }

  /** `like_moment`: an unknown post gives the error; otherwise the first
      post with the id gains the like unless that user already likes it, and
      every other post stays. */
  function LikeMoment(feed: Feed, postId: string, userId: string, userName: string): (r: Lookup<Post>)
    ensures r.NotFound? <==> FirstPost(feed, postId).None?
    ensures r.Found? ==>
      var k := FirstPost(feed, postId).value;
      && r.feed == feed[k := r.value]
      && r.value == feed[k].(likedBy := r.value.likedBy)
      && (userId in LikerIds(feed[k].likedBy) ==> r.value.likedBy == feed[k].likedBy)
      && (userId !in LikerIds(feed[k].likedBy) ==> r.value.likedBy == feed[k].likedBy + [Like(userId, userName)])
  {
    var k := FirstPost(feed, postId);
    if k.None? then NotFound
    else
      var post := feed[k.value];
      var liked :=
        if userId in LikerIds(post.likedBy) then post
        else post.(likedBy := post.likedBy + [Like(userId, userName)]);
      Found(feed[k.value := liked], liked)
  }

  /** Liking twice is liking once. */
  lemma LikeIdempotent(feed: Feed, postId: string, userId: string, userName: string)
    requires LikeMoment(feed, postId, userId, userName).Found?
    ensures var once := LikeMoment(feed, postId, userId, userName);
      LikeMoment(once.feed, postId, userId, userName) == once
  {
    var once := LikeMoment(feed, postId, userId, userName);
    var k := FirstPost(feed, postId).value;
    FirstPostOfUpdate(feed, postId, k, once.value);
    assert userId in LikerIds(once.value.likedBy) by {
      var likes := once.value.likedBy;
      if userId !in LikerIds(feed[k].likedBy) {
        assert likes[|likes| - 1].id == userId;
      }
    }
  }

  /** Rewriting the first post with an id (keeping the id) leaves it the
      first post with that id. */
  lemma FirstPostOfUpdate(feed: Feed, postId: string, k: nat, p: Post)
    requires FirstPost(feed, postId) == Some(k) && p.id == postId
    ensures FirstPost(feed[k := p], postId) == Some(k)
  {
    var f := feed[k := p];
    assert forall i :: 0 <= i < k ==> f[i].id != postId;
    FirstPostIsFirst(f, postId, k);
  }

  /** A post with the id, preceded by none, is what `FirstPost` finds. */
  lemma FirstPostIsFirst(feed: Feed, postId: string, k: nat)
    requires k < |feed| && feed[k].id == postId
    requires forall i :: 0 <= i < k ==> feed[i].id != postId
    ensures FirstPost(feed, postId) == Some(k)
  {
    FirstIndexIsFirst(feed, (p: Post) => p.id == postId, k);
  }

  /** `unlike_moment`: an unknown post gives the error; otherwise the first
      post with the id loses exactly the likes by that user, the others keep
      their order, and every other post stays. */
  function UnlikeMoment(feed: Feed, postId: string, userId: string): (r: Lookup<Post>)
    ensures r.NotFound? <==> FirstPost(feed, postId).None?
    ensures r.Found? ==>
      var k := FirstPost(feed, postId).value;
      && r.feed == feed[k := r.value]
      && r.value == feed[k].(likedBy := Filter(feed[k].likedBy, (l: Like) => l.id != userId))
      && userId !in LikerIds(r.value.likedBy)
  {
    var k := FirstPost(feed, postId);
    if k.None? then NotFound
    else
      var post := feed[k.value];
      var kept := Filter(post.likedBy, (l: Like) => l.id != userId);
      var unliked := post.(likedBy := kept);
      Found(feed[k.value := unliked], unliked)
  }

  /** Removing a user's likes from a list they were just appended to gives
      the list back, when they had not liked before. */
  lemma UnlikeFreshLike(likes: seq<Like>, userId: string, userName: string)
    requires userId !in LikerIds(likes)
    ensures Filter(likes + [Like(userId, userName)], (l: Like) => l.id != userId) == likes
  {
    var keep := (l: Like) => l.id != userId;
    FilterConcat(likes, [Like(userId, userName)], keep);
    forall i | 0 <= i < |likes| ensures keep(likes[i]) {
      assert likes[i].id in LikerIds(likes);
    }
    FilterAll(likes, keep);
    assert Filter([Like(userId, userName)], keep) == [];
  }

  /** Unliking undoes a fresh like: if the user did not like the post, a like
      followed by an unlike gives the feed back. */
  lemma UnlikeUndoesLike(feed: Feed, postId: string, userId: string, userName: string)
    requires FirstPost(feed, postId).Some?
    requires userId !in LikerIds(feed[FirstPost(feed, postId).value].likedBy)
    ensures UnlikeMoment(LikeMoment(feed, postId, userId, userName).feed, postId, userId)
            == Found(feed, feed[FirstPost(feed, postId).value])
  {
    var k := FirstPost(feed, postId).value;
    var liked := LikeMoment(feed, postId, userId, userName);
    FirstPostOfUpdate(feed, postId, k, liked.value);
    UnlikeFreshLike(feed[k].likedBy, userId, userName);
    var post := feed[k];
    assert liked.value == post.(likedBy := post.likedBy + [Like(userId, userName)]);
    assert liked.feed[k] == liked.value;
    assert liked.value.(likedBy := post.likedBy) == post;
    assert liked.feed[k := post] == feed;
  }

  /** `delete_moment`: every post with the id goes; the others keep their
      order. */
  function DeleteMoment(feed: Feed, postId: string): (r: Feed)
    ensures r == Filter(feed, (p: Post) => p.id != postId)
    ensures forall i :: 0 <= i < |r| ==> r[i].id != postId
    ensures |r| + CountWhere(feed, (p: Post) => p.id == postId) == |feed|
  {
    var keep := (p: Post) => p.id != postId;
    FilterCountComplement(feed, keep, (p: Post) => p.id == postId);
    Filter(feed, keep)
  }

  /** After a delete no post has the id: liking it, commenting on it and
      deleting it again all find nothing to act on. */
  lemma DeleteIsFinal(feed: Feed, postId: string, userId: string, userName: string)
    ensures var f := DeleteMoment(feed, postId);
      && FirstPost(f, postId).None?
      && LikeMoment(f, postId, userId, userName).NotFound?
      && UnlikeMoment(f, postId, userId).NotFound?
      && DeleteMoment(f, postId) == f
  {
    FilterIdempotent(feed, (p: Post) => p.id != postId);
  }

  /** `add_comment`: an unknown post gives the error and nothing is saved;
      otherwise the new comment goes last on the first post with the id, and
      nothing else changes. */
  function AddComment(feed: Feed, postId: string, commentId: string, authorId: string, authorName: string,
                      content: string, replyToId: Option<string>, replyToName: Option<string>,
                      now: Clock): (r: Lookup<Comment>)
    ensures r.NotFound? <==> FirstPost(feed, postId).None?
    ensures r.Found? ==>
      var k := FirstPost(feed, postId).value;
      && r.value == Comment(commentId, authorId, authorName, content, replyToId, replyToName, now.iso)
      && r.feed == feed[k := feed[k].(comments := feed[k].comments + [r.value])]
      && |r.feed| == |feed|
  {
    var k := FirstPost(feed, postId);
    if k.None? then NotFound
    else
      var post := feed[k.value];
      var c := Comment(commentId, authorId, authorName, content, replyToId, replyToName, now.iso);
      Found(feed[k.value := post.(comments := post.comments + [c])], c)
  }

  /** A comment stays on the post it was added to: the post keeps its place
      as the first with the id, so a second comment goes after the first. */
  lemma CommentsAccumulate(feed: Feed, postId: string, c1: Comment, c2: Comment, now: Clock)
    requires FirstPost(feed, postId).Some?
    ensures var once := AddComment(feed, postId, c1.id, c1.authorId, c1.authorName, c1.content,
                                   c1.replyToId, c1.replyToName, now);
      var twice := AddComment(once.feed, postId, c2.id, c2.authorId, c2.authorName, c2.content,
                              c2.replyToId, c2.replyToName, now);
      var k := FirstPost(feed, postId).value;
      && FirstPost(once.feed, postId) == Some(k)
      && twice.Found?
      && twice.feed == feed[k := feed[k].(comments := feed[k].comments + [once.value, twice.value])]
  {
    var k := FirstPost(feed, postId).value;
    var once := AddComment(feed, postId, c1.id, c1.authorId, c1.authorName, c1.content,
                           c1.replyToId, c1.replyToName, now);
    FirstPostOfUpdate(feed, postId, k, once.feed[k]);
    var twice := AddComment(once.feed, postId, c2.id, c2.authorId, c2.authorName, c2.content,
                            c2.replyToId, c2.replyToName, now);
    assert feed[k].comments + [once.value] + [twice.value] == feed[k].comments + [once.value, twice.value];
  }

  /** Deleting a post also deletes the comments added to it: comment then
      delete is delete. */
  lemma CommentThenDelete(feed: Feed, postId: string, c: Comment, now: Clock)
    ensures var added := AddComment(feed, postId, c.id, c.authorId, c.authorName, c.content,
                                    c.replyToId, c.replyToName, now);
      added.Found? ==> DeleteMoment(added.feed, postId) == DeleteMoment(feed, postId)
  {
    var added := AddComment(feed, postId, c.id, c.authorId, c.authorName, c.content,
                            c.replyToId, c.replyToName, now);
    if added.Found? {
      var k := FirstPost(feed, postId).value;
      FilterUpdateDropped(feed, k, added.feed[k], (p: Post) => p.id != postId);
    }
  }

  /** The sort key: `created_at`. */
  function CreatedAtOf(p: Post): string { p.createdAt }

  /** `list_moments`: the feed sorted newest first by `created_at`, cut to
      `limit` posts with Python's `[:limit]`. */
  function ListMoments(feed: Feed, limit: int): (r: Feed)
    ensures limit >= 0 ==> |r| == (if limit < |feed| then limit else |feed|)
    ensures SortedBy(r, CreatedAtOf, true)
    ensures limit < 0 ==> |r| == (if -limit < |feed| then |feed| + limit else 0)
    ensures forall i :: 0 <= i < |r| ==> r[i] in multiset(feed)
    ensures multiset(r) <= multiset(feed)
    ensures r == Sort(feed, CreatedAtOf, true)[..|r|]
  {
    var sorted := Sort(feed, CreatedAtOf, true);
    var r := PySlice(sorted, 0, limit);
    var n := PyBound(limit, |sorted|);
    assert r == sorted[..n];
    SortedPrefix(sorted, n, CreatedAtOf, true);
    r
  }

  /** A listing never shows a post older than one it leaves out. */
  lemma ListShowsNewest(feed: Feed, limit: int, p: Post)
    requires p in multiset(feed)
    requires p !in multiset(ListMoments(feed, limit))
    ensures forall i :: 0 <= i < |ListMoments(feed, limit)| ==>
      LexLe(CreatedAtOf(p), CreatedAtOf(ListMoments(feed, limit)[i]))
  {
    var sorted := Sort(feed, CreatedAtOf, true);
    var r := ListMoments(feed, limit);
    assert r == sorted[..|r|];
    assert p in multiset(sorted);
    forall i | 0 <= i < |r| ensures sorted[i] != p {
      assert r[i] == sorted[i];
      assert r[i] in multiset(r);
    }
    var j :| 0 <= j < |sorted| && sorted[j] == p;
    assert j >= |r|;
    forall i | 0 <= i < |r| ensures LexLe(CreatedAtOf(p), CreatedAtOf(r[i])) {
      assert r[i] == sorted[i];
    }
  }
}

=== FILE: profile.dfy ===
/** The stored role profile (`profile.json`), as the core reads it. Every key
    except `id` may be missing from a stored profile, so each is an `Option`;
    readers apply the defaults the code passes to `dict.get`. */
module Profile {
  import opened Common

  /** The Big Five personality sliders, each 0..100. */
  datatype Personality = Personality(
    openness: int,
    conscientiousness: int,
    extraversion: int,
    agreeableness: int,
    neuroticism: int)

  /** `proactive_config` as stored. */
  datatype ProactiveConfig = ProactiveConfig(
    enabled: Option<bool>,
    minIntervalMinutes: Option<int>,
    maxIntervalMinutes: Option<int>,
    triggerPrompt: Option<string>,
    quietHoursStart: Option<int>,
    quietHoursEnd: Option<int>,
    nextTriggerTime: Option<string>)

  /** `menstruation_cycle` as stored. */
  datatype CycleConfig = CycleConfig(cycleLength: int, periodLength: int, lastPeriodStart: string)

  datatype RoleProfile = RoleProfile(
    id: string,
    name: Option<string>,
    avatarUrl: Option<string>,
    persona: Option<string>,
    systemPrompt: Option<string>,
    greeting: Option<string>,
    description: Option<string>,
    coreMemory: Option<seq<string>>,
    personality: Option<Personality>,
    proactiveConfig: Option<ProactiveConfig>,
    tags: Option<seq<string>>,
    gender: Option<string>,
    menstruationCycle: Option<CycleConfig>,
    metadata: Option<map<string, string>>,
    attachedJsonContent: Option<string>,
    aiModel: Option<string>,
    aiApiUrl: Option<string>,
    aiApiKey: Option<string>,
    createdAt: Option<string>,
    updatedAt: Option<string>)

  /** A profile holding only its id (the `{}` that `load_role(...) or {}`
      falls back to, plus the id it was looked up under). */
  function BareProfile(id: string): RoleProfile {
    RoleProfile(id, None, None, None, None, None, None, None, None, None,
                None, None, None, None, None, None, None, None, None, None)
  }

  /** A proactive config with no keys at all. */
  const NoProactiveConfig: ProactiveConfig :=
    ProactiveConfig(None, None, None, None, None, None, None)

  /** `role.get("proactive_config", {})` */
  function ProactiveOf(p: RoleProfile): ProactiveConfig {
    p.proactiveConfig.GetOr(NoProactiveConfig)
  }

  /** `proactive_config.get("enabled", False)` */
  function ProactiveEnabled(p: RoleProfile): bool {
    ProactiveOf(p).enabled.GetOr(false)
  }
}

=== FILE: role_chats.dfy ===
/** The per-role chat transcript the client syncs (`routers/roles.py`,
    the `chats/messages.json` endpoints): single save, batch sync with
    de-duplication by id and a sort by timestamp, delete by id, and paging.
    The transcript file is created empty when the role directory is first
    touched, so every operation starts from a list. */
module RoleChats {
  import opened Common
  import opened Seqs

  /** One transcript message. */
  datatype ChatMessage = ChatMessage(
    id: string,
    content: string,
    senderId: string,
    timestamp: string,
    kind: Option<string>,
    quoteId: Option<string>,
    quoteContent: Option<string>)

  type Transcript = seq<ChatMessage>

  /** The ids present in a transcript. */
  function Ids(log: Transcript): set<string> {
    set i | 0 <= i < |log| :: log[i].id
  }

  /** The sort key: `m.get("timestamp", "")`. */
  function TimestampOf(m: ChatMessage): string { m.timestamp }

  /** `save_chat_message`: the message is appended unless a message with its
      id is already stored, in which case nothing changes. */
  function SaveMessage(log: Transcript, m: ChatMessage): (r: Transcript)
    ensures m.id in Ids(log) ==> r == log
    ensures m.id !in Ids(log) ==> r == log + [m]
    ensures Ids(r) == Ids(log) + {m.id}
  {
    if m.id in Ids(log) then log
    else
      assert Ids(log + [m]) == Ids(log) + {m.id} by {
        assert (log + [m])[|log|] == m;
        forall x | x in Ids(log) ensures x in Ids(log + [m]) {
          var i :| 0 <= i < |log| && log[i].id == x;
          assert (log + [m])[i] == log[i];
        }
      }
      log + [m]
  }

  /** Re-posting a message changes nothing: saving is idempotent per id. */
  lemma SaveIdempotent(log: Transcript, m: ChatMessage)
    ensures SaveMessage(SaveMessage(log, m), m) == SaveMessage(log, m)
  {
  }

  /** The ids of a non-empty transcript: its first id and the rest's. */
  lemma IdsCons(log: Transcript)
    requires |log| > 0
    ensures Ids(log) == {log[0].id} + Ids(log[1..])
  {
    assert log == [log[0]] + log[1..];
    IdsConcat([log[0]], log[1..]);
    assert Ids([log[0]]) == {log[0].id};
  }

  /** The batch messages that `sync_chat_messages` appends, in batch order:
      each message whose id is neither stored nor earlier in the batch. */
  function Unseen(batch: seq<ChatMessage>, seen: set<string>): (r: seq<ChatMessage>)
    ensures Ids(r) == Ids(batch) - seen
    ensures |r| == |Ids(batch) - seen|
    ensures DrawnFrom(r, batch, seen)
    ensures DistinctIds(r)
    decreases |batch|
  {
    if |batch| == 0 then []
    else
      var head := batch[0];
      IdsCons(batch);
      if head.id in seen then
        var rest := Unseen(batch[1..], seen);
        assert Ids(batch) - seen == Ids(batch[1..]) - seen;
        DrawnFromTail(rest, batch, seen);
        rest
      else
        var rest := Unseen(batch[1..], seen + {head.id});
        var r := [head] + rest;
        IdsCons(r);
        assert r[1..] == rest;
        UnseenStep(Ids(batch[1..]), seen, head.id);
        DrawnFromCons(rest, batch, seen);
        r
  }

  /** Every message of `r` is a message of `batch` whose id is not in `seen`. */
  predicate DrawnFrom(r: seq<ChatMessage>, batch: seq<ChatMessage>, seen: set<string>)
  {
    forall i :: 0 <= i < |r| ==> r[i] in batch && r[i].id !in seen
  }

  /** No two messages of `r` share an id. */
  predicate DistinctIds(r: seq<ChatMessage>)
  {
    forall i, j :: 0 <= i < j < |r| ==> r[i].id != r[j].id
  }

  lemma DrawnFromTail(rest: seq<ChatMessage>, batch: seq<ChatMessage>, seen: set<string>)
    requires |batch| > 0 && DrawnFrom(rest, batch[1..], seen)
    ensures DrawnFrom(rest, batch, seen)
  {
    forall i | 0 <= i < |rest|
      ensures rest[i] in batch
    {
      assert rest[i] in batch[1..];
    }
  }

  lemma DrawnFromCons(rest: seq<ChatMessage>, batch: seq<ChatMessage>, seen: set<string>)
    requires |batch| > 0 && batch[0].id !in seen
    requires DrawnFrom(rest, batch[1..], seen + {batch[0].id}) && DistinctIds(rest)
    ensures DrawnFrom([batch[0]] + rest, batch, seen) && DistinctIds([batch[0]] + rest)
  {
    var r := [batch[0]] + rest;
    forall i | 0 <= i < |r|
      ensures r[i] in batch && r[i].id !in seen
    {
      if i > 0 {
        assert r[i] == rest[i - 1];
        assert rest[i - 1] in batch[1..];
      }
    }
    forall i, j | 0 <= i < j < |r|
      ensures r[i].id != r[j].id
    {
      assert r[j] == rest[j - 1];
      if i > 0 {
        assert r[i] == rest[i - 1];
      }
    }
  }

  /** The loop of `sync_chat_messages` one message further: a message is
      appended exactly when its id is neither stored nor earlier in the
      batch. With `Unseen([], seen) == []` this fixes every result: the
      batch messages themselves, first of each id, in batch order. */
  lemma {:induction false} UnseenAppend(batch: seq<ChatMessage>, seen: set<string>, m: ChatMessage)
    ensures Unseen(batch + [m], seen)
            == Unseen(batch, seen) + (if m.id in seen + Ids(batch) then [] else [m])
    decreases |batch|
  {
    if |batch| == 0 {
      assert batch + [m] == [m];
      UnseenUnfold([m], seen);
      assert [m][1..] == [];
    } else {
      var h, t := batch[0], batch[1..];
      assert (batch + [m])[0] == h && (batch + [m])[1..] == t + [m];
      var seen' := if h.id in seen then seen else seen + {h.id};
      var front := if h.id in seen then [] else [h];
      var tail := if m.id in seen + Ids(batch) then [] else [m];
      UnseenUnfold(batch + [m], seen);
      UnseenUnfold(batch, seen);
      assert tail == if m.id in seen' + Ids(t) then [] else [m] by {
        IdsCons(batch);
        AbsorbSeen(seen, h.id, Ids(t));
      }
      UnseenAppend(t, seen', m);
      JoinThree(front, Unseen(t, seen'), tail);
    }
  }

  lemma JoinThree<T>(a: seq<T>, b: seq<T>, c: seq<T>)
    ensures a + (b + c) == (a + b) + c
  {
  }

  lemma AbsorbSeen(seen: set<string>, x: string, rest: set<string>)
    ensures (if x in seen then seen else seen + {x}) + rest == seen + ({x} + rest)
  {
  }

  /** One step of `Unseen`, with the recursion's bookkeeping left out. */
  lemma UnseenUnfold(batch: seq<ChatMessage>, seen: set<string>)
    requires |batch| > 0
    ensures Unseen(batch, seen)
            == if batch[0].id in seen then Unseen(batch[1..], seen)
               else [batch[0]] + Unseen(batch[1..], seen + {batch[0].id})
  {
  }

  /** The set arithmetic of one step of `Unseen`. */
  lemma UnseenStep(tail: set<string>, seen: set<string>, x: string)
    requires x !in seen
    ensures ({x} + tail) - seen == {x} + (tail - (seen + {x}))
    ensures x !in tail - (seen + {x})
    ensures |({x} + tail) - seen| == 1 + |tail - (seen + {x})|
  {
    assert ({x} + tail) - seen == {x} + (tail - (seen + {x}));
  }

  /** What `sync_chat_messages` answers: the new transcript, how many
      messages were added, and the new total. */
  datatype SyncResult = SyncResult(messages: Transcript, added: nat, total: nat)

  /** `sync_chat_messages`: unseen messages are appended once each, then the
      whole transcript is stably sorted by timestamp string. `added` is both
      the growth of the transcript and the number of distinct new ids. */
  function Sync(log: Transcript, batch: seq<ChatMessage>): (r: SyncResult)
    ensures SortedBy(r.messages, TimestampOf, false)
    ensures multiset(r.messages) == multiset(log + Unseen(batch, Ids(log)))
    ensures r.added == |r.messages| - |log| == |Ids(batch) - Ids(log)|
    ensures r.total == |r.messages|
    ensures Ids(r.messages) == Ids(log) + Ids(batch)
    ensures r.messages == Sort(log + Unseen(batch, Ids(log)), TimestampOf, false)
  {
    var news := Unseen(batch, Ids(log));
    var merged := log + news;
    var sorted := Sort(merged, TimestampOf, false);
    IdsOfPermutation(merged, sorted);
    IdsConcat(log, news);
    SyncResult(sorted, |news|, |sorted|)
  }

  lemma IdsConcat(a: Transcript, b: Transcript)
    ensures Ids(a + b) == Ids(a) + Ids(b)
  {
    forall x | x in Ids(a + b) ensures x in Ids(a) + Ids(b) {
      var i :| 0 <= i < |a + b| && (a + b)[i].id == x;
      if i >= |a| { assert b[i - |a|].id == x; }
    }
    forall x | x in Ids(a) + Ids(b) ensures x in Ids(a + b) {
      if x in Ids(a) {
        var i :| 0 <= i < |a| && a[i].id == x;
        assert (a + b)[i].id == x;
      } else {
        var i :| 0 <= i < |b| && b[i].id == x;
        assert (a + b)[|a| + i].id == x;
      }
    }
  }

  /** Reordering a transcript keeps its set of ids. */
  lemma IdsOfPermutation(a: Transcript, b: Transcript)
    requires multiset(a) == multiset(b)
    ensures Ids(a) == Ids(b)
  {
    forall x | x in Ids(a) ensures x in Ids(b) {
      var i :| 0 <= i < |a| && a[i].id == x;
      assert a[i] in multiset(b);
      var j :| 0 <= j < |b| && b[j] == a[i];
    }
    forall x | x in Ids(b) ensures x in Ids(a) {
      var i :| 0 <= i < |b| && b[i].id == x;
      assert b[i] in multiset(a);
      var j :| 0 <= j < |a| && a[j] == b[i];
    }
  }

  /** `list.sort` is stable, so messages with the same timestamp keep their
      order: stored ones first as stored, then the new ones in batch order. */
  lemma SyncKeepsOrderPerTimestamp(log: Transcript, batch: seq<ChatMessage>, t: string)
    ensures Filter(Sync(log, batch).messages, (m: ChatMessage) => m.timestamp == t)
            == Filter(log, (m: ChatMessage) => m.timestamp == t)
               + Filter(Unseen(batch, Ids(log)), (m: ChatMessage) => m.timestamp == t)
  {
    var same := (m: ChatMessage) => m.timestamp == t;
    SortStable(log + Unseen(batch, Ids(log)), TimestampOf, false, same, t);
    FilterConcat(log, Unseen(batch, Ids(log)), same);
  }

  /** Syncing the same batch again adds nothing. */
  lemma SyncAgainAddsNothing(log: Transcript, batch: seq<ChatMessage>)
    ensures Sync(Sync(log, batch).messages, batch).added == 0
  {
    var once := Sync(log, batch).messages;
    assert Ids(batch) - Ids(once) == {};
  }

  /** Saving one message stores what a one-message sync stores, before the
      sort. */
  lemma SaveIsSingleSync(log: Transcript, m: ChatMessage)
    ensures SaveMessage(log, m) == log + Unseen([m], Ids(log))
  {
    assert [m][1..] == [];
  }

  /** What `delete_chat_message` answers. */
  datatype Deleted = Deleted(messages: Transcript, removed: nat, total: nat)

  /** `delete_chat_message`: every message with the id goes, the rest keep
      their order, and `removed` is how many went. */
  function DeleteMessage(log: Transcript, messageId: string): (r: Deleted)
    ensures r.messages == Filter(log, (m: ChatMessage) => m.id != messageId)
    ensures messageId !in Ids(r.messages)
    ensures r.removed == |log| - |r.messages| == CountWhere(log, (m: ChatMessage) => m.id == messageId)
    ensures r.total == |r.messages|
    ensures messageId !in Ids(log) ==> r.messages == log && r.removed == 0
  {
    var keep := (m: ChatMessage) => m.id != messageId;
    var kept := Filter(log, keep);
    FilterCountComplement(log, keep, (m: ChatMessage) => m.id == messageId);
    if messageId !in Ids(log) then
      KeepsAllWithoutId(log, messageId);
      Deleted(kept, |log| - |kept|, |kept|)
    else
      Deleted(kept, |log| - |kept|, |kept|)
  }

  lemma KeepsAllWithoutId(log: Transcript, messageId: string)
    requires messageId !in Ids(log)
    ensures Filter(log, (m: ChatMessage) => m.id != messageId) == log
  {
    forall i | 0 <= i < |log| ensures log[i].id != messageId {
      assert log[i].id in Ids(log);
    }
    FilterAll(log, (m: ChatMessage) => m.id != messageId);
  }

  /** Deleting twice is deleting once. */
  lemma DeleteIdempotent(log: Transcript, messageId: string)
    ensures DeleteMessage(DeleteMessage(log, messageId).messages, messageId).messages
            == DeleteMessage(log, messageId).messages
    ensures DeleteMessage(DeleteMessage(log, messageId).messages, messageId).removed == 0
  {
  }

  /** What `get_chat_messages` answers. */
  datatype Page = Page(total: nat, messages: Transcript)

  /** `get_chat_messages`: the full count and the slice
      `[offset, offset + limit)` under Python's slicing rules. */
  function GetChatMessages(log: Transcript, limit: int, offset: int): (p: Page)
    ensures p.total == |log|
    ensures 0 <= offset && 0 <= limit ==>
      |p.messages| <= limit
      && (offset < |log| ==> p.messages == log[offset..if offset + limit <= |log| then offset + limit else |log|])
      && (offset >= |log| ==> p.messages == [])
  {
    var p := Page(|log|, PySlice(log, offset, offset + limit));
    if 0 <= offset && 0 <= limit then
      PageBounds(log, offset, limit);
      p
    else p
  }

  /** The default pages (`limit` 100) tile the transcript: page `k` starts
      where page `k - 1` ended. */
  lemma PagesTile(log: Transcript, k: nat)
    requires 100 * (k + 1) <= |log|
    ensures GetChatMessages(log, 100, 100 * k).messages + GetChatMessages(log, 100, 100 * (k + 1)).messages
            == log[100 * k..if 100 * (k + 2) <= |log| then 100 * (k + 2) else |log|]
  {
    var a := log[100 * k..100 * (k + 1)];
    var b := GetChatMessages(log, 100, 100 * (k + 1)).messages;
    if 100 * (k + 1) == |log| {
      assert b == [];
    }
  }
}

=== FILE: roles.dfy ===
/** Role profiles and the memory editing endpoints (`routers/roles.py`):
    create-or-update of a profile, partial update, normalisation of a
    client-supplied short-term log and the memory overwrite. The profile
    store is a map from role id to the stored profile. */
module Roles {
  import opened Common
  import opened Profile
  import Memory

  type RoleStore = map<string, RoleProfile>

  /** A parsed `RoleCreate` body. A field the client omitted already holds
      its declared default; `None` is an explicit JSON null. */
  datatype RoleCreate = RoleCreate(
    id: string,
    name: string,
    avatarUrl: Option<string>,
    persona: Option<string>,
    systemPrompt: Option<string>,
    greeting: Option<string>,
    description: Option<string>,
    coreMemory: Option<seq<string>>,
    personality: Option<Personality>,
    proactiveConfig: Option<ProactiveConfig>,
    tags: Option<seq<string>>,
    metadata: Option<map<string, string>>)

  /** The body as parsed when the client sends only `id` and `name`. */
  function MinimalCreate(id: string, name: string): RoleCreate {
    RoleCreate(id, name, Some(""), Some(""), Some(""), Some(""), Some(""), Some([]), None, None, Some([]), Some(map[]))
  }

  /** A parsed `RoleUpdate` body: `None` means not supplied. */
  datatype RoleUpdate = RoleUpdate(
    name: Option<string>,
    avatarUrl: Option<string>,
    persona: Option<string>,
    systemPrompt: Option<string>,
    greeting: Option<string>,
    description: Option<string>,
    coreMemory: Option<seq<string>>,
    personality: Option<Personality>,
    proactiveConfig: Option<ProactiveConfig>,
    tags: Option<seq<string>>,
    metadata: Option<map<string, string>>)

  /** A field after a merge: the supplied value if there is one, else the
      value it had. */
  ghost predicate Merged<T>(after: Option<T>, supplied: Option<T>, before: Option<T>) {
    if supplied.Some? then after == supplied else after == before
  }

  const DefaultPersonality: Personality := Personality(50, 50, 50, 50, 50)
  const DefaultProactive: ProactiveConfig :=
    ProactiveConfig(Some(false), Some(30), Some(120), Some(""), Some(23), Some(7), None)
  const DefaultGender: string := "men"
  const DefaultCycle: CycleConfig := CycleConfig(30, 6, "2026-01-24")

  /** `value or default` for an optional string. */
  function OrEmpty(v: Option<string>): string { v.GetOr("") }

  /** The profile `create_role` writes for an id it has not seen. */
  function NewProfile(req: RoleCreate, now: Clock): RoleProfile {
    RoleProfile(
      id := req.id,
      name := Some(req.name),
      avatarUrl := Some(OrEmpty(req.avatarUrl)),
      persona := Some(OrEmpty(req.persona)),
      systemPrompt := Some(OrEmpty(req.systemPrompt)),
      greeting := Some(OrEmpty(req.greeting)),
      description := Some(OrEmpty(req.description)),
      coreMemory := Some(req.coreMemory.GetOr([])),
      personality := Some(req.personality.GetOr(DefaultPersonality)),
      proactiveConfig := Some(req.proactiveConfig.GetOr(DefaultProactive)),
      tags := Some(req.tags.GetOr([])),
      gender := Some(DefaultGender),
      menstruationCycle := Some(DefaultCycle),
      metadata := Some(req.metadata.GetOr(map[])),
      attachedJsonContent := None,
      aiModel := None,
      aiApiUrl := None,
      aiApiKey := None,
      createdAt := Some(now.iso),
      updatedAt := Some(now.iso))
  }

  /** The existing profile with every non-null field of the request written
      over it (the id is never overwritten). */
  function UpsertProfile(existing: RoleProfile, req: RoleCreate, now: Clock): RoleProfile {
    existing.(
      name := Some(req.name),
      avatarUrl := if req.avatarUrl.Some? then req.avatarUrl else existing.avatarUrl,
      persona := if req.persona.Some? then req.persona else existing.persona,
      systemPrompt := if req.systemPrompt.Some? then req.systemPrompt else existing.systemPrompt,
      greeting := if req.greeting.Some? then req.greeting else existing.greeting,
      description := if req.description.Some? then req.description else existing.description,
      coreMemory := if req.coreMemory.Some? then req.coreMemory else existing.coreMemory,
      personality := if req.personality.Some? then req.personality else existing.personality,
      proactiveConfig := if req.proactiveConfig.Some? then req.proactiveConfig else existing.proactiveConfig,
      tags := if req.tags.Some? then req.tags else existing.tags,
      metadata := if req.metadata.Some? then req.metadata else existing.metadata,
      updatedAt := Some(now.iso))
  }

  /** Result of `create_role`: the store afterwards and the profile returned. */
  datatype Created = Created(store: RoleStore, profile: RoleProfile)

  /** `create_role` (an upsert). For a known id every supplied field is
      written over the stored profile and all other fields, the id included,
      stay; for a new id the profile gets the fixed defaults. Either way the
      returned profile is what is stored, and no other role changes. */
  function CreateRole(store: RoleStore, req: RoleCreate, now: Clock): (c: Created)
    ensures req.id in c.store && c.store[req.id] == c.profile
    ensures c.store - {req.id} == store - {req.id}
    ensures c.profile.name == Some(req.name) && c.profile.updatedAt == Some(now.iso)
    ensures req.id in store ==>
      var before := store[req.id];
      && c.profile.id == before.id
      && Merged(c.profile.avatarUrl, req.avatarUrl, before.avatarUrl)
      && Merged(c.profile.persona, req.persona, before.persona)
      && Merged(c.profile.systemPrompt, req.systemPrompt, before.systemPrompt)
      && Merged(c.profile.greeting, req.greeting, before.greeting)
      && Merged(c.profile.description, req.description, before.description)
      && Merged(c.profile.coreMemory, req.coreMemory, before.coreMemory)
      && Merged(c.profile.personality, req.personality, before.personality)
      && Merged(c.profile.proactiveConfig, req.proactiveConfig, before.proactiveConfig)
      && Merged(c.profile.tags, req.tags, before.tags)
      && Merged(c.profile.metadata, req.metadata, before.metadata)
      && c.profile.gender == before.gender
      && c.profile.menstruationCycle == before.menstruationCycle
      && c.profile.attachedJsonContent == before.attachedJsonContent
      && c.profile.aiModel == before.aiModel && c.profile.aiApiUrl == before.aiApiUrl
      && c.profile.aiApiKey == before.aiApiKey
      && c.profile.createdAt == before.createdAt
    ensures req.id !in store ==>
      && c.profile.id == req.id
      && c.profile.personality == Some(if req.personality.Some? then req.personality.value else Personality(50, 50, 50, 50, 50))
      && (req.proactiveConfig.None? ==> ProactiveOf(c.profile) == DefaultProactive && !ProactiveEnabled(c.profile))
      && c.profile.gender == Some("men")
      && c.profile.menstruationCycle == Some(CycleConfig(30, 6, "2026-01-24"))
      && c.profile.persona == Some(OrEmpty(req.persona))
      && c.profile.createdAt == Some(now.iso)
  {
    if req.id in store then
      var p := UpsertProfile(store[req.id], req, now);
      Created(store[req.id := p], p)
    else
      var p := NewProfile(req, now);
      Created(store[req.id := p], p)
  }

  /** Posting the same body twice at the same moment stores what posting it
      once does: a create is an upsert, so a retried request is harmless. */
  lemma CreateRoleIdempotent(store: RoleStore, req: RoleCreate, now: Clock)
    ensures CreateRole(CreateRole(store, req, now).store, req, now) == CreateRole(store, req, now)
  {
    var c := CreateRole(store, req, now);
    if req.id !in store {
      assert c.profile == NewProfile(req, now);
    }
    UpsertAgain(c.profile, req, now);
    assert c.store[req.id := c.profile] == c.store;
  }

  /** A profile that already carries every supplied field of a request is
      left as it is by upserting that request again. */
  lemma UpsertAgain(p: RoleProfile, req: RoleCreate, now: Clock)
    requires p.name == Some(req.name) && p.updatedAt == Some(now.iso)
    requires req.avatarUrl.Some? ==> p.avatarUrl == req.avatarUrl
    requires req.persona.Some? ==> p.persona == req.persona
    requires req.systemPrompt.Some? ==> p.systemPrompt == req.systemPrompt
    requires req.greeting.Some? ==> p.greeting == req.greeting
    requires req.description.Some? ==> p.description == req.description
    requires req.coreMemory.Some? ==> p.coreMemory == req.coreMemory
    requires req.personality.Some? ==> p.personality == req.personality
    requires req.proactiveConfig.Some? ==> p.proactiveConfig == req.proactiveConfig
    requires req.tags.Some? ==> p.tags == req.tags
    requires req.metadata.Some? ==> p.metadata == req.metadata
    ensures UpsertProfile(p, req, now) == p
  {
  }

  /** A body with only `id` and `name` still carries the declared defaults,
      so re-posting it over an existing role blanks that role's persona,
      system prompt and core memory entries. */
  lemma MinimalCreateResetsPersona(store: RoleStore, id: string, name: string, now: Clock)
    requires id in store
    ensures var p := CreateRole(store, MinimalCreate(id, name), now).profile;
      p.persona == Some("") && p.systemPrompt == Some("") && p.coreMemory == Some([])
      && p.personality == store[id].personality
  {
  }

  /** The error `update_role` raises for an unknown id (HTTP 404). */
  datatype UpdateOutcome = RoleNotFound | Updated(store: RoleStore, profile: RoleProfile)

  /** `update_role`: 404 for an unknown id; otherwise exactly the supplied
      fields are written and everything else stays. */
  function UpdateRole(store: RoleStore, roleId: string, upd: RoleUpdate, now: Clock): (o: UpdateOutcome)
    ensures o.RoleNotFound? <==> roleId !in store
    ensures o.Updated? ==>
      var before := store[roleId];
      && o.store == store[roleId := o.profile]
      && o.profile.id == before.id
      && Merged(o.profile.name, upd.name, before.name)
      && Merged(o.profile.avatarUrl, upd.avatarUrl, before.avatarUrl)
      && Merged(o.profile.persona, upd.persona, before.persona)
      && Merged(o.profile.systemPrompt, upd.systemPrompt, before.systemPrompt)
      && Merged(o.profile.greeting, upd.greeting, before.greeting)
      && Merged(o.profile.description, upd.description, before.description)
      && Merged(o.profile.coreMemory, upd.coreMemory, before.coreMemory)
      && Merged(o.profile.personality, upd.personality, before.personality)
      && Merged(o.profile.proactiveConfig, upd.proactiveConfig, before.proactiveConfig)
      && Merged(o.profile.tags, upd.tags, before.tags)
      && Merged(o.profile.metadata, upd.metadata, before.metadata)
      && o.profile.gender == before.gender && o.profile.menstruationCycle == before.menstruationCycle
      && o.profile.attachedJsonContent == before.attachedJsonContent
      && o.profile.aiModel == before.aiModel
      && o.profile.aiApiUrl == before.aiApiUrl && o.profile.aiApiKey == before.aiApiKey
      && o.profile.createdAt == before.createdAt
      && o.profile.updatedAt == Some(now.iso)
  {
    if roleId !in store then RoleNotFound
    else
      var p := ApplyUpdate(store[roleId], upd, now);
      Updated(store[roleId := p], p)
  }

  /** The stored profile with the supplied fields of `upd` written over it. */
  function ApplyUpdate(r: RoleProfile, upd: RoleUpdate, now: Clock): RoleProfile {
    r.(
      name := if upd.name.Some? then upd.name else r.name,
      avatarUrl := if upd.avatarUrl.Some? then upd.avatarUrl else r.avatarUrl,
      persona := if upd.persona.Some? then upd.persona else r.persona,
      systemPrompt := if upd.systemPrompt.Some? then upd.systemPrompt else r.systemPrompt,
      greeting := if upd.greeting.Some? then upd.greeting else r.greeting,
      description := if upd.description.Some? then upd.description else r.description,
      coreMemory := if upd.coreMemory.Some? then upd.coreMemory else r.coreMemory,
      personality := if upd.personality.Some? then upd.personality else r.personality,
      proactiveConfig := if upd.proactiveConfig.Some? then upd.proactiveConfig else r.proactiveConfig,
      tags := if upd.tags.Some? then upd.tags else r.tags,
      metadata := if upd.metadata.Some? then upd.metadata else r.metadata,
      updatedAt := Some(now.iso))
  }

  /** An update with nothing supplied only refreshes `updated_at`; applying
      the same update twice is applying it once. */
  lemma UpdateRoleIdempotent(store: RoleStore, roleId: string, upd: RoleUpdate, now: Clock)
    requires roleId in store
    ensures UpdateRole(UpdateRole(store, roleId, upd, now).store, roleId, upd, now)
            == UpdateRole(store, roleId, upd, now)
    ensures upd == RoleUpdate(None, None, None, None, None, None, None, None, None, None, None) ==>
            UpdateRole(store, roleId, upd, now).profile == store[roleId].(updatedAt := Some(now.iso))
  {
    var once := UpdateRole(store, roleId, upd, now);
    var p := ApplyUpdate(store[roleId], upd, now);
    assert once.store == store[roleId := p];
    assert ApplyUpdate(p, upd, now) == p;
    assert once.store[roleId := p] == once.store;
  }

  /** One client-supplied short-term item: a JSON object with optional keys,
      or any other value, given by its `str()` text. */
  datatype RawItem =
    | Dict(role: Option<string>, content: Option<string>, timestamp: Option<string>)
    | Other(text: string)

  /** `x or default` for an optional string: missing and empty both fall
      back. */
  function OrElse(v: Option<string>, default: string): (r: string)
    ensures v.Some? && v.value != "" ==> r == v.value
    ensures v.None? || v.value == "" ==> r == default
  {
    if v.Some? && v.value != "" then v.value else default
  }

  /** One item of `_normalize_short_term`. */
  function NormalizeItem(item: RawItem, now: Clock): (e: Memory.Entry)
    ensures e.role != ""
    ensures item.Other? ==> e == Memory.Entry("assistant", item.text, now.iso)
    ensures item.Dict? ==>
      && e.role == (if item.role.Some? && item.role.value != "" then item.role.value else "assistant")
      && e.content == (if item.content.Some? then item.content.value else "")
      && e.timestamp == (if item.timestamp.Some? && item.timestamp.value != "" then item.timestamp.value else now.iso)
  {
    match item
    case Dict(role, content, timestamp) =>
      Memory.Entry(OrElse(role, "assistant"), content.GetOr(""), OrElse(timestamp, now.iso))
    case Other(text) => Memory.Entry("assistant", text, now.iso)
  }

  /** `_normalize_short_term`: one entry per item, in order. */
  function NormalizeShortTerm(items: seq<RawItem>, now: Clock): (r: seq<Memory.Entry>)
    ensures |r| == |items|
    ensures forall i :: 0 <= i < |items| ==> r[i] == NormalizeItem(items[i], now)
  {
    seq(|items|, i requires 0 <= i < |items| => NormalizeItem(items[i], now))
  }

  /** A stored entry as it reads back in as a JSON object. */
  function AsRaw(e: Memory.Entry): RawItem {
    Dict(Some(e.role), Some(e.content), Some(e.timestamp))
  }

  /** Normalising a log that is already normal (every role and timestamp
      non-empty) gives it back unchanged, whatever the clock says. */
  lemma NormalizeFixesNormal(log: seq<Memory.Entry>, now: Clock)
    requires forall i :: 0 <= i < |log| ==> log[i].role != "" && log[i].timestamp != ""
    ensures NormalizeShortTerm(seq(|log|, i requires 0 <= i < |log| => AsRaw(log[i])), now) == log
  {
  }

  /** Normalisation is idempotent once the clock prints a non-empty time. */
  lemma NormalizeIdempotent(items: seq<RawItem>, now: Clock, later: Clock)
    requires now.iso != ""
    ensures var once := NormalizeShortTerm(items, now);
      NormalizeShortTerm(seq(|once| , i requires 0 <= i < |once| => AsRaw(once[i])), later) == once
  {
    NormalizeFixesNormal(NormalizeShortTerm(items, now), later);
  }

  /** A parsed `MemoryUpdate` body; the short-term lines are plain strings. */
  datatype MemoryUpdate = MemoryUpdate(coreMemory: Option<string>, shortTerm: Option<seq<string>>)

  /** `update_memory`: replaces the core memory and the log, each only when
      supplied (the log normalised as assistant entries stamped now); the
      counter and summary time stay, and no other role changes. */
  function UpdateMemory(store: Memory.Store, roleId: string, upd: MemoryUpdate, now: Clock): (r: Memory.Store)
    ensures roleId in r && r - {roleId} == store - {roleId}
    ensures var before := Memory.Load(store, roleId);
      && r[roleId].coreMemory == upd.coreMemory.GetOr(before.coreMemory)
      && (upd.shortTerm.None? ==> r[roleId].shortTerm == before.shortTerm)
      && (upd.shortTerm.Some? ==>
            |r[roleId].shortTerm| == |upd.shortTerm.value|
            && forall i :: 0 <= i < |upd.shortTerm.value| ==>
                 r[roleId].shortTerm[i] == Memory.Entry("assistant", upd.shortTerm.value[i], now.iso))
      && r[roleId].messageCount == before.messageCount
      && r[roleId].lastSummarizedAt == before.lastSummarizedAt
  {
    var rec := Memory.Load(store, roleId);
    var withCore := if upd.coreMemory.Some? then rec.(coreMemory := upd.coreMemory.value) else rec;
    var withLog :=
      if upd.shortTerm.Some? then
        var lines := upd.shortTerm.value;
        withCore.(shortTerm := NormalizeShortTerm(seq(|lines|, i requires 0 <= i < |lines| => Other(lines[i])), now))
      else withCore;
    Memory.Save(store, roleId, withLog, now)
  }
}

=== FILE: scheduler.dfy ===
/** The background scheduler (`services/scheduler_service.py`): one
    proactive-message job per enabled role, one job per future task, and the
    periodic moment check. The job store is a map from job id to job; the
    clock, the random draws, the profiles on disk and the ISO parser are
    parameters, and firing a job yields the event handed to the registered
    callback. */
module Scheduler {
  import opened Common
  import opened Profile
  import opened Events
  import Tasks

  const ProactivePrefix: string := "proactive_"
  const TaskPrefix: string := "task_"
  const MomentCheckId: string := "moment_check"
  /** The moment check runs every three hours. */
  const MomentCheckPeriod: int := 3 * SecondsPerHour

  function ProactiveJobId(roleId: string): string { ProactivePrefix + roleId }
  function TaskJobId(taskId: string): string { TaskPrefix + taskId }

  /** The three kinds of job never share an id, and each kind's id names its
      role or task. */
  lemma JobIdsDistinct(roleId: string, taskId: string, other: string)
    ensures ProactiveJobId(roleId) != TaskJobId(taskId)
    ensures ProactiveJobId(roleId) != MomentCheckId && TaskJobId(taskId) != MomentCheckId
    ensures ProactiveJobId(roleId) == ProactiveJobId(other) ==> roleId == other
    ensures TaskJobId(taskId) == TaskJobId(other) ==> taskId == other
  {
    assert ProactiveJobId(roleId)[0] == 'p' && TaskJobId(taskId)[0] == 't';
    assert MomentCheckId[0] == 'm';
    assert ProactiveJobId(roleId)[|ProactivePrefix|..] == roleId;
    assert ProactiveJobId(other)[|ProactivePrefix|..] == other;
    assert TaskJobId(taskId)[|TaskPrefix|..] == taskId;
    assert TaskJobId(other)[|TaskPrefix|..] == other;
  }

  datatype Trigger = At(time: int) | Every(period: int)
  datatype Action = ProactiveFor(roleId: string) | RunTask(task: Tasks.Task) | CheckMoments
  datatype Job = Job(trigger: Trigger, action: Action)
  type JobTable = map<string, Job>

  /** The job table after an operation, and whether the operation ended in
      an exception (the table keeps what was done before it). */
  datatype Outcome = Outcome(jobs: JobTable, raised: bool)

  const DefaultMinInterval: int := 30
  const DefaultMaxInterval: int := 120
  const DefaultQuietStart: int := 23
  const DefaultQuietEnd: int := 7

  /** `random.randint(lo, hi)` driven by the draw `draw`. */
  function RandInt(lo: int, hi: int, draw: nat): (v: int)
    requires lo <= hi
    ensures lo <= v <= hi
  {
    lo + draw % (hi - lo + 1)
  }

  /** Every value in range is some draw's outcome. */
  lemma RandIntCovers(lo: int, hi: int, v: int)
    requires lo <= v <= hi
    ensures RandInt(lo, hi, v - lo) == v
  {
    DivModOf(v - lo, 0, v - lo, hi - lo + 1);
  }

  /** The quiet-hours test as the scheduler writes it. */
  predicate QuietAsWritten(quietStart: int, quietEnd: int, hour: int) {
    quietStart <= hour || hour < quietEnd
  }

  /** The quiet-hours test: the half-open window from `quietStart` to
      `quietEnd`, wrapping past midnight when it starts later than it ends;
      equal ends make an empty window. */
  predicate InQuietHours(quietStart: int, quietEnd: int, hour: int) {
    if quietStart <= quietEnd then quietStart <= hour < quietEnd
    else quietStart <= hour || hour < quietEnd
  }

  /** The window is the set of hours reached by counting from `quietStart`
      fewer than `(quietEnd - quietStart) mod 24` steps round the clock. */
  lemma QuietWindowExact(quietStart: int, quietEnd: int, hour: int)
    requires 0 <= quietStart < 24 && 0 <= quietEnd < 24 && 0 <= hour < 24
    ensures InQuietHours(quietStart, quietEnd, hour) <==> (hour - quietStart) % 24 < (quietEnd - quietStart) % 24
  {
    ModDay(hour - quietStart);
    ModDay(quietEnd - quietStart);
  }

  lemma ModDay(x: int)
    requires -24 < x < 24
    ensures x % 24 == if x >= 0 then x else x + 24
  {
    if x >= 0 {
      DivModOf(x, 0, x, 24);
    } else {
      assert x == -1 * 24 + (x + 24);
    }
  }

  /** The two tests agree on every window that wraps past midnight, the
      default 23-to-7 among them. */
  lemma QuietTestsAgreeWhenWrapping(quietStart: int, quietEnd: int, hour: int)
    requires quietStart > quietEnd
    ensures QuietAsWritten(quietStart, quietEnd, hour) == InQuietHours(quietStart, quietEnd, hour)
  {
  }

  /** As written, a window that does not wrap (start at or before end)
      covers every hour of the day. */
  lemma AsWrittenQuietAllDay(quietStart: int, quietEnd: int, hour: int)
    requires quietStart <= quietEnd
    ensures QuietAsWritten(quietStart, quietEnd, hour)
  {
  }

  /** Hour `h` of the day that starts at `day`. */
  lemma AtHourOfDay(day: int, h: int)
    requires day % SecondsPerDay == 0 && 0 <= h < 24
    ensures StartOfDay(day + h * SecondsPerHour) == day
    ensures HourOf(day + h * SecondsPerHour) == h
  {
    var t := day + h * SecondsPerHour;
    assert day == (day / SecondsPerDay) * SecondsPerDay;
    assert t % SecondsPerDay == h * SecondsPerHour;
    DivModOf(h * SecondsPerHour, h, 0, SecondsPerHour);
  }

  /** `now.replace(hour=quiet_end, minute=0, second=0)`, a day later if that
      has passed; `replace` rejects an hour outside 0..23. */
  function QuietDeferral(quietEnd: int, now: int): (r: Option<int>)
    ensures r.None? <==> !(0 <= quietEnd < 24)
    ensures r.Some? ==> now <= r.value < now + SecondsPerDay && HourOf(r.value) == quietEnd
    ensures r.Some? ==> r.value == StartOfDay(now) + quietEnd * SecondsPerHour
                        || r.value == StartOfDay(now) + SecondsPerDay + quietEnd * SecondsPerHour
  {
    if !(0 <= quietEnd < 24) then None
    else
      var today := StartOfDay(now) + quietEnd * SecondsPerHour;
      QuietDeferralFacts(StartOfDay(now), quietEnd, now);
      if today < now then Some(today + SecondsPerDay) else Some(today)
  }

  /** The hour `quietEnd` of the day of `now` and of the day after. */
  lemma QuietDeferralFacts(sod: int, quietEnd: int, now: int)
    requires sod == StartOfDay(now) && 0 <= quietEnd < 24
    ensures HourOf(sod + quietEnd * SecondsPerHour) == quietEnd
    ensures HourOf(sod + SecondsPerDay + quietEnd * SecondsPerHour) == quietEnd
    ensures sod + quietEnd * SecondsPerHour < now + SecondsPerDay
    ensures sod + quietEnd * SecondsPerHour < now ==> now < sod + SecondsPerDay + quietEnd * SecondsPerHour
  {
    AtHourOfDay(sod, quietEnd);
    AtHourOfDay(sod + SecondsPerDay, quietEnd);
  }

  /** What `schedule_proactive_for_role` decides for one role: no job, a job
      at `time`, or an exception (`randint` with an inverted range, or a
      quiet end outside 0..23). */
  datatype Plan = NoJob | FireAt(time: int) | Raises

  function MinInterval(c: ProactiveConfig): int { c.minIntervalMinutes.GetOr(DefaultMinInterval) }
  function MaxInterval(c: ProactiveConfig): int { c.maxIntervalMinutes.GetOr(DefaultMaxInterval) }
  function QuietStart(c: ProactiveConfig): int { c.quietHoursStart.GetOr(DefaultQuietStart) }
  function QuietEnd(c: ProactiveConfig): int { c.quietHoursEnd.GetOr(DefaultQuietEnd) }

  /** The plan for an enabled config, given the quiet test's verdict on the
      current hour: the interval is drawn first, then a quiet hour replaces
      the interval by the deferral. */
  function PlanFor(c: ProactiveConfig, quiet: bool, draw: nat, now: int): (p: Plan)
    ensures p.Raises? <==> MinInterval(c) > MaxInterval(c) || (quiet && !(0 <= QuietEnd(c) < 24))
    ensures p.NoJob? ==> false
    ensures p.FireAt? && !quiet ==>
      now + 60 * MinInterval(c) <= p.time <= now + 60 * MaxInterval(c)
    ensures p.FireAt? && quiet ==> Some(p.time) == QuietDeferral(QuietEnd(c), now)
  {
    var lo := MinInterval(c);
    var hi := MaxInterval(c);
    if lo > hi then Raises
    else
      var minutes := RandInt(lo, hi, draw);
      if quiet then
        var d := QuietDeferral(QuietEnd(c), now);
        if d.None? then Raises else FireAt(d.value)
      else
        FireAt(now + 60 * minutes)
  }

  /** The plan with the quiet-hours test corrected; `profile` is `None`
      when the role has no profile file. Outside quiet hours the message is
      due after an interval in the configured range; inside them it is due
      when they end: strictly later, within a day, at the end hour, and
      outside the window. */
  function ProactivePlan(profile: Option<RoleProfile>, draw: nat, now: int): (p: Plan)
    ensures p.NoJob? <==> profile.None? || !ProactiveEnabled(profile.value)
    ensures profile.Some? && ProactiveEnabled(profile.value) ==>
      var c := ProactiveOf(profile.value);
      var quiet := InQuietHours(QuietStart(c), QuietEnd(c), HourOf(now));
      && (p.Raises? <==> MinInterval(c) > MaxInterval(c) || (quiet && !(0 <= QuietEnd(c) < 24)))
      && (p.FireAt? && !quiet ==> now + 60 * MinInterval(c) <= p.time <= now + 60 * MaxInterval(c))
      && (p.FireAt? && quiet ==>
            && now < p.time < now + SecondsPerDay
            && HourOf(p.time) == QuietEnd(c)
            && !InQuietHours(QuietStart(c), QuietEnd(c), HourOf(p.time)))
  {
    if profile.None? || !ProactiveEnabled(profile.value) then NoJob
    else
      var c := ProactiveOf(profile.value);
      var quiet := InQuietHours(QuietStart(c), QuietEnd(c), HourOf(now));
      PlanFor(c, quiet, draw, now)
  }

  /** The plan `schedule_proactive_for_role` makes, with the quiet-hours
      test as written: the scheduler's own members use this one. */
  function ProactivePlanAsWritten(profile: Option<RoleProfile>, draw: nat, now: int): (p: Plan)
    ensures p.NoJob? <==> profile.None? || !ProactiveEnabled(profile.value)
    ensures profile.Some? && ProactiveEnabled(profile.value) ==>
      var c := ProactiveOf(profile.value);
      var quiet := QuietAsWritten(QuietStart(c), QuietEnd(c), HourOf(now));
      && (p.Raises? <==> MinInterval(c) > MaxInterval(c) || (quiet && !(0 <= QuietEnd(c) < 24)))
      && (p.FireAt? && !quiet ==> now + 60 * MinInterval(c) <= p.time <= now + 60 * MaxInterval(c))
      && (p.FireAt? && quiet ==> Some(p.time) == QuietDeferral(QuietEnd(c), now))
  {
    if profile.None? || !ProactiveEnabled(profile.value) then NoJob
    else
      var c := ProactiveOf(profile.value);
      var quiet := QuietAsWritten(QuietStart(c), QuietEnd(c), HourOf(now));
      PlanFor(c, quiet, draw, now)
  }

  /** The code as written and the corrected plan agree whenever the quiet
      window wraps past midnight, as the default 23-to-7 one does. */
  lemma PlansAgreeWhenWrapping(profile: Option<RoleProfile>, draw: nat, now: int)
    requires profile.Some? && ProactiveEnabled(profile.value)
    requires QuietStart(ProactiveOf(profile.value)) > QuietEnd(ProactiveOf(profile.value))
    ensures ProactivePlanAsWritten(profile, draw, now) == ProactivePlan(profile, draw, now)
  {
    var c := ProactiveOf(profile.value);
    QuietTestsAgreeWhenWrapping(QuietStart(c), QuietEnd(c), HourOf(now));
  }

  /** Outside quiet hours the message is due after the drawn interval, and
      every interval in range is possible. */
  lemma IntervalOutsideQuietHours(profile: Option<RoleProfile>, minutes: int, now: int)
    requires profile.Some? && ProactiveEnabled(profile.value)
    requires var c := ProactiveOf(profile.value);
      !InQuietHours(QuietStart(c), QuietEnd(c), HourOf(now)) && MinInterval(c) <= minutes <= MaxInterval(c)
    ensures ProactivePlan(profile, (minutes - MinInterval(ProactiveOf(profile.value))) as nat, now)
            == FireAt(now + 60 * minutes)
  {
    var c := ProactiveOf(profile.value);
    RandIntCovers(MinInterval(c), MaxInterval(c), minutes);
  }

  /** As written, a non-wrapping window defers every message, at every hour
      of the day, to the window's end hour. */
  lemma AsWrittenDefersEveryHour(profile: Option<RoleProfile>, draw: nat, now: int)
    requires profile.Some? && ProactiveEnabled(profile.value)
    requires var c := ProactiveOf(profile.value);
      QuietStart(c) <= QuietEnd(c) && 0 <= QuietEnd(c) < 24 && MinInterval(c) <= MaxInterval(c)
    ensures var p := ProactivePlanAsWritten(profile, draw, now);
      p.FireAt? && HourOf(p.time) == QuietEnd(ProactiveOf(profile.value))
  {
  }

  /** The concrete case: quiet from 1 to 6, at noon, with the 30..120
      minute defaults. As written the message waits until 06:00 the next
      day; corrected it is due within two hours. */
  lemma QuietHoursCounterexample()
    ensures var c := ProactiveConfig(Some(true), None, None, None, Some(1), Some(6), None);
      var profile := Some(BareProfile("r").(proactiveConfig := Some(c)));
      var noon := 12 * SecondsPerHour;
      && ProactivePlanAsWritten(profile, 0, noon) == FireAt(SecondsPerDay + 6 * SecondsPerHour)
      && ProactivePlan(profile, 0, noon) == FireAt(noon + 60 * 30)
  {
    var noon := 12 * SecondsPerHour;
    assert HourOf(noon) == 12;
    assert StartOfDay(noon) == 0;
  }

  /** `schedule_proactive_for_role`: the role's old job always goes first;
      then the plan adds the new job, adds none, or raises. Every other job
      stays. */
  function ScheduleProactive(jobs: JobTable, roleId: string, profile: Option<RoleProfile>,
                             draw: nat, now: int): (r: Outcome)
    ensures r.jobs - {ProactiveJobId(roleId)} == jobs - {ProactiveJobId(roleId)}
    ensures r.raised <==> ProactivePlanAsWritten(profile, draw, now).Raises?
    ensures ProactiveJobId(roleId) in r.jobs <==> ProactivePlanAsWritten(profile, draw, now).FireAt?
    ensures ProactiveJobId(roleId) in r.jobs ==>
      r.jobs[ProactiveJobId(roleId)] == Job(At(ProactivePlanAsWritten(profile, draw, now).time), ProactiveFor(roleId))
  {
    var id := ProactiveJobId(roleId);
    var base := jobs - {id};
    match ProactivePlanAsWritten(profile, draw, now)
    case NoJob => Outcome(base, false)
    case Raises => Outcome(base, true)
    case FireAt(t) =>
      assert base[id := Job(At(t), ProactiveFor(roleId))] - {id} == base - {id};
      Outcome(base[id := Job(At(t), ProactiveFor(roleId))], false)
  }

  /** What a fired job produces: the event passed to the callback, if one
      is registered, and the table afterwards. */
  datatype Fired = Fired(event: Option<AIEvent>, outcome: Outcome)

  /** The event every proactive job emits. */
  function ProactiveEvent(roleId: string): AIEvent {
    AIEvent(roleId, Proactive, Some(""), Some(map[]))
  }

  /** How the registered callback took the event: there is none, it
      returned, or it raised (the exception leaves `_trigger_proactive`). */
  datatype Callback = NoCallback | Returned | CallbackRaised

  /** `_trigger_proactive`, run by the role's one-shot job, which is gone
      from the table once it fires: it awaits the callback with the
      proactive event, and only if that does not raise schedules the role
      again from its profile as it now reads. A raising callback therefore
      ends the role's chain of proactive messages, and so does a role whose
      proactive flag was turned off. */
  function FireProactive(jobs: JobTable, roleId: string, callback: Callback,
                         profile: Option<RoleProfile>, draw: nat, now: int): (r: Fired)
    ensures r.event.Some? <==> !callback.NoCallback?
    ensures r.event.Some? ==> r.event.value.roleId == roleId && r.event.value.eventType == Proactive
    ensures r.outcome.jobs - {ProactiveJobId(roleId)} == jobs - {ProactiveJobId(roleId)}
    ensures callback.CallbackRaised? ==> r.outcome == Outcome(jobs - {ProactiveJobId(roleId)}, true)
    ensures !callback.CallbackRaised? ==> r.outcome == ScheduleProactive(jobs, roleId, profile, draw, now)
    ensures ProactiveJobId(roleId) in r.outcome.jobs <==>
      !callback.CallbackRaised? && profile.Some? && ProactiveEnabled(profile.value)
      && ProactivePlanAsWritten(profile, draw, now).FireAt?
  {
    var event := if callback.NoCallback? then None else Some(ProactiveEvent(roleId));
    if callback.CallbackRaised? then Fired(event, Outcome(jobs - {ProactiveJobId(roleId)}, true))
    else Fired(event, ScheduleProactive(jobs, roleId, profile, draw, now))
  }

  /** `_init_proactive_jobs`: schedules each role directory in turn; an
      exception stops the loop and leaves the later roles unscheduled.
      `profileOf` reads a role's profile file and `draws` gives each role's
      random draw. */
  function InitProactiveJobs(jobs: JobTable, roleIds: seq<string>, profileOf: string -> Option<RoleProfile>,
                             draws: string -> nat, now: int): (r: Outcome)
    ensures forall k :: k in r.jobs && k !in jobs ==> exists i :: 0 <= i < |roleIds| && k == ProactiveJobId(roleIds[i])
    ensures forall k :: k in jobs && k !in r.jobs ==> exists i :: 0 <= i < |roleIds| && k == ProactiveJobId(roleIds[i])
    ensures !r.raised <==> forall i :: 0 <= i < |roleIds| ==> !ProactivePlanAsWritten(profileOf(roleIds[i]), draws(roleIds[i]), now).Raises?
    decreases |roleIds|
  {
    if |roleIds| == 0 then Outcome(jobs, false)
    else
      var id := roleIds[0];
      var step := ScheduleProactive(jobs, id, profileOf(id), draws(id), now);
      if step.raised then step
      else
        var rest := InitProactiveJobs(step.jobs, roleIds[1..], profileOf, draws, now);
        assert forall i :: 0 <= i < |roleIds[1..]| ==> roleIds[1..][i] == roleIds[i + 1];
        rest
  }

  /** When no role raises, each role directory ends with exactly the job its
      plan asks for. */
  lemma {:induction false} InitProactiveJobsComplete(jobs: JobTable, roleIds: seq<string>,
                                                     profileOf: string -> Option<RoleProfile>,
                                                     draws: string -> nat, now: int, i: int)
    requires 0 <= i < |roleIds|
    requires !InitProactiveJobs(jobs, roleIds, profileOf, draws, now).raised
    ensures var id := roleIds[i];
      var p := ProactivePlanAsWritten(profileOf(id), draws(id), now);
      var r := InitProactiveJobs(jobs, roleIds, profileOf, draws, now).jobs;
      (ProactiveJobId(id) in r <==> p.FireAt?)
      && (p.FireAt? ==> r[ProactiveJobId(id)] == Job(At(p.time), ProactiveFor(id)))
    decreases |roleIds|
  {
    var id := roleIds[0];
    var step := ScheduleProactive(jobs, id, profileOf(id), draws(id), now);
    var rest := roleIds[1..];
    if i > 0 {
      assert rest[i - 1] == roleIds[i];
      InitProactiveJobsComplete(step.jobs, rest, profileOf, draws, now, i - 1);
    } else {
      if id in rest {
        var j :| 0 <= j < |rest| && rest[j] == id;
        InitProactiveJobsComplete(step.jobs, rest, profileOf, draws, now, j);
      } else {
        forall j | 0 <= j < |rest| ensures ProactiveJobId(id) != ProactiveJobId(rest[j]) {
          JobIdsDistinct(id, "", rest[j]);
        }
        InitProactiveJobsKeeps(step.jobs, rest, profileOf, draws, now, ProactiveJobId(id));
      }
    }
  }

  /** A job id that no later role directory names passes through the loop
      untouched. */
  lemma {:induction false} InitProactiveJobsKeeps(jobs: JobTable, roleIds: seq<string>,
                                                  profileOf: string -> Option<RoleProfile>,
                                                  draws: string -> nat, now: int, k: string)
    requires forall i :: 0 <= i < |roleIds| ==> k != ProactiveJobId(roleIds[i])
    ensures var r := InitProactiveJobs(jobs, roleIds, profileOf, draws, now).jobs;
      (k in r <==> k in jobs) && (k in r ==> r[k] == jobs[k])
    decreases |roleIds|
  {
    if |roleIds| > 0 {
      var id := roleIds[0];
      var step := ScheduleProactive(jobs, id, profileOf(id), draws(id), now);
      assert k != ProactiveJobId(id);
      assert k in step.jobs - {ProactiveJobId(id)} <==> k in jobs - {ProactiveJobId(id)};
      if !step.raised {
        InitProactiveJobsKeeps(step.jobs, roleIds[1..], profileOf, draws, now, k);
      }
    }
  }

  /** When the task would run: its trigger time parsed with `parseTime`
      (`datetime.fromisoformat`), provided it is set, parses and is not in
      the past. A parse failure is caught and logged, so it only means no
      job. */
  function TaskRunTime(task: Tasks.Task, parseTime: string -> Option<int>, now: int): (r: Option<int>)
    ensures r.Some? <==> task.triggerTime.Some? && task.triggerTime.value != ""
                         && parseTime(task.triggerTime.value).Some?
                         && parseTime(task.triggerTime.value).value >= now
    ensures r.Some? ==> r == parseTime(task.triggerTime.value) && r.value >= now
  {
    if task.triggerTime.None? || task.triggerTime.value == "" then None
    else
      var run := parseTime(task.triggerTime.value);
      if run.None? || run.value < now then None else run
  }

  /** `schedule_task`: the task's old job always goes; a new one-shot job is
      added when the task has a run time. Every other job stays. */
  function ScheduleTask(jobs: JobTable, task: Tasks.Task, parseTime: string -> Option<int>, now: int): (r: JobTable)
    ensures r - {TaskJobId(task.id)} == jobs - {TaskJobId(task.id)}
    ensures TaskJobId(task.id) in r <==> TaskRunTime(task, parseTime, now).Some?
    ensures TaskJobId(task.id) in r ==>
      r[TaskJobId(task.id)] == Job(At(TaskRunTime(task, parseTime, now).value), RunTask(task))
  {
    var id := TaskJobId(task.id);
    var base := jobs - {id};
    var run := TaskRunTime(task, parseTime, now);
    if run.None? then base
    else
      assert base[id := Job(At(run.value), RunTask(task))] - {id} == base - {id};
      base[id := Job(At(run.value), RunTask(task))]
  }

  /** `_init_scheduled_tasks`: schedules every enabled task in list order;
      `tasks` is `None` when the task file does not exist. Without a file
      nothing changes. Otherwise every job afterwards was there before or is
      a future job of an enabled task; a job no enabled task names is kept;
      and, when the ids are distinct, each enabled task has exactly the job
      its run time asks for. */
  function InitScheduledTasks(jobs: JobTable, tasks: Option<seq<Tasks.Task>>,
                              parseTime: string -> Option<int>, now: int): (r: JobTable)
    ensures tasks.None? ==> r == jobs
    ensures forall k :: k in r ==> (k in jobs && r[k] == jobs[k]) || IsTaskJob(k, r[k], now)
    ensures forall k :: k in jobs && (tasks.None? || !NamesEnabledTask(tasks.value, k)) ==> k in r && r[k] == jobs[k]
    ensures tasks.Some? && DistinctTaskIds(tasks.value) ==>
      forall i :: 0 <= i < |tasks.value| && Tasks.IsEnabled(tasks.value[i]) ==>
        TaskJobScheduled(r, tasks.value[i], parseTime, now)
  {
    if tasks.None? then jobs
    else
      ScheduleAllFacts(jobs, tasks.value, parseTime, now);
      ScheduleAll(jobs, tasks.value, parseTime, now)
  }

  /** The keeping and completeness facts of the task loop, for every id and
      every enabled task at once. */
  lemma ScheduleAllFacts(jobs: JobTable, tasks: seq<Tasks.Task>, parseTime: string -> Option<int>, now: int)
    ensures var r := ScheduleAll(jobs, tasks, parseTime, now);
      && (forall k :: k in jobs && !NamesEnabledTask(tasks, k) ==> k in r && r[k] == jobs[k])
      && (DistinctTaskIds(tasks) ==>
            forall i :: 0 <= i < |tasks| && Tasks.IsEnabled(tasks[i]) ==> TaskJobScheduled(r, tasks[i], parseTime, now))
  {
    var r := ScheduleAll(jobs, tasks, parseTime, now);
    forall k | k in jobs && !NamesEnabledTask(tasks, k) ensures k in r && r[k] == jobs[k] {
      ScheduleAllKeeps(jobs, tasks, parseTime, now, k);
    }
    if DistinctTaskIds(tasks) {
      forall i | 0 <= i < |tasks| && Tasks.IsEnabled(tasks[i])
        ensures TaskJobScheduled(r, tasks[i], parseTime, now)
      {
        ScheduleAllComplete(jobs, tasks, parseTime, now, i);
      }
    }
  }

  /** Some enabled task has the job id `k`. */
  predicate NamesEnabledTask(tasks: seq<Tasks.Task>, k: string) {
    exists i :: 0 <= i < |tasks| && Tasks.IsEnabled(tasks[i]) && k == TaskJobId(tasks[i].id)
  }

  /** No two tasks share an id. */
  predicate DistinctTaskIds(tasks: seq<Tasks.Task>) {
    forall a, b :: 0 <= a < b < |tasks| ==> tasks[a].id != tasks[b].id
  }

  /** The table holds the task's job exactly when it has a run time, at
      that time. */
  predicate TaskJobScheduled(jobs: JobTable, task: Tasks.Task, parseTime: string -> Option<int>, now: int) {
    var run := TaskRunTime(task, parseTime, now);
    (TaskJobId(task.id) in jobs <==> run.Some?)
    && (run.Some? ==> jobs[TaskJobId(task.id)] == Job(At(run.value), RunTask(task)))
  }

  /** The loop of `_init_scheduled_tasks` over the enabled tasks, in list
      order: every job afterwards was there before, unchanged, or is a
      future job of an enabled task. */
  function ScheduleAll(jobs: JobTable, tasks: seq<Tasks.Task>, parseTime: string -> Option<int>, now: int): (r: JobTable)
    ensures forall k :: k in r ==> (k in jobs && r[k] == jobs[k]) || IsTaskJob(k, r[k], now)
    decreases |tasks|
  {
    if |tasks| == 0 then jobs
    else if Tasks.IsEnabled(tasks[0]) then
      ScheduleTaskStep(jobs, tasks[0], parseTime, now);
      ScheduleAll(ScheduleTask(jobs, tasks[0], parseTime, now), tasks[1..], parseTime, now)
    else ScheduleAll(jobs, tasks[1..], parseTime, now)
  }

  /** Scheduling one enabled task adds at most its own future job. */
  lemma ScheduleTaskStep(jobs: JobTable, task: Tasks.Task, parseTime: string -> Option<int>, now: int)
    requires Tasks.IsEnabled(task)
    ensures var next := ScheduleTask(jobs, task, parseTime, now);
      forall k :: k in next ==> (k in jobs && next[k] == jobs[k]) || IsTaskJob(k, next[k], now)
  {
    var next := ScheduleTask(jobs, task, parseTime, now);
    forall k | k in next ensures (k in jobs && next[k] == jobs[k]) || IsTaskJob(k, next[k], now) {
      if k != TaskJobId(task.id) {
        assert k in next - {TaskJobId(task.id)};
      }
    }
  }

  /** A job id that names no enabled task passes through untouched. */
  lemma {:induction false} ScheduleAllKeeps(jobs: JobTable, tasks: seq<Tasks.Task>,
                                            parseTime: string -> Option<int>, now: int, k: string)
    requires forall i :: 0 <= i < |tasks| && Tasks.IsEnabled(tasks[i]) ==> k != TaskJobId(tasks[i].id)
    ensures var r := ScheduleAll(jobs, tasks, parseTime, now);
      (k in r <==> k in jobs) && (k in r ==> r[k] == jobs[k])
    decreases |tasks|
  {
    if |tasks| > 0 {
      var next := if Tasks.IsEnabled(tasks[0]) then ScheduleTask(jobs, tasks[0], parseTime, now) else jobs;
      if Tasks.IsEnabled(tasks[0]) {
        assert k in next - {TaskJobId(tasks[0].id)} <==> k in jobs - {TaskJobId(tasks[0].id)};
      }
      ScheduleAllKeeps(next, tasks[1..], parseTime, now, k);
    }
  }

  /** With distinct task ids, each enabled task ends with exactly the job
      its run time asks for: one at that time when it has one, none
      otherwise. */
  lemma {:induction false} ScheduleAllComplete(jobs: JobTable, tasks: seq<Tasks.Task>,
                                               parseTime: string -> Option<int>, now: int, i: int)
    requires 0 <= i < |tasks| && Tasks.IsEnabled(tasks[i])
    requires forall a, b :: 0 <= a < b < |tasks| ==> tasks[a].id != tasks[b].id
    ensures var r := ScheduleAll(jobs, tasks, parseTime, now);
      var run := TaskRunTime(tasks[i], parseTime, now);
      (TaskJobId(tasks[i].id) in r <==> run.Some?)
      && (run.Some? ==> r[TaskJobId(tasks[i].id)] == Job(At(run.value), RunTask(tasks[i])))
    decreases |tasks|
  {
    var next := if Tasks.IsEnabled(tasks[0]) then ScheduleTask(jobs, tasks[0], parseTime, now) else jobs;
    var rest := tasks[1..];
    if i > 0 {
      assert rest[i - 1] == tasks[i];
      ScheduleAllComplete(next, rest, parseTime, now, i - 1);
    } else {
      forall j | 0 <= j < |rest| && Tasks.IsEnabled(rest[j])
        ensures TaskJobId(tasks[0].id) != TaskJobId(rest[j].id)
      {
        assert rest[j] == tasks[j + 1];
        JobIdsDistinct("", tasks[0].id, rest[j].id);
      }
      ScheduleAllKeeps(next, rest, parseTime, now, TaskJobId(tasks[0].id));
    }
  }

  /** A job `ScheduleAll` adds: a one-shot job, not in the past, running
      an enabled task whose job id it carries. */
  predicate IsTaskJob(k: string, job: Job, now: int) {
    job.trigger.At? && job.trigger.time >= now && job.action.RunTask?
    && TaskJobId(job.action.task.id) == k && Tasks.IsEnabled(job.action.task)
  }

  /** Every job after the task loop was there before, unchanged, or is a
      task job for an enabled task that is not in the past. */
  lemma {:induction false} ScheduledTasksAreFuture(jobs: JobTable, tasks: seq<Tasks.Task>,
                                                   parseTime: string -> Option<int>, now: int)
    ensures var r := ScheduleAll(jobs, tasks, parseTime, now);
      forall k :: k in r ==> (k in jobs && r[k] == jobs[k]) || IsTaskJob(k, r[k], now)
    decreases |tasks|
  {
    if |tasks| > 0 {
      var next := if Tasks.IsEnabled(tasks[0]) then ScheduleTask(jobs, tasks[0], parseTime, now) else jobs;
      ScheduledTasksAreFuture(next, tasks[1..], parseTime, now);
      var r := ScheduleAll(jobs, tasks, parseTime, now);
      forall k | k in r ensures (k in jobs && r[k] == jobs[k]) || IsTaskJob(k, r[k], now) {
        if k in next && r[k] == next[k] && Tasks.IsEnabled(tasks[0]) && k == TaskJobId(tasks[0].id) {
          assert IsTaskJob(k, next[k], now);
        } else if k in next && r[k] == next[k] && Tasks.IsEnabled(tasks[0]) {
          assert k in next - {TaskJobId(tasks[0].id)};
        }
      }
    }
  }

  /** `_trigger_task`: the task event, when a callback is registered. The
      content is the stored `ai_prompt` whenever that key exists, even when
      it holds null or "", and the message only when the key is missing. */
  function TaskEvent(task: Tasks.Task, hasCallback: bool): (r: Option<AIEvent>)
    ensures r.Some? <==> hasCallback
    ensures r.Some? ==> r.value.roleId == task.roleId && r.value.eventType == Task
    ensures r.Some? ==> ContextValue(r.value, "task_id") == Some(task.id)
    ensures r.Some? && task.aiPrompt.Some? ==> r.value.content == task.aiPrompt.value
    ensures r.Some? && task.aiPrompt.None? ==> r.value.content == Some(task.message)
  {
    if !hasCallback then None
    else
      var content := if task.aiPrompt.Some? then task.aiPrompt.value else Some(task.message);
      Some(AIEvent(task.roleId, Task, content, Some(map["task_id" := task.id])))
  }

  /** The chance, per check, that some role posts a moment. */
  const MomentChance: real := 0.3

  /** `_check_moment_posts`: with a callback and at least one profile on
      disk, a draw below 0.3 makes the role picked by `pick` post a moment.
      `roles` are the profiles found (none when the roles directory is
      missing). */
  function MomentTick(roles: seq<RoleProfile>, hasCallback: bool, draw: real, pick: nat): (r: Option<AIEvent>)
    ensures r.Some? <==> hasCallback && |roles| > 0 && draw < MomentChance
    ensures r.Some? ==> r.value.eventType == MomentPost && ContentOrEmpty(r.value) == ""
                        && exists i :: 0 <= i < |roles| && r.value.roleId == roles[i].id
  {
    if !hasCallback || |roles| == 0 || !(draw < MomentChance) then None
    else
      var i := pick % |roles|;
      Some(AIEvent(roles[i].id, MomentPost, Some(""), Some(map[])))
  }

  /** Every role can be the one that posts. */
  lemma MomentTickCovers(roles: seq<RoleProfile>, i: nat)
    requires i < |roles|
    ensures MomentTick(roles, true, 0.0, i).Some? && MomentTick(roles, true, 0.0, i).value.roleId == roles[i].id
  {
    DivModOf(i, 0, i, |roles|);
  }

  /** The job `_init_moment_jobs` registers (replacing any earlier one). */
  const MomentCheckJob: Job := Job(Every(MomentCheckPeriod), CheckMoments)

  /** The scheduler: whether it runs, and its jobs. */
  datatype SchedulerState = SchedulerState(running: bool, jobs: JobTable)

  /** What `start_scheduler` leaves: the state, and whether an exception
      escaped the start-up. */
  datatype Started = Started(state: SchedulerState, raised: bool)

  /** `start_scheduler`: a running scheduler is left alone. Otherwise it
      starts, then schedules the roles, then the tasks, then the moment
      check; an exception in the role loop escapes and skips the rest. */
  function StartScheduler(s: SchedulerState, roleIds: seq<string>, profileOf: string -> Option<RoleProfile>,
                          draws: string -> nat, tasks: Option<seq<Tasks.Task>>,
                          parseTime: string -> Option<int>, now: int): (r: Started)
    ensures s.running ==> r == Started(s, false)
    ensures r.state.running
    ensures !s.running ==>
      var proactive := InitProactiveJobs(s.jobs, roleIds, profileOf, draws, now);
      && r.raised == proactive.raised
      && (r.raised ==> r.state.jobs == proactive.jobs)
      && (!r.raised ==> MomentCheckId in r.state.jobs && r.state.jobs[MomentCheckId] == MomentCheckJob)
      && (!r.raised ==>
            r.state.jobs == InitScheduledTasks(proactive.jobs, tasks, parseTime, now)[MomentCheckId := MomentCheckJob])
  {
    if s.running then Started(s, false)
    else
      var proactive := InitProactiveJobs(s.jobs, roleIds, profileOf, draws, now);
      if proactive.raised then Started(SchedulerState(true, proactive.jobs), true)
      else
        var withTasks := InitScheduledTasks(proactive.jobs, tasks, parseTime, now);
        Started(SchedulerState(true, withTasks[MomentCheckId := MomentCheckJob]), false)
  }

  /** `stop_scheduler`: a running scheduler stops; its jobs stay. */
  function StopScheduler(s: SchedulerState): (r: SchedulerState)
    ensures !r.running && r.jobs == s.jobs
  {
    s.(running := false)
  }

  /** What `get_scheduler_status` answers (without the next run times,
      which the scheduler library computes). */
  datatype JobStatus = JobStatus(running: bool, jobCount: nat, jobIds: set<string>)

  function GetSchedulerStatus(s: SchedulerState): (r: JobStatus)
    ensures r.running == s.running && r.jobIds == s.jobs.Keys && r.jobCount == |s.jobs.Keys|
  {
    JobStatus(s.running, |s.jobs.Keys|, s.jobs.Keys)
  }

  /** The table holds the role's proactive job exactly when its plan (with
      the quiet test as written) fires, at that time. */
  predicate RoleJobScheduled(jobs: JobTable, roleId: string, profileOf: string -> Option<RoleProfile>,
                             draws: string -> nat, now: int) {
    var p := ProactivePlanAsWritten(profileOf(roleId), draws(roleId), now);
    (ProactiveJobId(roleId) in jobs <==> p.FireAt?)
    && (p.FireAt? ==> jobs[ProactiveJobId(roleId)] == Job(At(p.time), ProactiveFor(roleId)))
  }

  /** A start that raises nothing schedules all three kinds: each role has
      exactly its plan's job, each enabled task (ids distinct) exactly its
      run-time job, and the moment check is registered. */
  lemma CleanStartSchedulesAll(s: SchedulerState, roleIds: seq<string>, profileOf: string -> Option<RoleProfile>,
                               draws: string -> nat, tasks: Option<seq<Tasks.Task>>,
                               parseTime: string -> Option<int>, now: int)
    requires !s.running
    requires !StartScheduler(s, roleIds, profileOf, draws, tasks, parseTime, now).raised
    ensures var jobs := StartScheduler(s, roleIds, profileOf, draws, tasks, parseTime, now).state.jobs;
      && (forall i :: 0 <= i < |roleIds| ==> RoleJobScheduled(jobs, roleIds[i], profileOf, draws, now))
      && (tasks.Some? && DistinctTaskIds(tasks.value) ==>
            forall i :: 0 <= i < |tasks.value| && Tasks.IsEnabled(tasks.value[i]) ==>
              TaskJobScheduled(jobs, tasks.value[i], parseTime, now))
      && MomentCheckId in jobs && jobs[MomentCheckId] == MomentCheckJob
  {
    var proactive := InitProactiveJobs(s.jobs, roleIds, profileOf, draws, now);
    var withTasks := InitScheduledTasks(proactive.jobs, tasks, parseTime, now);
    var jobs := withTasks[MomentCheckId := MomentCheckJob];
    forall i | 0 <= i < |roleIds| ensures RoleJobScheduled(jobs, roleIds[i], profileOf, draws, now) {
      RoleSurvivesTasks(proactive.jobs, roleIds[i], tasks, parseTime, now);
      JobIdsDistinct(roleIds[i], "", "");
      InitProactiveJobsComplete(s.jobs, roleIds, profileOf, draws, now, i);
    }
    if tasks.Some? && DistinctTaskIds(tasks.value) {
      forall i | 0 <= i < |tasks.value| && Tasks.IsEnabled(tasks.value[i])
        ensures TaskJobScheduled(jobs, tasks.value[i], parseTime, now)
      {
        JobIdsDistinct("", tasks.value[i].id, "");
      }
    }
  }

  /** The task loop neither adds nor changes a role's proactive job. */
  lemma RoleSurvivesTasks(jobs: JobTable, roleId: string, tasks: Option<seq<Tasks.Task>>,
                          parseTime: string -> Option<int>, now: int)
    ensures var r := InitScheduledTasks(jobs, tasks, parseTime, now);
      var k := ProactiveJobId(roleId);
      (k in r <==> k in jobs) && (k in jobs ==> r[k] == jobs[k])
  {
    var k := ProactiveJobId(roleId);
    var r := InitScheduledTasks(jobs, tasks, parseTime, now);
    if tasks.Some? && NamesEnabledTask(tasks.value, k) {
      var i :| 0 <= i < |tasks.value| && Tasks.IsEnabled(tasks.value[i]) && k == TaskJobId(tasks.value[i].id);
      JobIdsDistinct(roleId, tasks.value[i].id, "");
    }
    if k in r && IsTaskJob(k, r[k], now) {
      JobIdsDistinct(roleId, r[k].action.task.id, "");
    }
  }

  /** A clean start on an empty scheduler with no roles and no task file
      leaves exactly the moment check. */
  lemma FreshStartHasMomentCheck(profileOf: string -> Option<RoleProfile>, draws: string -> nat,
                                 parseTime: string -> Option<int>, now: int)
    ensures var r := StartScheduler(SchedulerState(false, map[]), [], profileOf, draws, None, parseTime, now);
      !r.raised && GetSchedulerStatus(r.state) == JobStatus(true, 1, {MomentCheckId})
  {
    var r := StartScheduler(SchedulerState(false, map[]), [], profileOf, draws, None, parseTime, now);
    assert r.state.jobs == map[MomentCheckId := MomentCheckJob];
    assert r.state.jobs.Keys == {MomentCheckId};
  }
}

=== FILE: search.dfy ===
/** The web-search relevance gate and the formatter that turns search hits
    into context text (`services/search_service.py`). The search itself is
    a network call and is not part of this model. */
module Search {
  import opened Text
  import opened Seqs
  import opened Common

  /** Keywords that make any message a search request, matched against the
      lower-cased message, in the groups of `search_service.py`. */
  const DirectTriggers: seq<string> := ["搜索", "查一下", "查询", "帮我查", "百度", "谷歌", "google", "搜一下"]
  const TimelyTriggers: seq<string> := ["最新", "新闻", "今天", "昨天", "现在", "目前", "最近", "刚刚", "发生了什么"]
  const KnowledgeTriggers: seq<string> := ["什么是", "是什么", "怎么样", "如何", "怎样", "了解"]
  const PriceTriggers: seq<string> := ["天气", "股票", "价格", "多少钱", "汇率"]
  const PlaceTriggers: seq<string> := ["谁是", "哪个", "哪里", "在哪"]
  const ShowTriggers: seq<string> := ["电影", "电视剧", "综艺", "动漫", "番剧", "歌曲", "专辑"]
  const ReleaseTriggers: seq<string> := ["上映", "播出", "首播", "票房", "评分", "豆瓣"]
  const OpinionTriggers: seq<string> := ["看过", "听过", "推荐"]
  const TechTriggers: seq<string> := ["发布", "上市", "更新", "版本", "配置", "参数"]
  const SportsTriggers: seq<string> := ["比赛", "赛事", "比分", "冠军"]
  const EnglishTriggers: seq<string> := ["search", "look up", "find", "latest", "newest", "recent"]

  /** All groups, in the service's order. */
  const SearchTriggers: seq<string> :=
    DirectTriggers + (TimelyTriggers + (KnowledgeTriggers + (PriceTriggers + (PlaceTriggers
    + (ShowTriggers + (ReleaseTriggers + (OpinionTriggers + (TechTriggers + (SportsTriggers + EnglishTriggers)))))))))

  /** No keyword is empty (an empty one would match every message). */
  predicate AllNonEmpty(words: seq<string>) {
    forall k :: 0 <= k < |words| ==> words[k] != ""
  }

  /** Words that make a question a search request, matched against the
      message as written. */
  const EntityHints: seq<string> := ["谁", "什么", "哪", "几", "多少", "怎么", "为什么", "如何", "有没有", "是不是"]

  /** The stripped message ends in a full-width or ASCII question mark. */
  predicate IsQuestion(message: string) {
    EndsWith(Strip(message), "？") || EndsWith(Strip(message), "?")
  }

  /** The decision `should_search` makes, for any keyword lists: a
      trigger anywhere in the lower-cased message decides it, whatever the
      punctuation; failing that, a question that mentions a hint. */
  function SearchDecision(message: string, triggers: seq<string>, hints: seq<string>): (r: bool)
    ensures (exists k :: 0 <= k < |triggers| && Contains(Lower(message), triggers[k])) ==> r
    ensures !(exists k :: 0 <= k < |triggers| && Contains(Lower(message), triggers[k])) ==>
      (r <==> IsQuestion(message) && exists k :: 0 <= k < |hints| && Contains(message, hints[k]))
  {
    if ContainsAny(Lower(message), triggers) then true
    else IsQuestion(message) && ContainsAny(message, hints)
  }

  /** `should_search`, with the service's keyword lists. */
  function ShouldSearch(message: string): (r: bool)
    ensures (exists k :: 0 <= k < |SearchTriggers| && Contains(Lower(message), SearchTriggers[k])) ==> r
    ensures !(exists k :: 0 <= k < |SearchTriggers| && Contains(Lower(message), SearchTriggers[k])) ==>
      (r <==> IsQuestion(message) && exists k :: 0 <= k < |EntityHints| && Contains(message, EntityHints[k]))
  {
    SearchDecision(message, SearchTriggers, EntityHints)
  }

  /** Lower-casing works piece by piece. */
  lemma {:induction false} LowerConcat(a: string, b: string)
    ensures Lower(a + b) == Lower(a) + Lower(b)
    decreases |a|
  {
    if |a| == 0 {
      assert a + b == b;
    } else {
      assert (a + b)[0] == a[0];
      assert (a + b)[1..] == a[1..] + b;
      LowerConcat(a[1..], b);
    }
  }

  /** A message that asks for a search still does so inside any longer
      text: the keyword test does not depend on what surrounds it. */
  lemma TriggerSurvivesContext(before: string, message: string, after: string, k: int)
    requires 0 <= k < |SearchTriggers| && Contains(Lower(message), SearchTriggers[k])
    ensures ShouldSearch(before + message + after)
  {
    LowerConcat(before, message);
    LowerConcat(before + message, after);
    ContainsInConcat(Lower(before), Lower(message), Lower(after), SearchTriggers[k]);
  }

  /** Any keyword found in the lower-cased message asks for a search. */
  lemma TriggerDecides(message: string, k: int)
    requires 0 <= k < |SearchTriggers| && Contains(Lower(message), SearchTriggers[k])
    ensures ShouldSearch(message)
  {
  }

  /** Upper-case keywords count: "GOOGLE" asks for a search just as "google" does. */
  lemma UpperCaseTrigger()
    ensures ShouldSearch("GOOGLE")
  {
    GoogleLowered();
    GoogleIsTrigger();
    assert OccursAt("google", "google", 0);
    TriggerDecides("GOOGLE", 6);
  }

  lemma GoogleLowered()
    ensures Lower("GOOGLE") == "google"
  {
    assert "E"[1..] == "" && "LE"[1..] == "E" && "GLE"[1..] == "LE";
    assert "OGLE"[1..] == "GLE" && "OOGLE"[1..] == "OGLE" && "GOOGLE"[1..] == "OOGLE";
    assert Lower("E") == "e";
    assert Lower("LE") == "le";
    assert Lower("GLE") == "gle";
    assert Lower("OGLE") == "ogle";
    assert Lower("OOGLE") == "oogle";
  }

  lemma GoogleIsTrigger()
    ensures 6 < |SearchTriggers| && SearchTriggers[6] == "google"
  {
    assert SearchTriggers[6] == DirectTriggers[6];
  }

  /** Non-empty keywords stay non-empty when lists are joined. */
  lemma NonEmptyJoin(a: seq<string>, b: seq<string>)
    requires AllNonEmpty(a) && AllNonEmpty(b)
    ensures AllNonEmpty(a + b)
  {
    assert forall k :: |a| <= k < |a + b| ==> (a + b)[k] == b[k - |a|];
  }

  /** None of the service's keywords is empty. */
  lemma TriggersNonEmpty()
    ensures AllNonEmpty(SearchTriggers)
  {
    NonEmptyJoin(SportsTriggers, EnglishTriggers);
    NonEmptyJoin(TechTriggers, SportsTriggers + EnglishTriggers);
    NonEmptyJoin(OpinionTriggers, TechTriggers + (SportsTriggers + EnglishTriggers));
    NonEmptyJoin(ReleaseTriggers, OpinionTriggers + (TechTriggers + (SportsTriggers + EnglishTriggers)));
    var tail := ReleaseTriggers + (OpinionTriggers + (TechTriggers + (SportsTriggers + EnglishTriggers)));
    NonEmptyJoin(ShowTriggers, tail);
    NonEmptyJoin(PlaceTriggers, ShowTriggers + tail);
    NonEmptyJoin(PriceTriggers, PlaceTriggers + (ShowTriggers + tail));
    NonEmptyJoin(KnowledgeTriggers, PriceTriggers + (PlaceTriggers + (ShowTriggers + tail)));
    NonEmptyJoin(TimelyTriggers, KnowledgeTriggers + (PriceTriggers + (PlaceTriggers + (ShowTriggers + tail))));
    NonEmptyJoin(DirectTriggers, TimelyTriggers + (KnowledgeTriggers + (PriceTriggers + (PlaceTriggers + (ShowTriggers + tail)))));
  }

  /** With non-empty keywords, the empty message asks for no search. */
  lemma EmptyNeverSearches(triggers: seq<string>, hints: seq<string>)
    requires AllNonEmpty(triggers)
    ensures !SearchDecision("", triggers, hints)
  {
    assert Lower("") == "";
    forall k | 0 <= k < |triggers| ensures !Contains("", triggers[k]) {
      assert triggers[k] != "";
    }
    assert Strip("") == "";
  }

  /** The empty message never asks for a search. */
  lemma EmptyMessageNoSearch()
    ensures !ShouldSearch("")
  {
    TriggersNonEmpty();
    EmptyNeverSearches(SearchTriggers, EntityHints);
  }

  /** A question that mentions an entity hint asks for a search, whatever
      else it contains. */
  lemma HintedQuestionSearches(message: string, k: int)
    requires IsQuestion(message) && 0 <= k < |EntityHints| && Contains(message, EntityHints[k])
    ensures ShouldSearch(message)
  {
  }

  /** "你是谁？" is such a question. */
  lemma QuestionWithHint()
    ensures ShouldSearch("你是谁？")
  {
    QuestionMarkEnds();
    HintOccurs();
    HintedQuestionSearches("你是谁？", 0);
  }

  lemma QuestionMarkEnds()
    ensures IsQuestion("你是谁？")
  {
    var m := "你是谁？";
    assert !IsSpace(m[0]) && !IsSpace(m[|m| - 1]);
    assert StripStart(m) == m;
    assert StripEnd(m) == m;
    assert m[|m| - 1..] == "？";
  }

  lemma HintOccurs()
    ensures Contains("你是谁？", EntityHints[0])
  {
    var m := "你是谁？";
    assert m[2..3] == "谁" == EntityHints[0];
    assert OccursAt(m, EntityHints[0], 2);
  }

  /** One search hit; either field may be missing. */
  datatype SearchHit = SearchHit(title: Option<string>, body: Option<string>)

  const ResultsHeader: string := "[联网搜索结果]"
  const ResultsInstruction: string :=
    "请根据以上搜索结果，结合你的角色人设自然地回答用户的问题。不要直接罗列搜索结果，而是消化后用自己的话回答。"
  /** What precedes a non-empty body on its own line. */
  const BodyIndent: string := "   "

  function TitleOf(h: SearchHit): string { h.title.GetOr("") }
  function BodyOf(h: SearchHit): string { h.body.GetOr("") }
  predicate HasBody(h: SearchHit) { BodyOf(h) != "" }

  /** The lines for one hit numbered `n`: its title line, then its body
      line when the body is non-empty. */
  function HitLines(h: SearchHit, n: nat): seq<string> {
    [NatToString(n) + ". " + TitleOf(h)] + (if HasBody(h) then [BodyIndent + BodyOf(h)] else [])
  }

  /** The lines for `hits`, numbered from `first`. */
  function HitsLines(hits: seq<SearchHit>, first: nat): seq<string>
    decreases |hits|
  {
    if |hits| == 0 then [] else HitLines(hits[0], first) + HitsLines(hits[1..], first + 1)
  }

  /** How many of the first `k` hits have a body line. */
  function BodiesBefore(hits: seq<SearchHit>, k: int): nat
    requires 0 <= k <= |hits|
  {
    CountWhere(hits[..k], HasBody)
  }

  /** Where each hit lands: hit `k` (0-based) has its title line, numbered
      `first + k`, after `k` earlier title lines and the earlier hits' body
      lines, and its body line (if any) right after it. */
  lemma {:induction false} HitsLinesAt(hits: seq<SearchHit>, first: nat, k: int)
    requires 0 <= k < |hits|
    ensures var at := k + BodiesBefore(hits, k);
      && at < |HitsLines(hits, first)|
      && HitsLines(hits, first)[at] == NatToString(first + k) + ". " + TitleOf(hits[k])
      && (HasBody(hits[k]) ==> at + 1 < |HitsLines(hits, first)|
                               && HitsLines(hits, first)[at + 1] == BodyIndent + BodyOf(hits[k]))
    decreases k
  {
    var head := HitLines(hits[0], first);
    var tail := HitsLines(hits[1..], first + 1);
    assert HitsLines(hits, first) == head + tail;
    if k > 0 {
      HitsLinesAt(hits[1..], first + 1, k - 1);
      assert hits[..k][1..] == hits[1..][..k - 1];
      assert hits[..k][0] == hits[0];
      assert BodiesBefore(hits, k) == |head| - 1 + BodiesBefore(hits[1..], k - 1);
      assert hits[1..][k - 1] == hits[k];
    } else {
      assert hits[..0] == [];
    }
  }

  /** Every hit contributes one title line and one body line per
      non-empty body. */
  lemma {:induction false} HitsLinesLength(hits: seq<SearchHit>, first: nat)
    ensures |HitsLines(hits, first)| == |hits| + BodiesBefore(hits, |hits|)
    decreases |hits|
  {
    assert hits[..|hits|] == hits;
    if |hits| > 0 {
      HitsLinesLength(hits[1..], first + 1);
      assert hits[1..][..|hits| - 1] == hits[1..];
    }
  }

  /** The lines `format_search_results` joins: the header, the numbered
      hits, a blank line and the closing instruction. */
  function ResultLines(hits: seq<SearchHit>): (lines: seq<string>)
    ensures |lines| == 3 + |hits| + BodiesBefore(hits, |hits|)
    ensures lines[0] == ResultsHeader
    ensures lines[|lines| - 2] == "" && lines[|lines| - 1] == ResultsInstruction
    ensures forall k :: 0 <= k < |hits| ==>
      1 + k + BodiesBefore(hits, k) < |lines| &&
      lines[1 + k + BodiesBefore(hits, k)] == NatToString(k + 1) + ". " + TitleOf(hits[k])
    ensures forall k :: 0 <= k < |hits| && HasBody(hits[k]) ==>
      2 + k + BodiesBefore(hits, k) < |lines| &&
      lines[2 + k + BodiesBefore(hits, k)] == BodyIndent + BodyOf(hits[k])
  {
    var body := HitsLines(hits, 1);
    HitsLinesLength(hits, 1);
    forall k | 0 <= k < |hits|
      ensures 1 + k + BodiesBefore(hits, k) < 1 + |body|
      ensures ([ResultsHeader] + body)[1 + k + BodiesBefore(hits, k)] == NatToString(k + 1) + ". " + TitleOf(hits[k])
      ensures HasBody(hits[k]) ==> 2 + k + BodiesBefore(hits, k) < 1 + |body| && ([ResultsHeader] + body)[2 + k + BodiesBefore(hits, k)] == BodyIndent + BodyOf(hits[k])
    {
      HitsLinesAt(hits, 1, k);
    }
    [ResultsHeader] + body + ["", ResultsInstruction]
  }

  /** `format_search_results`: "" for no hits, otherwise the result lines
      joined by newlines. */
  function FormatSearchResults(hits: seq<SearchHit>): (r: string)
    ensures |hits| == 0 <==> r == ""
    ensures |hits| > 0 ==> r == Join(ResultLines(hits), "\n")
  {
    if |hits| == 0 then ""
    else
      var lines := ResultLines(hits);
      JoinNonEmpty(lines, "\n");
      Join(lines, "\n")
  }

  /** Joining lines the last of which is non-empty gives a non-empty text. */
  lemma {:induction false} JoinNonEmpty(parts: seq<string>, sep: string)
    requires |parts| > 0 && parts[|parts| - 1] != ""
    ensures Join(parts, sep) != ""
    decreases |parts|
  {
    if |parts| > 1 {
      JoinNonEmpty(parts[1..], sep);
    }
  }
}

=== FILE: seqs.dfy ===
/** List comprehensions over stored records: filtering, counting, and the
    stable sort Python's `list.sort(key=...)` performs on string keys. */
module Seqs {
  import opened Common

  /** The index of the first item passing `p`, as the endpoints' `for`
      loops that stop at the first match find it. */
  function FirstIndex<T>(s: seq<T>, p: T -> bool): (k: Option<nat>)
    ensures k.None? <==> forall i :: 0 <= i < |s| ==> !p(s[i])
    ensures k.Some? ==> k.value < |s| && p(s[k.value])
                        && forall i :: 0 <= i < k.value ==> !p(s[i])
  {
    if |s| == 0 then None
    else if p(s[0]) then Some(0)
    else
      var rest := FirstIndex(s[1..], p);
      if rest.None? then None else Some(rest.value + 1)
  }

  /** An item passing the test, preceded by none, is what `FirstIndex`
      finds. */
  lemma FirstIndexIsFirst<T>(s: seq<T>, p: T -> bool, k: nat)
    requires k < |s| && p(s[k])
    requires forall i :: 0 <= i < k ==> !p(s[i])
    ensures FirstIndex(s, p) == Some(k)
  {
    var r := FirstIndex(s, p);
    assert r.Some?;
    assert p(s[r.value]);
  }

  /** `[x for x in s if p(x)]` */
  function Filter<T>(s: seq<T>, p: T -> bool): (r: seq<T>)
    ensures |r| <= |s|
    ensures forall i :: 0 <= i < |r| ==> r[i] in s && p(r[i])
    ensures forall i :: 0 <= i < |s| && p(s[i]) ==> s[i] in r
  {
    if |s| == 0 then []
    else if p(s[0]) then [s[0]] + Filter(s[1..], p)
    else Filter(s[1..], p)
  }

  /** `len([x for x in s if p(x)])` */
  function CountWhere<T>(s: seq<T>, p: T -> bool): (n: nat)
    ensures n <= |s|
  {
    if |s| == 0 then 0
    else (if p(s[0]) then 1 else 0) + CountWhere(s[1..], p)
  }

  /** Filtering keeps the kept items in their original order: it
      distributes over concatenation. */
  lemma {:induction false} FilterConcat<T>(a: seq<T>, b: seq<T>, p: T -> bool)
    ensures Filter(a + b, p) == Filter(a, p) + Filter(b, p)
    decreases |a|
  {
    if |a| == 0 {
      assert a + b == b;
    } else {
      assert (a + b)[1..] == a[1..] + b;
      FilterConcat(a[1..], b, p);
    }
  }

  /** The kept items and the dropped items add up to the whole list. */
  lemma {:induction false} FilterCount<T>(s: seq<T>, p: T -> bool)
    ensures |Filter(s, p)| == CountWhere(s, p)
    ensures |Filter(s, p)| + CountWhere(s, x => !p(x)) == |s|
    decreases |s|
  {
    if |s| > 0 {
      FilterCount(s[1..], p);
    }
  }

  /** The kept items and the items a complementary test counts add up to
      the whole list. */
  lemma FilterCountComplement<T>(s: seq<T>, p: T -> bool, q: T -> bool)
    requires forall i :: 0 <= i < |s| ==> q(s[i]) == !p(s[i])
    ensures |Filter(s, p)| + CountWhere(s, q) == |s|
  {
    FilterCount(s, p);
    CountWhereSame(s, x => !p(x), q);
  }

  /** Counting depends only on what the test says about the items. */
  lemma {:induction false} CountWhereSame<T>(s: seq<T>, p: T -> bool, q: T -> bool)
    requires forall i :: 0 <= i < |s| ==> p(s[i]) == q(s[i])
    ensures CountWhere(s, p) == CountWhere(s, q)
    decreases |s|
  {
    if |s| > 0 {
      CountWhereSame(s[1..], p, q);
    }
  }

  /** Filtering twice with the same test changes nothing more. */
  lemma {:induction false} FilterIdempotent<T>(s: seq<T>, p: T -> bool)
    ensures Filter(Filter(s, p), p) == Filter(s, p)
    decreases |s|
  {
    if |s| > 0 {
      FilterIdempotent(s[1..], p);
    }
  }

  /** A filter that keeps every item returns the list itself. */
  lemma {:induction false} FilterAll<T>(s: seq<T>, p: T -> bool)
    requires forall i :: 0 <= i < |s| ==> p(s[i])
    ensures Filter(s, p) == s
    decreases |s|
  {
    if |s| > 0 {
      FilterAll(s[1..], p);
    }
  }

  /** Rewriting an item the filter drops, with another it drops, leaves the
      filtered list as it was. */
  lemma FilterUpdateDropped<T>(s: seq<T>, k: nat, x: T, p: T -> bool)
    requires k < |s| && !p(s[k]) && !p(x)
    ensures Filter(s[k := x], p) == Filter(s, p)
  {
    var front, back := s[..k], s[k + 1..];
    assert s == front + [s[k]] + back;
    assert s[k := x] == front + [x] + back;
    assert [x][1..] == [] && [s[k]][1..] == [];
    FilterConcat(front + [s[k]], back, p);
    FilterConcat(front, [s[k]], p);
    FilterConcat(front + [x], back, p);
    FilterConcat(front, [x], p);
  }

  /** Python compares strings by code point, lexicographically. */
  predicate LexLe(a: string, b: string)
    decreases |a|
  {
    |a| == 0 || (|b| > 0 && (a[0] < b[0] || (a[0] == b[0] && LexLe(a[1..], b[1..]))))
  }

  lemma {:induction false} LexLeTotal(a: string, b: string)
    ensures LexLe(a, b) || LexLe(b, a)
    decreases |a|
  {
    if |a| > 0 && |b| > 0 && a[0] == b[0] {
      LexLeTotal(a[1..], b[1..]);
    }
  }

  lemma {:induction false} LexLeTrans(a: string, b: string, c: string)
    requires LexLe(a, b) && LexLe(b, c)
    ensures LexLe(a, c)
    decreases |a|
  {
    if |a| > 0 && |b| > 0 && |c| > 0 && a[0] == b[0] && b[0] == c[0] {
      LexLeTrans(a[1..], b[1..], c[1..]);
    }
  }

  /** The order a sort by `key` wants between two keys: ascending, or
      descending for `reverse=True`. */
  predicate KeyLe(x: string, y: string, descending: bool) {
    if descending then LexLe(y, x) else LexLe(x, y)
  }

  lemma KeyLeTotal(x: string, y: string, descending: bool)
    ensures KeyLe(x, y, descending) || KeyLe(y, x, descending)
  {
    LexLeTotal(x, y);
  }

  lemma KeyLeTrans(x: string, y: string, z: string, descending: bool)
    requires KeyLe(x, y, descending) && KeyLe(y, z, descending)
    ensures KeyLe(x, z, descending)
  {
    if descending { LexLeTrans(z, y, x); } else { LexLeTrans(x, y, z); }
  }

  /** Every item's key is in order with every later item's key. */
  ghost predicate SortedBy<T>(s: seq<T>, key: T -> string, descending: bool) {
    forall i, j :: 0 <= i < j < |s| ==> KeyLe(key(s[i]), key(s[j]), descending)
  }

  /** Where `Insert` puts `x`: before the first item it strictly precedes,
      so it lands after every item with an equal key (stability). */
  function InsertPos<T>(x: T, s: seq<T>, key: T -> string, descending: bool): (p: nat)
    ensures p <= |s|
    ensures forall i :: 0 <= i < p ==> KeyLe(key(s[i]), key(x), descending)
    ensures p < |s| ==> KeyLe(key(x), key(s[p]), descending) && !KeyLe(key(s[p]), key(x), descending)
  {
    if |s| == 0 then 0
    else if KeyLe(key(x), key(s[0]), descending) && !KeyLe(key(s[0]), key(x), descending) then 0
    else
      KeyLeTotal(key(x), key(s[0]), descending);
      1 + InsertPos(x, s[1..], key, descending)
  }

  /** Inserts `x` into a sorted sequence after every item that it does not
      strictly precede; the result is sorted and holds one more `x`. */
  function Insert<T>(x: T, s: seq<T>, key: T -> string, descending: bool): (r: seq<T>)
    requires SortedBy(s, key, descending)
    ensures SortedBy(r, key, descending)
    ensures multiset(r) == multiset(s) + multiset{x}
    ensures |r| == |s| + 1
  {
    var p := InsertPos(x, s, key, descending);
    InsertSorted(x, s, key, descending, p);
    SpliceMultiset(x, s, p);
    s[..p] + [x] + s[p..]
  }

  /** Splicing one item in adds exactly that item to the multiset. */
  lemma SpliceMultiset<T>(x: T, s: seq<T>, p: nat)
    requires p <= |s|
    ensures multiset(s[..p] + [x] + s[p..]) == multiset(s) + multiset{x}
    ensures |s[..p] + [x] + s[p..]| == |s| + 1
  {
    assert s == s[..p] + s[p..];
  }

  /** Splicing `x` in at a position where everything before it is no later
      and the item after it is no earlier keeps a sorted sequence sorted. */
  lemma InsertSorted<T>(x: T, s: seq<T>, key: T -> string, descending: bool, p: nat)
    requires SortedBy(s, key, descending) && p <= |s|
    requires forall i :: 0 <= i < p ==> KeyLe(key(s[i]), key(x), descending)
    requires p < |s| ==> KeyLe(key(x), key(s[p]), descending)
    ensures SortedBy(s[..p] + [x] + s[p..], key, descending)
  {
    var r := s[..p] + [x] + s[p..];
    forall i, j | 0 <= i < j < |r| ensures KeyLe(key(r[i]), key(r[j]), descending) {
      var ri := if i < p then s[i] else if i == p then x else s[i - 1];
      var rj := if j < p then s[j] else if j == p then x else s[j - 1];
      assert r[i] == ri && r[j] == rj;
      if i == p && j > p + 1 {
        KeyLeTrans(key(x), key(s[p]), key(s[j - 1]), descending);
      }
    }
  }

  /** A prefix of a sorted sequence is sorted and holds only items of the
      whole, at most as often. */
  lemma SortedPrefix<T>(s: seq<T>, n: nat, key: T -> string, descending: bool)
    requires SortedBy(s, key, descending) && n <= |s|
    ensures SortedBy(s[..n], key, descending)
    ensures multiset(s[..n]) <= multiset(s)
    ensures forall i :: 0 <= i < n ==> s[i] in multiset(s)
  {
    assert s == s[..n] + s[n..];
    forall i | 0 <= i < n ensures s[i] in multiset(s) {
      assert s[i] in s;
    }
  }

  /** `list.sort(key=key, reverse=descending)`: a stable insertion sort. */
  function Sort<T>(s: seq<T>, key: T -> string, descending: bool): (r: seq<T>)
    ensures SortedBy(r, key, descending)
    ensures multiset(r) == multiset(s)
    ensures |r| == |s|
  {
    if |s| == 0 then []
    else
      var init := s[..|s| - 1];
      assert s == init + [s[|s| - 1]];
      Insert(s[|s| - 1], Sort(init, key, descending), key, descending)
  }

  /** Items after the insertion point have keys strictly after `x`'s, so
      none of them shares `x`'s key. */
  lemma AfterInsertPos<T>(x: T, s: seq<T>, key: T -> string, descending: bool, j: nat)
    requires SortedBy(s, key, descending)
    requires InsertPos(x, s, key, descending) <= j < |s|
    ensures key(s[j]) != key(x)
  {
    var p := InsertPos(x, s, key, descending);
    if j > p {
      assert KeyLe(key(s[p]), key(s[j]), descending);
    }
  }

  /** Filtering an insertion filters the part before the insertion point,
      `x`, and the part after it. */
  lemma FilterInsert<T>(x: T, s: seq<T>, key: T -> string, descending: bool, same: T -> bool)
    requires SortedBy(s, key, descending)
    ensures var p := InsertPos(x, s, key, descending);
      && Filter(Insert(x, s, key, descending), same)
         == Filter(s[..p], same) + Filter([x], same) + Filter(s[p..], same)
      && Filter(s, same) == Filter(s[..p], same) + Filter(s[p..], same)
  {
    var p := InsertPos(x, s, key, descending);
    var front, back := s[..p], s[p..];
    assert s == front + back;
    FilterConcat(front + [x], back, same);
    FilterConcat(front, [x], same);
    FilterConcat(front, back, same);
  }

  /** When `x` has the key, nothing after its insertion point does. */
  lemma NoneSameAfter<T>(x: T, s: seq<T>, key: T -> string, descending: bool, same: T -> bool, k: string)
    requires SortedBy(s, key, descending)
    requires forall y :: same(y) <==> key(y) == k
    requires same(x)
    ensures Filter(s[InsertPos(x, s, key, descending)..], same) == []
  {
    var p := InsertPos(x, s, key, descending);
    var back := s[p..];
    forall i | 0 <= i < |back| ensures !same(back[i]) {
      AfterInsertPos(x, s, key, descending, p + i);
    }
    FilterNone(back, same);
  }

  /** Inserting `x` puts it after every item sharing its key. */
  lemma InsertStable<T>(x: T, s: seq<T>, key: T -> string, descending: bool, same: T -> bool, k: string)
    requires SortedBy(s, key, descending)
    requires forall y :: same(y) <==> key(y) == k
    ensures Filter(Insert(x, s, key, descending), same) == Filter(s, same) + Filter([x], same)
  {
    var p := InsertPos(x, s, key, descending);
    var f, m, b := Filter(s[..p], same), Filter([x], same), Filter(s[p..], same);
    var r := Filter(Insert(x, s, key, descending), same);
    assert r == f + m + b && Filter(s, same) == f + b by {
      FilterInsert(x, s, key, descending, same);
    }
    if same(x) {
      assert b == [] by {
        NoneSameAfter(x, s, key, descending, same, k);
      }
      assert f + b == f && f + m + b == f + m;
    } else {
      assert m == [] by {
        assert [x][1..] == [];
      }
      assert f + m == f && f + b + m == f + b;
    }
  }

  /** The sort is stable: the items sharing any one key come out in the
      order they went in. */
  lemma {:induction false} SortStable<T>(s: seq<T>, key: T -> string, descending: bool,
                                         same: T -> bool, k: string)
    requires forall x :: same(x) <==> key(x) == k
    ensures Filter(Sort(s, key, descending), same) == Filter(s, same)
    decreases |s|
  {
    if |s| > 0 {
      var init, last := s[..|s| - 1], s[|s| - 1];
      assert s == init + [last];
      SortStable(init, key, descending, same, k);
      InsertStable(last, Sort(init, key, descending), key, descending, same, k);
      FilterConcat(init, [last], same);
    }
  }

  /** A filter that keeps no item returns nothing. */
  lemma {:induction false} FilterNone<T>(s: seq<T>, p: T -> bool)
    requires forall i :: 0 <= i < |s| ==> !p(s[i])
    ensures Filter(s, p) == []
    decreases |s|
  {
    if |s| > 0 {
      FilterNone(s[1..], p);
    }
  }
}

=== FILE: settings.dfy ===
/** Global settings (`services/settings_service.py`) and their endpoints
    (`routers/settings.py`): the defaults overlaid with `config/settings.json`,
    merge-on-save, the AI configuration view, API-key masking, the update
    filter, and the model-list URL and filter. The file is a value; the
    model-list fetch is an oracle. */
module Settings {
  import opened Common
  import opened Text
  import opened Seqs

  /** A JSON value as the settings hold them. */
  datatype Value = Null | Str(s: string) | Num(n: int)

  /** Python truthiness. */
  predicate Truthy(v: Value) {
    match v
    case Null => false
    case Str(s) => s != ""
    case Num(n) => n != 0
  }

  type Settings = map<string, Value>

  const UpdatedAt: string := "updated_at"

  /** `get_default_settings` */
  const Defaults: Settings := map[
    "host" := Str("0.0.0.0"),
    "port" := Num(8000),
    "ai_api_url" := Str(""),
    "ai_api_key" := Str(""),
    "ai_model" := Str("gpt-3.5-turbo"),
    UpdatedAt := Null]

  /** The settings file: missing, unreadable (not JSON, or not an object),
      or holding an object. */
  datatype SettingsFile = Missing | Unreadable | Saved(content: Settings)

  /** `load_settings`: every default key is present; a saved key wins over
      its default; a file that cannot be read yields the defaults. */
  function LoadSettings(f: SettingsFile): (r: Settings)
    ensures Defaults.Keys <= r.Keys
    ensures f.Saved? ==> (r.Keys == Defaults.Keys + f.content.Keys
                          && forall k :: k in f.content ==> r[k] == f.content[k])
    ensures forall k :: k in Defaults && !(f.Saved? && k in f.content) ==> r[k] == Defaults[k]
    ensures !f.Saved? ==> r == Defaults
  {
    if f.Saved? then Defaults + f.content else Defaults
  }

  /** What `save_settings` leaves: whether it reported success, and the file. */
  datatype SaveResult = SaveResult(ok: bool, file: SettingsFile)

  /** `save_settings`: the updates are merged over the current settings and
      stamped with `updated_at`; reading the file back gives exactly that.
      When the file cannot be written it answers false and the file stays. */
  function SaveSettings(f: SettingsFile, updates: Settings, now: Clock, writable: bool): (r: SaveResult)
    ensures r.ok <==> writable
    ensures !writable ==> r.file == f
    ensures writable ==>
      var before := LoadSettings(f);
      var after := LoadSettings(r.file);
      && after.Keys == before.Keys + updates.Keys
      && after[UpdatedAt] == Str(now.iso)
      && (forall k :: k in updates && k != UpdatedAt ==> after[k] == updates[k])
      && (forall k :: k in before && k !in updates && k != UpdatedAt ==> after[k] == before[k])
  {
    if !writable then SaveResult(false, f)
    else
      var merged := (LoadSettings(f) + updates)[UpdatedAt := Str(now.iso)];
      assert Defaults.Keys <= merged.Keys;
      SaveResult(true, Saved(merged))
  }

  /** Saving the same updates twice leaves what saving once leaves, up to
      the time stamp. */
  lemma SaveTwice(f: SettingsFile, updates: Settings, now: Clock, later: Clock)
    ensures var once := SaveSettings(f, updates, now, true).file;
      SaveSettings(once, updates, later, true).file == Saved(LoadSettings(once)[UpdatedAt := Str(later.iso)])
  {
    var once := SaveSettings(f, updates, now, true).file;
    var l := LoadSettings(once);
    assert forall k :: k in updates && k != UpdatedAt ==> k in l && l[k] == updates[k];
    OverlayAbsorbed(l, updates, UpdatedAt, Str(later.iso));
  }

  /** Overlaying entries a map already holds, then setting `key`, is just
      setting `key`. */
  lemma OverlayAbsorbed(l: Settings, u: Settings, key: string, v: Value)
    requires forall k :: k in u && k != key ==> k in l && l[k] == u[k]
    ensures (l + u)[key := v] == l[key := v]
  {
    var a := (l + u)[key := v];
    var b := l[key := v];
    assert a.Keys == b.Keys;
    forall k | k in a ensures a[k] == b[k] {
    }
  }

  /** `get_ai_config`: the three AI keys under their short names. */
  datatype AiConfig = AiConfig(apiUrl: Value, apiKey: Value, model: Value)

  function GetAiConfig(f: SettingsFile): (r: AiConfig)
    ensures r.apiUrl == (if f.Saved? && "ai_api_url" in f.content then f.content["ai_api_url"] else Str(""))
    ensures r.apiKey == (if f.Saved? && "ai_api_key" in f.content then f.content["ai_api_key"] else Str(""))
    ensures r.model == (if f.Saved? && "ai_model" in f.content then f.content["ai_model"] else Str("gpt-3.5-turbo"))
  {
    var s := LoadSettings(f);
    AiConfig(s["ai_api_url"], s["ai_api_key"], s["ai_model"])
  }

  /** `updates[key] = value` when the argument is given. */
  function Put(m: Settings, key: string, v: Option<string>): (r: Settings)
    ensures r.Keys == if v.Some? then m.Keys + {key} else m.Keys
    ensures v.Some? ==> r[key] == Str(v.value)
    ensures forall k :: k in m && k != key ==> r[k] == m[k]
    ensures v.None? ==> r == m
  {
    if v.Some? then m[key := Str(v.value)] else m
  }

  /** Reading the AI configuration back after a save. */
  lemma SavedAiConfig(f: SettingsFile, updates: Settings, now: Clock)
    ensures var after := GetAiConfig(SaveSettings(f, updates, now, true).file);
      var before := GetAiConfig(f);
      && after.apiUrl == (if "ai_api_url" in updates then updates["ai_api_url"] else before.apiUrl)
      && after.apiKey == (if "ai_api_key" in updates then updates["ai_api_key"] else before.apiKey)
      && after.model == (if "ai_model" in updates then updates["ai_model"] else before.model)
  {
  }

  /** The updates `update_ai_config` passes on. */
  function AiUpdates(apiUrl: Option<string>, apiKey: Option<string>, model: Option<string>): (r: Settings)
    ensures "ai_api_url" in r <==> apiUrl.Some?
    ensures "ai_api_key" in r <==> apiKey.Some?
    ensures "ai_model" in r <==> model.Some?
    ensures apiUrl.Some? ==> r["ai_api_url"] == Str(apiUrl.value)
    ensures apiKey.Some? ==> r["ai_api_key"] == Str(apiKey.value)
    ensures model.Some? ==> r["ai_model"] == Str(model.value)
    ensures r == map[] <==> apiUrl.None? && apiKey.None? && model.None?
  {
    Put(Put(Put(map[], "ai_api_url", apiUrl), "ai_api_key", apiKey), "ai_model", model)
  }

  /** `update_ai_config`: only the arguments given are written; with none it
      answers true and writes nothing. */
  function UpdateAiConfig(f: SettingsFile, apiUrl: Option<string>, apiKey: Option<string>, model: Option<string>,
                          now: Clock, writable: bool): (r: SaveResult)
    ensures apiUrl.None? && apiKey.None? && model.None? ==> r == SaveResult(true, f)
    ensures apiUrl.Some? || apiKey.Some? || model.Some? ==>
      && (r.ok <==> writable)
      && (writable ==>
            var after := GetAiConfig(r.file);
            var before := GetAiConfig(f);
            && after.apiUrl == (if apiUrl.Some? then Str(apiUrl.value) else before.apiUrl)
            && after.apiKey == (if apiKey.Some? then Str(apiKey.value) else before.apiKey)
            && after.model == (if model.Some? then Str(model.value) else before.model))
  {
    var updates := AiUpdates(apiUrl, apiKey, model);
    if updates == map[] then SaveResult(true, f)
    else
      SavedAiConfig(f, updates, now);
      SaveSettings(f, updates, now, writable)
  }

  /** The masked form of a key: its first 8 and last 4 characters around
      "..." when it is longer than 12, otherwise "***". */
  function MaskKey(key: string): (r: string)
    ensures |key| > 12 ==> |r| == 15 && r[..8] == key[..8] && r[8..11] == "..." && r[11..] == key[|key| - 4..]
    ensures |key| <= 12 ==> r == "***"
  {
    if |key| > 12 then key[..8] + "..." + key[|key| - 4..] else "***"
  }

  /** Only a key's first 8 and last 4 characters reach the mask: keys that
      differ only in between mask alike, and so do all short keys. */
  lemma MaskHidesMiddle(a: string, b: string)
    requires |a| > 12 && |b| > 12 && a[..8] == b[..8] && a[|a| - 4..] == b[|b| - 4..]
    ensures MaskKey(a) == MaskKey(b)
  {
  }

  /** What `get_settings` answers, or an exception (a truthy key that is
      not a string). */
  datatype View = View(settings: Settings) | ViewFails

  /** `get_settings`: the settings with a non-empty key replaced by
      `ai_api_key_masked`. */
  function GetSettings(f: SettingsFile): (r: View)
    ensures var s := LoadSettings(f);
      && (r.ViewFails? <==> Truthy(s["ai_api_key"]) && !s["ai_api_key"].Str?)
      && (r.View? && !Truthy(s["ai_api_key"]) ==> r.settings == s)
      && (r.View? && Truthy(s["ai_api_key"]) ==>
            && "ai_api_key" !in r.settings && "ai_api_key_masked" in r.settings
            && r.settings["ai_api_key_masked"] == Str(MaskKey(s["ai_api_key"].s))
            && forall k :: k in s && k != "ai_api_key" && k != "ai_api_key_masked" ==> k in r.settings && r.settings[k] == s[k])
  {
    var s := LoadSettings(f);
    var key := s["ai_api_key"];
    if !Truthy(key) then View(s)
    else if !key.Str? then ViewFails
    else View(s["ai_api_key_masked" := Str(MaskKey(key.s))] - {"ai_api_key"})
  }

  /** The raw key never leaves through `get_settings`: if the key is still
      in the view, it is empty. */
  lemma SettingsViewHidesKey(f: SettingsFile)
    ensures var r := GetSettings(f);
      r.View? && "ai_api_key" in r.settings ==> !Truthy(r.settings["ai_api_key"])
  {
  }

  /** What `get_ai_settings` answers: the AI config with a non-empty key
      replaced by its mask. */
  datatype AiView = AiView(apiUrl: Value, apiKey: Option<Value>, apiKeyMasked: Option<string>, model: Value)
                  | AiViewFails

  function GetAiSettings(f: SettingsFile): (r: AiView)
    ensures var c := GetAiConfig(f);
      && (r.AiViewFails? <==> Truthy(c.apiKey) && !c.apiKey.Str?)
      && (r.AiView? ==> r.apiUrl == c.apiUrl && r.model == c.model)
      && (r.AiView? ==> (r.apiKey.None? <==> Truthy(c.apiKey)))
      && (r.AiView? && r.apiKey.Some? ==> r.apiKey.value == c.apiKey && r.apiKeyMasked.None?)
      && (r.AiView? && r.apiKey.None? ==> r.apiKeyMasked == Some(MaskKey(c.apiKey.s)))
  {
    var c := GetAiConfig(f);
    if !Truthy(c.apiKey) then AiView(c.apiUrl, Some(c.apiKey), None, c.model)
    else if !c.apiKey.Str? then AiViewFails
    else AiView(c.apiUrl, None, Some(MaskKey(c.apiKey.s)), c.model)
  }

  /** The body of `PUT /settings`. */
  datatype SettingsUpdate = SettingsUpdate(
    aiApiUrl: Option<string>,
    aiApiKey: Option<string>,
    aiModel: Option<string>,
    host: Option<string>,
    port: Option<int>)

  /** The fields of an update that are not null. */
  function UpdateFields(u: SettingsUpdate): (r: Settings)
    ensures "ai_api_url" in r <==> u.aiApiUrl.Some?
    ensures "ai_api_key" in r <==> u.aiApiKey.Some?
    ensures "ai_model" in r <==> u.aiModel.Some?
    ensures "host" in r <==> u.host.Some?
    ensures "port" in r <==> u.port.Some?
    ensures r.Keys <= {"ai_api_url", "ai_api_key", "ai_model", "host", "port"}
    ensures u.aiApiUrl.Some? ==> r["ai_api_url"] == Str(u.aiApiUrl.value)
    ensures u.aiApiKey.Some? ==> r["ai_api_key"] == Str(u.aiApiKey.value)
    ensures u.aiModel.Some? ==> r["ai_model"] == Str(u.aiModel.value)
    ensures u.host.Some? ==> r["host"] == Str(u.host.value)
    ensures u.port.Some? ==> r["port"] == Num(u.port.value)
  {
    var strings := Put(AiUpdates(u.aiApiUrl, u.aiApiKey, u.aiModel), "host", u.host);
    if u.port.Some? then strings["port" := Num(u.port.value)] else strings
  }

  /** What `update_settings` answers. */
  datatype UpdateReply = NoChanges | SavedReply(ok: bool)

  /** `update_settings`: with every field null it answers "No changes" and
      writes nothing; otherwise it saves exactly the non-null fields. */
  function UpdateSettings(f: SettingsFile, u: SettingsUpdate, now: Clock, writable: bool): (r: (UpdateReply, SettingsFile))
    ensures r.0.NoChanges? <==> UpdateFields(u) == map[]
    ensures r.0.NoChanges? ==> r.1 == f
    ensures r.0.SavedReply? ==> r.0.ok == writable && SaveSettings(f, UpdateFields(u), now, writable).file == r.1
  {
    var updates := UpdateFields(u);
    if updates == map[] then (NoChanges, f)
    else
      var saved := SaveSettings(f, updates, now, writable);
      (SavedReply(saved.ok), saved.file)
  }

  /** A null-only update is exactly the one that changes nothing. */
  lemma NoChangesIffAllNull(u: SettingsUpdate)
    ensures UpdateFields(u) == map[] <==>
      u.aiApiUrl.None? && u.aiApiKey.None? && u.aiModel.None? && u.host.None? && u.port.None?
  {
    if u.aiApiUrl.Some? { assert "ai_api_url" in UpdateFields(u); }
  }

  const ModelsSuffix: string := "/models"

  /** The model-list URL: trailing slashes dropped, then "/models" appended
      unless it is already there. */
  function ModelsUrl(apiUrl: string): (r: string)
    ensures EndsWith(r, ModelsSuffix)
    ensures EndsWith(StripEndChar(apiUrl, '/'), ModelsSuffix) ==> r == StripEndChar(apiUrl, '/')
    ensures !EndsWith(StripEndChar(apiUrl, '/'), ModelsSuffix) ==> r == StripEndChar(apiUrl, '/') + ModelsSuffix
  {
    var base := StripEndChar(apiUrl, '/');
    if EndsWith(base, ModelsSuffix) then base
    else
      assert (base + ModelsSuffix)[|base|..] == ModelsSuffix;
      base + ModelsSuffix
  }

  /** Building the URL from its own result changes nothing. */
  lemma ModelsUrlStable(apiUrl: string)
    ensures ModelsUrl(ModelsUrl(apiUrl)) == ModelsUrl(apiUrl)
  {
    var r := ModelsUrl(apiUrl);
    assert r[|r| - 1] == 's' by {
      assert r[|r| - |ModelsSuffix|..] == ModelsSuffix;
    }
    assert StripEndChar(r, '/') == r;
  }

  /** Substrings that mark a chat model. */
  const ChatFamilies: seq<string> := ["gpt", "claude", "gemini", "llama", "qwen", "glm", "deepseek"]

  /** The id names a chat model, in any letter case. */
  predicate IsChatModel(id: string) {
    ContainsAny(Lower(id), ChatFamilies)
  }

  /** How many ids the fallback list keeps. */
  const FallbackCount: nat := 20

  /** The ids `get_available_models` returns: the chat models in listed
      order, or the first 20 ids when there are none. */
  function ChooseModels(ids: seq<string>): (r: seq<string>)
    ensures (exists i :: 0 <= i < |ids| && IsChatModel(ids[i])) ==> r == Filter(ids, IsChatModel)
    ensures !(exists i :: 0 <= i < |ids| && IsChatModel(ids[i])) ==>
      r == ids[..if |ids| < FallbackCount then |ids| else FallbackCount]
    ensures forall i :: 0 <= i < |r| ==> r[i] in ids
  {
    var chat := Filter(ids, IsChatModel);
    if chat != [] then
      assert chat[0] in ids && IsChatModel(chat[0]);
      chat
    else PySlice(ids, 0, FallbackCount)
  }

  /** A chat model anywhere in the listing is returned, and the returned
      list holds nothing else. */
  lemma ChatModelsExactly(ids: seq<string>, i: int)
    requires 0 <= i < |ids| && IsChatModel(ids[i])
    ensures ids[i] in ChooseModels(ids)
    ensures forall j :: 0 <= j < |ChooseModels(ids)| ==> IsChatModel(ChooseModels(ids)[j])
  {
  }

  /** What the model endpoint answered: a status code with the `data`
      items' `id` fields, or an exception. */
  datatype ModelsFetch = Answered(status: int, ids: seq<Option<string>>) | FetchFailed(detail: string)

  /** What `get_available_models` answers. */
  datatype ModelsReply = ModelsReply(success: bool, error: Option<string>, models: seq<string>, requested: Option<string>)

  /** The ids present and non-empty, in order. */
  function PresentIds(ids: seq<Option<string>>): (r: seq<string>)
    ensures |r| <= |ids|
    ensures forall i :: 0 <= i < |r| ==> r[i] != ""
    ensures forall i :: 0 <= i < |ids| && ids[i].Some? && ids[i].value != "" ==> ids[i].value in r
    ensures forall i :: 0 <= i < |r| ==> Some(r[i]) in ids
    decreases |ids|
  {
    if |ids| == 0 then []
    else
      var rest := PresentIds(ids[1..]);
      assert forall i :: 1 <= i < |ids| ==> ids[i] == ids[1..][i - 1];
      assert forall x :: x in ids[1..] ==> x in ids;
      if ids[0].Some? && ids[0].value != "" then [ids[0].value] + rest else rest
  }

  /** Filtering a concatenation filters each half and keeps them in that
      order, so the ids come out in the order the answer lists them. */
  lemma {:induction false} PresentIdsConcat(a: seq<Option<string>>, b: seq<Option<string>>)
    ensures PresentIds(a + b) == PresentIds(a) + PresentIds(b)
    decreases |a|
  {
    if |a| == 0 {
      assert a + b == b;
    } else {
      assert (a + b)[1..] == a[1..] + b;
      PresentIdsConcat(a[1..], b);
    }
  }

  /** A further entry of the answer adds its id at the end exactly when the
      id is present and non-empty. */
  lemma PresentIdsAppend(ids: seq<Option<string>>, x: Option<string>)
    ensures PresentIds(ids + [x]) == PresentIds(ids) + (if x.Some? && x.value != "" then [x.value] else [])
  {
    PresentIdsConcat(ids, [x]);
    assert [x][1..] == [];
  }

  const NotConfigured: string := "API 未配置"
  /** The message of the `AttributeError` a number raises on `rstrip`. */
  const NoRstrip: string := "'int' object has no attribute 'rstrip'"

  /** `get_available_models`: without a URL or a key it answers at once
      with no request; otherwise it requests the models URL and filters a
      200 answer. A non-string URL fails inside the request block. */
  function GetAvailableModels(f: SettingsFile, fetch: ModelsFetch): (r: ModelsReply)
    ensures var c := GetAiConfig(f);
      && (!Truthy(c.apiUrl) || !Truthy(c.apiKey) ==> r == ModelsReply(false, Some(NotConfigured), [], None))
      && (Truthy(c.apiUrl) && Truthy(c.apiKey) && !c.apiUrl.Str? ==>
            r == ModelsReply(false, Some(NoRstrip), [], None))
      && (Truthy(c.apiUrl) && Truthy(c.apiKey) && c.apiUrl.Str? ==>
            && r.requested == Some(ModelsUrl(c.apiUrl.s))
            && (fetch.Answered? && fetch.status == 200 ==>
                  r.success && r.error.None? && r.models == ChooseModels(PresentIds(fetch.ids)))
            && (fetch.Answered? && fetch.status != 200 ==>
                  !r.success && r.error == Some("HTTP " + IntToString(fetch.status)))
            && (fetch.FetchFailed? ==> !r.success && r.error == Some(fetch.detail)))
      && (r.requested.Some? ==> c.apiUrl.Str? && r.requested.value == ModelsUrl(c.apiUrl.s))
      && (r.success ==> r.requested.Some? && fetch.Answered? && fetch.status == 200
                        && r.models == ChooseModels(PresentIds(fetch.ids)))
      && (!r.success ==> r.models == [] && r.error.Some?)
  {
    var c := GetAiConfig(f);
    if !Truthy(c.apiUrl) || !Truthy(c.apiKey) then ModelsReply(false, Some(NotConfigured), [], None)
    else if !c.apiUrl.Str? then ModelsReply(false, Some(NoRstrip), [], None)
    else
      var url := ModelsUrl(c.apiUrl.s);
      match fetch
      case FetchFailed(detail) => ModelsReply(false, Some(detail), [], Some(url))
      case Answered(status, ids) =>
        if status == 200 then ModelsReply(true, None, ChooseModels(PresentIds(ids)), Some(url))
        else ModelsReply(false, Some("HTTP " + IntToString(status)), [], Some(url))
  }

  /** The models call succeeds exactly when both settings are set, the URL
      is a string and the server answers 200; every model it lists is an id
      of that answer. */
  lemma ModelsSucceedIffAnswered(f: SettingsFile, fetch: ModelsFetch)
    ensures var c := GetAiConfig(f);
      GetAvailableModels(f, fetch).success
      <==> Truthy(c.apiUrl) && Truthy(c.apiKey) && c.apiUrl.Str? && fetch.Answered? && fetch.status == 200
    ensures var r := GetAvailableModels(f, fetch);
      forall i :: 0 <= i < |r.models| ==> fetch.Answered? && Some(r.models[i]) in fetch.ids
  {
  }
}

=== FILE: tasks.dfy ===
/** Scheduled reminder tasks (`routers/tasks.py`): the task list stored in
    `tasks/scheduled.json` and its endpoints. Generated ids and the clock are
    parameters. */
module Tasks {
  import opened Common
  import opened Seqs

  /** One stored task. `aiPrompt` distinguishes a missing key (`None`) from
      a stored null (`Some(None)`); `enabled` is `None` when the key is
      missing, which every reader takes as enabled. */
  datatype Task = Task(
    id: string,
    chatId: string,
    roleId: string,
    message: string,
    aiPrompt: Option<Option<string>>,
    triggerTime: Option<string>,
    repeat: Option<string>,
    enabled: Option<bool>,
    createdAt: string)

  /** `t.get("enabled", True)` */
  predicate IsEnabled(t: Task) {
    t.enabled.GetOr(true)
  }

  /** The request body of `create_task`; `ai_prompt` defaults to "" and may
      be sent as null. */
  datatype TaskCreate = TaskCreate(
    chatId: string,
    roleId: string,
    message: string,
    aiPrompt: Option<string>,
    triggerTime: string,
    repeat: Option<string>)

  /** `get_role_tasks`: the role's tasks, in stored order. */
  function RoleTasks(tasks: seq<Task>, roleId: string): (r: seq<Task>)
    ensures forall i :: 0 <= i < |r| ==> r[i].roleId == roleId
    ensures forall t :: t in tasks && t.roleId == roleId ==> t in r
    ensures forall t :: t in r ==> t in tasks
    ensures |r| == CountWhere(tasks, (t: Task) => t.roleId == roleId)
  {
    FilterCount(tasks, (t: Task) => t.roleId == roleId);
    Filter(tasks, (t: Task) => t.roleId == roleId)
  }

  /** Adding a task at the end adds it at the end of its own role's list and
      leaves every other role's list as it was: the role's list keeps stored
      order and lists each stored task once. */
  lemma RoleTasksAppend(tasks: seq<Task>, t: Task, roleId: string)
    ensures RoleTasks(tasks + [t], roleId)
            == RoleTasks(tasks, roleId) + (if t.roleId == roleId then [t] else [])
  {
    FilterConcat(tasks, [t], (x: Task) => x.roleId == roleId);
    assert [t][1..] == [];
  }

  /** A created task shows up last in its role's list, and in no other. */
  lemma CreateThenList(tasks: seq<Task>, req: TaskCreate, newId: string, now: Clock, roleId: string)
    ensures var r := RoleTasks(CreateTask(tasks, req, newId, now), roleId);
      && (roleId == req.roleId ==>
            |r| > 0 && r[|r| - 1].id == newId && r[..|r| - 1] == RoleTasks(tasks, roleId))
      && (roleId != req.roleId ==> r == RoleTasks(tasks, roleId))
  {
    var c := CreateTask(tasks, req, newId, now);
    assert c == tasks + [c[|tasks|]];
    RoleTasksAppend(tasks, c[|tasks|], roleId);
  }

  /** `create_task`: the new task goes last, enabled, with the fields of the
      request; the stored tasks are untouched. */
  function CreateTask(tasks: seq<Task>, req: TaskCreate, newId: string, now: Clock): (r: seq<Task>)
    ensures |r| == |tasks| + 1 && r[..|tasks|] == tasks
    ensures r[|tasks|].id == newId && r[|tasks|].roleId == req.roleId && r[|tasks|].message == req.message
    ensures r[|tasks|].aiPrompt == Some(req.aiPrompt) && r[|tasks|].triggerTime == Some(req.triggerTime)
    ensures r[|tasks|].chatId == req.chatId && r[|tasks|].repeat == req.repeat
    ensures IsEnabled(r[|tasks|]) && r[|tasks|].enabled == Some(true) && r[|tasks|].createdAt == now.iso
  {
    tasks + [Task(newId, req.chatId, req.roleId, req.message, Some(req.aiPrompt),
                  Some(req.triggerTime), req.repeat, Some(true), now.iso)]
  }

  /** The index of the first task with `taskId`, which `toggle_task`'s loop
      stops at. */
  function FirstTask(tasks: seq<Task>, taskId: string): Option<nat> {
    FirstIndex(tasks, (t: Task) => t.id == taskId)
  }

  /** What `toggle_task` answers: the error object (nothing saved), or the
      toggled task and the list to save. */
  datatype Toggled = NotFound | Toggled(tasks: seq<Task>, task: Task)

  /** `toggle_task`: the first task with the id flips between enabled and
      disabled (a task without the flag counts as enabled), nothing else
      changes. */
  function ToggleTask(tasks: seq<Task>, taskId: string): (r: Toggled)
    ensures r.NotFound? <==> FirstTask(tasks, taskId).None?
    ensures r.Toggled? ==>
      var k := FirstTask(tasks, taskId).value;
      && r.task == tasks[k].(enabled := r.task.enabled)
      && r.task.enabled.Some?
      && IsEnabled(r.task) == !IsEnabled(tasks[k])
      && r.tasks == tasks[k := r.task]
  {
    var k := FirstTask(tasks, taskId);
    if k.None? then NotFound
    else
      var t := tasks[k.value].(enabled := Some(!IsEnabled(tasks[k.value])));
      Toggled(tasks[k.value := t], t)
  }

  /** Toggling twice restores the enabled state and every other field; only
      a missing flag becomes an explicit `true`. */
  lemma ToggleTwice(tasks: seq<Task>, taskId: string)
    requires FirstTask(tasks, taskId).Some?
    ensures var k := FirstTask(tasks, taskId).value;
      var once := ToggleTask(tasks, taskId);
      var twice := ToggleTask(once.tasks, taskId);
      && twice.Toggled?
      && twice.tasks == tasks[k := tasks[k].(enabled := Some(IsEnabled(tasks[k])))]
  {
    var k := FirstTask(tasks, taskId).value;
    var once := ToggleTask(tasks, taskId);
    var f := once.tasks;
    assert forall i :: 0 <= i < k ==> f[i].id != taskId;
    FirstTaskIsFirst(f, taskId, k);
  }

  /** A task with the id, preceded by none, is what `FirstTask` finds. */
  lemma FirstTaskIsFirst(tasks: seq<Task>, taskId: string, k: nat)
    requires k < |tasks| && tasks[k].id == taskId
    requires forall i :: 0 <= i < k ==> tasks[i].id != taskId
    ensures FirstTask(tasks, taskId) == Some(k)
  {
    FirstIndexIsFirst(tasks, (t: Task) => t.id == taskId, k);
  }

  /** `delete_task`: every task with the id goes; the rest keep their order. */
  function DeleteTask(tasks: seq<Task>, taskId: string): (r: seq<Task>)
    ensures r == Filter(tasks, (t: Task) => t.id != taskId)
    ensures forall i :: 0 <= i < |r| ==> r[i].id != taskId
    ensures |r| + CountWhere(tasks, (t: Task) => t.id == taskId) == |tasks|
  {
    var keep := (t: Task) => t.id != taskId;
    FilterCountComplement(tasks, keep, (t: Task) => t.id == taskId);
    Filter(tasks, keep)
  }

  /** After a delete no task has the id: toggling it finds nothing, and
      deleting it again changes nothing. */
  lemma DeleteIsFinal(tasks: seq<Task>, taskId: string)
    ensures var t := DeleteTask(tasks, taskId);
      && ToggleTask(t, taskId).NotFound?
      && DeleteTask(t, taskId) == t
  {
    FilterIdempotent(tasks, (t: Task) => t.id != taskId);
  }

  /** Deleting a task forgets whether it was toggled: toggle then delete is
      delete. */
  lemma ToggleThenDelete(tasks: seq<Task>, taskId: string)
    ensures var toggled := ToggleTask(tasks, taskId);
      toggled.Toggled? ==> DeleteTask(toggled.tasks, taskId) == DeleteTask(tasks, taskId)
  {
    var toggled := ToggleTask(tasks, taskId);
    if toggled.Toggled? {
      var k := FirstTask(tasks, taskId).value;
      FilterUpdateDropped(tasks, k, toggled.task, (t: Task) => t.id != taskId);
    }
  }

  /** What `scheduler_status` answers. */
  datatype Status = Status(totalTasks: nat, enabledTasks: nat)

  /** `scheduler_status`: how many tasks are stored and how many of them are
      enabled (a missing flag counts as enabled). */
  function SchedulerStatus(tasks: seq<Task>): (r: Status)
    ensures r.totalTasks == |tasks|
    ensures r.enabledTasks == |Filter(tasks, IsEnabled)| == CountWhere(tasks, IsEnabled)
    ensures r.enabledTasks <= r.totalTasks
  {
    FilterCount(tasks, IsEnabled);
    Status(|tasks|, |Filter(tasks, IsEnabled)|)
  }

  /** A new task is enabled, so creating one raises both counts by one. */
  lemma CreateCounts(tasks: seq<Task>, req: TaskCreate, newId: string, now: Clock)
    ensures SchedulerStatus(CreateTask(tasks, req, newId, now))
            == Status(|tasks| + 1, SchedulerStatus(tasks).enabledTasks + 1)
  {
    var t := CreateTask(tasks, req, newId, now)[|tasks|];
    FilterConcat(tasks, [t], IsEnabled);
    assert CreateTask(tasks, req, newId, now) == tasks + [t];
  }
}

=== FILE: text.dfy ===
/** Python string operations the core relies on, over `seq<char>`. */
module Text {

  /** `s.startswith(p)` */
  predicate StartsWith(s: string, p: string) {
    |p| <= |s| && s[..|p|] == p
  }

  /** `s.endswith(p)` */
  predicate EndsWith(s: string, p: string) {
    |p| <= |s| && s[|s| - |p|..] == p
  }

  /** `t` occurs in `s` at position `i`. */
  ghost predicate OccursAt(s: string, t: string, i: int) {
    0 <= i && i + |t| <= |s| && s[i..i + |t|] == t
  }

  /** `t in s`: substring search, scanning left to right. */
  function Contains(s: string, t: string): (r: bool)
    ensures r <==> exists i :: OccursAt(s, t, i)
    decreases |s|
  {
    if StartsWith(s, t) then
      assert OccursAt(s, t, 0);
      true
    else if |s| == 0 then
      false
    else
      var rest := Contains(s[1..], t);
      ShiftOccurrence(s, t);
      rest
  }

  /** An occurrence after the first character is an occurrence in `s[1..]`. */
  lemma ShiftOccurrence(s: string, t: string)
    requires |s| > 0 && !StartsWith(s, t)
    ensures (exists i :: OccursAt(s, t, i)) <==> (exists j :: OccursAt(s[1..], t, j))
  {
    if exists i :: OccursAt(s, t, i) {
      var i :| OccursAt(s, t, i);
      if i == 0 {
        assert false;
      }
      assert s[1..][i - 1..i - 1 + |t|] == s[i..i + |t|];
      assert OccursAt(s[1..], t, i - 1);
    }
    if exists j :: OccursAt(s[1..], t, j) {
      var j :| OccursAt(s[1..], t, j);
      assert s[1..][j..j + |t|] == s[j + 1..j + 1 + |t|];
      assert OccursAt(s, t, j + 1);
    }
  }

  /** A substring of `s` is also a substring of anything containing `s`. */
  lemma ContainsInConcat(a: string, s: string, b: string, t: string)
    requires Contains(s, t)
    ensures Contains(a + s + b, t)
  {
    var i :| OccursAt(s, t, i);
    assert (a + s + b)[|a| + i..|a| + i + |t|] == s[i..i + |t|];
    assert OccursAt(a + s + b, t, |a| + i);
  }

  /** Any of `needles` occurs in `s` (Python's `for x in xs: if x in s`). */
  function ContainsAny(s: string, needles: seq<string>): (r: bool)
    ensures r <==> exists k :: 0 <= k < |needles| && Contains(s, needles[k])
  {
    if |needles| == 0 then false
    else Contains(s, needles[0]) || ContainsAny(s, needles[1..])
  }

  /** `sep.join(parts)` */
  function Join(parts: seq<string>, sep: string): string {
    if |parts| == 0 then ""
    else if |parts| == 1 then parts[0]
    else parts[0] + sep + Join(parts[1..], sep)
  }

  /** Whitespace as Python's `str.isspace` defines it (what `strip()` removes). */
  predicate IsSpace(c: char) {
    ('\U{9}' <= c <= '\U{D}') || ('\U{1C}' <= c <= '\U{20}')
    || c == '\U{85}' || c == '\U{A0}' || c == '\U{1680}'
    || ('\U{2000}' <= c <= '\U{200A}')
    || c == '\U{2028}' || c == '\U{2029}' || c == '\U{202F}' || c == '\U{205F}' || c == '\U{3000}'
  }

  /** `s.lstrip()` */
  function StripStart(s: string): (r: string)
    ensures |r| <= |s| && r == s[|s| - |r|..]
    ensures |r| > 0 ==> !IsSpace(r[0])
    ensures forall i :: 0 <= i < |s| - |r| ==> IsSpace(s[i])
  {
    if |s| > 0 && IsSpace(s[0]) then StripStart(s[1..]) else s
  }

  /** `s.rstrip()` */
  function StripEnd(s: string): (r: string)
    ensures |r| <= |s| && r == s[..|r|]
    ensures |r| > 0 ==> !IsSpace(r[|r| - 1])
    ensures forall i :: |r| <= i < |s| ==> IsSpace(s[i])
  {
    if |s| > 0 && IsSpace(s[|s| - 1]) then StripEnd(s[..|s| - 1]) else s
  }

  /** `s.strip()` */
  function Strip(s: string): (r: string)
    ensures |r| <= |s|
    ensures |r| > 0 ==> !IsSpace(r[0]) && !IsSpace(r[|r| - 1])
  {
    StripEnd(StripStart(s))
  }

  /** `s.rstrip(c)` for one character `c`. */
  function StripEndChar(s: string, c: char): (r: string)
    ensures |r| <= |s| && r == s[..|r|]
    ensures |r| > 0 ==> r[|r| - 1] != c
    ensures forall i :: |r| <= i < |s| ==> s[i] == c
  {
    if |s| > 0 && s[|s| - 1] == c then StripEndChar(s[..|s| - 1], c) else s
  }

  /** `c.lower()` as far as it matters for substring tests against needles
      made of lower-case ASCII, digits, spaces and CJK text: ASCII capitals,
      the Kelvin sign (which lowers to ASCII `k`) and the dotted capital I
      (which lowers to `i` plus a combining dot). Every other character lowers
      to a character that is none of those, so it is kept as it is. */
  function LowerChar(c: char): string {
    if 'A' <= c <= 'Z' then [(c as int + 32) as char]
    else if c == '\U{212A}' then "k"
    else if c == '\U{130}' then "i\U{307}"
    else [c]
  }

  /** `s.lower()`, per `LowerChar`. */
  function Lower(s: string): (r: string)
    ensures |r| >= |s|
  {
    if |s| == 0 then "" else LowerChar(s[0]) + Lower(s[1..])
  }

  /** Decimal digits of a natural number, as `str(n)` prints them. */
  function NatToString(n: nat): (r: string)
    ensures |r| > 0
    ensures forall i :: 0 <= i < |r| ==> '0' <= r[i] <= '9'
  {
    if n < 10 then [('0' as int + n) as char]
    else NatToString(n / 10) + [('0' as int + n % 10) as char]
  }

  /** `str(i)` for any integer. */
  function IntToString(i: int): string {
    if i < 0 then "-" + NatToString(-i) else NatToString(i)
  }
}
